=== FILE: README.md ===
# STIGQter core, modelled in Dafny

STIGQter is an open-source STIG viewer and checklist editor. It stores
STIGs (Security Technical Implementation Guides), the NIST 800-53 controls
and the CCIs (Control Correlation Identifiers) that link them in an SQLite
database. It imports STIG benchmarks and the CCI catalogue. It attaches
STIGs to assets, which creates one checklist entry per STIG check, and it
writes an eMASS test-result report that groups checklist findings by CCI.

This project models that core as pure functions over immutable data:

- `Store` (store.dfy) holds the database tables as sequences with their
  AUTOINCREMENT counters, plus the `DbManager` lookups and mutations:
  add, delete, attach, detach, update and import.
- `StoreProps` (storeprops.dfy) defines the consistency invariant `Valid`:
  fresh ascending ids, unique natural keys, and every AssetSTIG and
  CKLCheck row pointing at stored rows. It proves that every mutation
  preserves `Valid`, the as-written CCI import included.
- `StoreFlows` (storeflows.dfy) proves multi-call workflows:
  - attach-then-detach is a round trip;
  - detaching every STIG lets the asset be deleted;
  - an added control can be looked up again;
  - an added STIG can be read back.
- `Schema` (schema.dfy) models opening the database and the version-1
  schema migration.
- `ControlId` (controlid.dfy) covers the two control-string parsers of
  `DbManager`: the one `AddControl` uses and the one `GetControl` uses.
- `CciImport` (cciimport.dfy) models the CCI import worker:
  - family links on the NIST page;
  - the privacy families;
  - the controls feed;
  - the Rev 4 references of the CCI list;
  - adding the CCIs.
- `LegacyCci` (legacycci.dfy) is the older HTML-scraping variant of the same
  worker. It is related to the current one by agreement lemmas.
- `StigParse` (stigparse.dfy) is the STIG XCCDF reader, written as a fold
  over abstract XML start-element events (xml.dfy).
- `Emass` (emass.dfy) is the eMASS report: it partitions findings by CCI,
  zero-pads the CCI column and lays out the rows.
- `QtString` (qstring.dfy), `Seqs` (seqs.dfy) and `Wrappers` (wrappers.dfy)
  are helpers:
  - Qt string operations: `trimmed`, `left`, `right`, `indexOf`, `split`
    and `toInt`;
  - table primitives;
  - `Option`.

## Model

| member | source | states |
|---|---|---|
| Store.GetFamily | dbmanager.cpp:1292-1311 | The family returned is the "no family" value or a stored family with that acronym, and a stored family is returned whenever one has the acronym |
| Store.GetAssetById | dbmanager.cpp:771-779 | The result is the "no asset" value or the stored asset with that id, and the asset is found whenever one has the id |
| Store.GetAssetByHostName | dbmanager.cpp:732-740 | The result is the "no asset" value or a stored asset with that host name, and an asset is found whenever one has the name |
| Store.GetAsset | dbmanager.cpp:751-762 | The asset is looked up by a positive id first and by host name otherwise. The result is a stored asset matching one of the two, or none |
| Store.GetStigById | dbmanager.cpp:1334-1342 | The result is the "no STIG" value or the stored STIG with that id, and the STIG is found whenever one has the id |
| Store.GetStigByKey | dbmanager.cpp:1344-1356 | The result is the "no STIG" value or a stored STIG with the same title, version and release, and a STIG is found whenever one matches |
| Store.GetStig | dbmanager.cpp:1358-1369 | The STIG is looked up by a positive id first and by (title, version, release) otherwise |
| Store.GetCci | dbmanager.cpp:880-887 | The result is the "no CCI" value or the stored CCI whose row id is the argument |
| Store.GetCciByNumber | dbmanager.cpp:912-929 | A stored CCI with that CCI number is found when one exists. Otherwise the fallback CCI-000366 row is returned, or the "no CCI" value when that row is missing too |
| Store.GetCciByCci | dbmanager.cpp:940-947 | A CCI with an id is looked up by row id, and the stored row with that id is returned whenever there is one; a CCI without an id is looked up by CCI number |
| Store.GetControl | dbmanager.cpp:1216-1269 | The reference is parsed into a family, a number and an optional enhancement. The family id is resolved. The result is a stored control matching all three, or an id of -1 exactly when no stored control matches |
| Store.GetVariable | dbmanager.cpp:1371-1387 | The value of a stored variable of that name, or "" when none is stored |
| Store.DelayCommit | dbmanager.cpp:150-172 | Only the delayed-commit flag changes, and it takes the requested value |
| Store.AddAsset | dbmanager.cpp:199-235 | An asset is added exactly when no stored asset has its host name. It is appended with the next id; a refusal changes nothing |
| Store.AddCci | dbmanager.cpp:251-284 | A CCI is added exactly when its number is not yet stored. It is appended with the next id and its fields are kept; a refusal changes nothing |
| Store.AddControl | dbmanager.cpp:301-367 | A control is added exactly when its trimmed text has at least 4 characters and its family is stored. The parsed number, enhancement, title and description go into a new row with the next id |
| Store.AddFamily | dbmanager.cpp:402-417 | A family is added exactly when no stored family has its acronym or its sanitized description, both columns being unique. It is appended with the next id and the sanitized description; a refusal changes nothing |
| Store.ResolveStig | dbmanager.cpp:439-471 | A positive given id is used and the tables are unchanged. Otherwise a stored release with the same title, version and release is reused when `stigExists` holds and refused when it does not. A release not stored is appended under the next id. Every id produced is positive |
| Store.AddStig | dbmanager.cpp:431-526 | An unknown release is inserted under the next id, a known one is reused, and every check is appended numbered from the counter and tied to that STIG id. The delayed-commit flag is restored; a refusal changes nothing |
| Store.ChecksOf | dbmanager.cpp:1094-1150 | The checks returned are exactly the stored checks of that STIG |
| Store.NewCklChecks | dbmanager.cpp:558-561 | One checklist entry per STIG check, in the checks' order. Entry i gets id counter + 1 + i, the asset, and check i's id. It is Not Reviewed, with empty texts and no severity override |
| Store.AddStigToAsset | dbmanager.cpp:540-570 | Attaching succeeds exactly when both the asset and the STIG resolve. It appends one link and one checklist entry per check of the STIG; a refusal changes nothing |
| Store.DeleteAsset | dbmanager.cpp:590-609 | An asset is deleted exactly when no STIG is mapped to it. Only the assets table changes, and the other assets stay |
| Store.DeleteAssetById | dbmanager.cpp:579-582 | When an asset has the id, the delete succeeds exactly when no STIG is mapped to it. Only the assets table changes: no asset with the id is left, and every other stored asset stays |
| Store.DeleteCcis | dbmanager.cpp:618-636 | Families, controls and CCIs are emptied and nothing else changes |
| Store.DeleteStig | dbmanager.cpp:644-676 | A STIG is deleted exactly when no asset uses it. Only the STIG and STIG-check tables change |
| Store.DeleteStigFromAsset | dbmanager.cpp:697-723 | Detaching succeeds exactly when both resolve. It removes that asset's links to the STIG and the checklist entries of its checks and keeps every other row |
| Store.UpdateCklCheck | dbmanager.cpp:1405-1433 | The targeted entries take the new status, details, comments, severity override and justification. An entry is targeted by id when the id is positive, and by asset and STIG check otherwise. Ids and links never change, and other entries and tables are unchanged |
| Store.ImportCciAsWritten | dbmanager.cpp:1389-1403 | As written, every CCI row takes the import flag and the import columns of the given CCI, and keeps its other fields |
| Store.ImportCciAsWrittenSpreads | dbmanager.cpp:1395 | Importing the result of CCI-000366 marks CCI-000367 as imported, with the same compliance |
| Store.ImportCci | dbmanager.cpp:1389-1403 | Only the rows with the imported CCI's number take its import flag and columns; all other rows and tables are unchanged (the corrected import) |
| Store.ImportCciOnlyItsRow | dbmanager.cpp:1389-1403 | The corrected import records CCI-000366's result and leaves CCI-000367 untouched |
| Store.ReadStigCheckAsWritten | dbmanager.cpp:1120-1146 | The row read back has third-party tools replaced by the responsibility column and an empty responsibility; every other field is kept |
| Store.ReadStigCheckAsWrittenLoses | dbmanager.cpp:1141-1143 | A concrete stored check whose third-party tools text is lost on reading |
| Store.ReadStigCheck | dbmanager.cpp:1120-1146 | A row read back keeps both its third-party tools and its responsibility (the corrected read) |
| Store.GetStigChecks | dbmanager.cpp:1094-1150 | As written: the checks of the STIG in stored order. Each has its responsibility text as third-party tools and an empty responsibility; every other field is as stored |
| Store.GetStigChecksCorrected | dbmanager.cpp:1094-1150 | With the corrected read: exactly the stored checks of the STIG, in rowid order |
| StoreProps.EmptyValid | dbmanager.cpp:1458-1588 | A freshly created schema satisfies the consistency invariant |
| StoreProps.DelayCommitValid | dbmanager.cpp:150-172 | Toggling delayed commits preserves the invariant |
| StoreProps.AddAssetValid | dbmanager.cpp:199-235 | Adding an asset preserves fresh ids, unique host names and links |
| StoreProps.AddCciValid | dbmanager.cpp:251-284 | Adding a CCI preserves the invariant, including unique CCI numbers |
| StoreProps.AddControlValid | dbmanager.cpp:301-367 | Adding a control preserves the invariant |
| StoreProps.AddFamilyValid | dbmanager.cpp:402-417 | Adding a family preserves the invariant, including unique acronyms |
| StoreProps.DeleteCcisValid | dbmanager.cpp:618-636 | Emptying the catalogue preserves the invariant |
| StoreProps.ImportCciValid | dbmanager.cpp:1389-1403 | Recording import results preserves the invariant |
| StoreProps.ImportCciAsWrittenValid | dbmanager.cpp:1389-1403 | The import as written, whose UPDATE rewrites every CCI row, still preserves the invariant: ids, CCI numbers and links are untouched |
| StoreProps.UpdateCklCheckValid | dbmanager.cpp:1405-1433 | Updating a checklist entry preserves the invariant |
| StoreProps.AddStigValid | dbmanager.cpp:431-526 | Adding a STIG with its checks preserves the invariant, including unique releases |
| StoreProps.NewReleaseUnique | dbmanager.cpp:439-471 | Appending a release that the lookup did not find keeps (title, version, release) unique |
| StoreProps.AddStigToAssetValid | dbmanager.cpp:540-570 | Attaching a STIG preserves the invariant; every new checklist entry points at a stored asset and a check of a mapped STIG |
| StoreProps.DeleteAssetValid | dbmanager.cpp:590-609 | Deleting an unmapped asset leaves no dangling link |
| StoreProps.DeleteStigValid | dbmanager.cpp:644-676 | Deleting an unused STIG leaves no dangling link |
| StoreProps.DeleteStigFromAssetValid | dbmanager.cpp:697-723 | Detaching a STIG preserves the invariant |
| StoreProps.CheckStigUnique | dbmanager.cpp:1094-1150 | With fresh ids, a check id determines its STIG |
| StoreFlows.AttachOneEntryPerCheck | dbmanager.cpp:540-570 | After attaching, each check of the STIG has exactly one new checklist entry for the asset |
| StoreFlows.DetachKeepsOtherEntries | dbmanager.cpp:697-723 | Detaching keeps every checklist entry that belongs to another asset or another STIG |
| StoreFlows.AttachDetachRoundTrip | dbmanager.cpp:540-723 | Attaching an unmapped STIG and then detaching it restores the links and the checklist entries |
| StoreFlows.StigsOfAsset | dbmanager.cpp:1152-1155 | The STIGs returned are exactly the stored STIGs mapped to the asset |
| StoreFlows.DetachAllUnmaps | src/main.cpp:199-206 | Detaching a list of STIGs one by one removes every link of the asset to any of them |
| StoreFlows.DetachAllValid | src/main.cpp:199-206 | Detaching a list of STIGs preserves the invariant |
| StoreFlows.DetachAllThenDelete | src/main.cpp:199-206 | Once every mapped STIG is detached, deleting the asset succeeds |
| StoreFlows.RetireAsset | src/main.cpp:199-206 | Detaching the asset's own STIGs and then deleting it succeeds, and the asset is gone |
| StoreFlows.AddThenGetControl | dbmanager.cpp:301-367 | After a control is added, looking up the same text finds a control with the parsed family, number and enhancement |
| StoreFlows.AddedControlMatches | dbmanager.cpp:1216-1269 | After a control is added, the new row matches its own lookup |
| StoreFlows.BaseLookupFindsEnhancement | dbmanager.cpp:1216-1269 | A base reference "AC-2" finds a stored enhancement of AC-2, such as AC-2(1), when it is the only AC-2 row, because the lookup constrains the enhancement only when it is positive |
| StoreFlows.UpdateOneEntry | dbmanager.cpp:1405-1433 | With fresh ids, updating a checklist entry changes that row and no other |
| StoreFlows.AddStigReadBack | dbmanager.cpp:1094-1150 | After a STIG is added, reading its checks back with the corrected read returns exactly the added checks, numbered and tied to its id |
| StoreFlows.AddStigReadBackAsWritten | dbmanager.cpp:1094-1150 | After a STIG is added, reading its checks back as written returns the numbered checks with each responsibility text in place of the third-party tools |
| Schema.UpdateDatabaseFromVersion | dbmanager.cpp:1458-1588 | A version of 0 or less creates the schema and records version 1; a positive version changes nothing; the function always reports false |
| Schema.OpenFresh | dbmanager.cpp:89-116 | Opening a missing or empty database yields empty tables at version "1" |
| Schema.OpenMigrated | dbmanager.cpp:112-115 | Opening a database with a positive version leaves it unchanged |
| Schema.OpenIdempotent | dbmanager.cpp:89-116 | Reopening what was just opened changes nothing |
| Schema.OpenUnmigrated | dbmanager.cpp:1458-1588 | Opening a database whose version is not positive appends one more version row and changes nothing else |
| ControlId.ParseNewControl | dbmanager.cpp:305-338 | A control with fewer than 4 trimmed characters is rejected, and every longer one parses |
| ControlId.InsertAgreesWithLookup | dbmanager.cpp:305-338 | On every control string that the add path accepts, the add parser and the lookup parser agree |
| ControlId.CutAtSecondSpaceKeepsPrefix | dbmanager.cpp:1220-1226 | Cutting at the second space keeps a prefix of the text |
| ControlId.ParseFormatted | dbmanager.cpp:1218-1246 | Parsing a control formatted as "FF-n" or "FF-n (m)" gives back its family, number and enhancement |
| ControlId.ParseOfParts | dbmanager.cpp:1218-1246 | Parsing the attached form "FF-n(m)" gives back family, number and enhancement |
| ControlId.ParseSpacedExample | dbmanager.cpp:1218-1246 | "AC-2 (1)" parses to AC / 2 / enhancement 1 |
| ControlId.ParseAttachedExample | dbmanager.cpp:1218-1246 | "AC-2(1)" parses to AC / 2 / enhancement 1 |
| ControlId.ParseBaseExample | dbmanager.cpp:1218-1246 | "AC-2" parses to AC / 2 with no enhancement |
| CciImport.ReferenceControl | src/workercciadd.cpp:278-294 | The control string built from a reference index starts with the base control. The parenthesised part is appended only when it is an enhancement, meaning there is no second space or the '(' comes before it |
| CciImport.ReferenceOfFormatted | src/workercciadd.cpp:278-294 | An enhancement written the catalogue's way ("AC-2 (1)") becomes the attached form ("AC-2(1)"); a base control is kept |
| CciImport.ReferenceResolves | src/workercciadd.cpp:278-294 | The control string built from a formatted reference parses back to the same family, number and enhancement |
| CciImport.ReferenceExample | src/workercciadd.cpp:278-294 | "AC-2 (1)" becomes "AC-2(1)", which parses to AC / 2 / 1 |
| CciImport.ReferenceCutExamples | src/workercciadd.cpp:278-294 | A parenthesis after the second space, a sub-item letter or a '.' is cut off |
| CciImport.ReferenceCutItem | src/workercciadd.cpp:278-294 | For any separator-free head, word and m, "head word (m)" keeps only the head: a '(' after the second space is not an enhancement |
| CciImport.ReferenceCutSecond | src/workercciadd.cpp:278-294 | "head (m) (w)" becomes "head(m)": the first parenthesis, before the second space, is kept and the second is dropped |
| CciImport.ReferenceCutLetter | src/workercciadd.cpp:278-284 | "head w" becomes "head": text after the first space is cut |
| CciImport.ReferenceCutDot | src/workercciadd.cpp:278-284 | "head.w" becomes "head": text from the first '.' is cut |
| CciImport.LinkFamily | src/workercciadd.cpp:87-108 | A link yields a family exactly for an "a" element with an id ending in "FamilyLink" and an href. The acronym is a prefix of the trimmed text |
| CciImport.FamilyLinks | src/workercciadd.cpp:83-111 | Every family read comes from a link on the page, and every family link on the page is read |
| CciImport.LinkFamilyOfText | src/workercciadd.cpp:87-108 | "FF - Name" link text gives acronym FF and name Name |
| CciImport.AddFamilies | src/workercciadd.cpp:83-125 | Only families and the counter change, earlier families are kept, and every family given is present afterwards |
| CciImport.ReadFamilies | src/workercciadd.cpp:83-125 | Commits are re-enabled, and every family linked from the page is present, as is every family in the extra list (the import passes the eight privacy families there) |
| CciImport.FeedStep | src/workercciadd.cpp:137-173 | A control start flushes the pending control and leaves the statement. Other elements inside a statement are ignored. Number, title and description fill the pending control |
| CciImport.FeedAllAppend | src/workercciadd.cpp:134-177 | Reading the feed in two pieces is reading it whole |
| CciImport.FlushEmpty | src/workercciadd.cpp:176-177 | Flushing with no pending control adds nothing |
| CciImport.AddControls | src/workercciadd.cpp:134-177 | Only controls and the counter change, and earlier controls are kept |
| CciImport.ReadControlsOfEntries | src/workercciadd.cpp:134-177 | Reading a feed built from entries is the same as adding the trimmed entries in order |
| CciImport.StatementIgnores | src/workercciadd.cpp:150-160 | Inside a statement, elements other than description and supplemental guidance change nothing |
| CciImport.ScanStep | src/workercciadd.cpp:244-299 | A step emits a CCI exactly at a Rev 4 reference with an index while a CCI id is known. The emitted CCI takes its number from the id's last six characters and its control from the reference |
| CciImport.ScanFile | src/workercciadd.cpp:236-303 | Every CCI collected is explained by some reference event naming its control, and its number comes from the current or an earlier cci_item id |
| CciImport.NoIdNoCcis | src/workercciadd.cpp:264 | Without any CCI id, no CCI is collected |
| CciImport.NoRev4NoCcis | src/workercciadd.cpp:272 | Without a Rev 4 reference, no CCI is collected |
| CciImport.CciNumberOfId | src/workercciadd.cpp:277 | The number of "CCI-dddddd" is the decimal value of its six digits |
| CciImport.ScanExample | src/workercciadd.cpp:236-303 | A cci_item CCI-000366 with a Rev 4 reference CM-6 b and a Rev 5 one yields one CCI, numbered 366, with CM-6's control id |
| CciImport.AddCcis | src/workercciadd.cpp:312-318 | Only CCIs and the counter change, earlier CCIs are kept, new rows are not imported, and every CCI given is present afterwards |
| CciImport.ImportCcis | src/workercciadd.cpp:307-320 | Commits are re-enabled and every collected CCI is present afterwards |
| CciImport.SameLookups | src/workercciadd.cpp:236-303 | Collecting CCIs depends only on the families and controls |
| CciImport.ProcessValid | src/workercciadd.cpp:63-324 | The whole import preserves the consistency invariant |
| LegacyCci.LegacyLinkFamily | workercciadd.cpp:61-82 | The legacy reader takes the acronym from the first two characters and the name from character 5 on. It yields a family exactly for an "a" element with a FamilyLink id and an href |
| LegacyCci.LegacyLinkOfText | workercciadd.cpp:61-82 | On "FF - Name" link text with a two-character FF, the legacy reader gives acronym FF and name Name, whatever their spacing. When FF is two capitals and Name has no outer spaces, the current reader gives the same family |
| LegacyCci.PaddedName | workercciadd.cpp:61-82 | On text with trailing space, the legacy name keeps the space and so differs from the current reader's |
| LegacyCci.LegacyReadFamilies | workercciadd.cpp:57-86 | Every linked family is added, and the pages to visit are exactly the links' hrefs |
| LegacyCci.ControlHrefs | workercciadd.cpp:100-119 | The hrefs kept are exactly the page's "/control/" links without a query |
| LegacyCci.QueryHrefSkipped | workercciadd.cpp:100-119 | A control link with a "?" query is skipped and one without is kept |
| LegacyCci.TitleParts | workercciadd.cpp:141-145 | The trimmed page title, after its 16-character prefix, splits at " - " into the control and its name. Neither piece holds " - ". When the rest holds " - ", the control ends at its first occurrence, with no occurrence before it, and the name follows an occurrence; otherwise both pieces are the whole rest |
| LegacyCci.TitlePartsFirst | workercciadd.cpp:141-145 | For any title "prefix + control + ' - ' + tail", the control piece is exactly the control, whatever the tail holds, including further or overlapping separators |
| LegacyCci.TitlePartsOverlap | workercciadd.cpp:143 | With overlapping separators, "a - - b" is cut at its first " - ", giving the control "a" |
| LegacyCci.TitlePartsOf | workercciadd.cpp:141-145 | A title "prefix + control + ' - ' + name" splits back into control and name |
| LegacyCci.ControlPageStep | workercciadd.cpp:139-146 | A title whose control text has at least 4 trimmed characters and a stored family appends exactly one control, under the next id. Its number and enhancement are parsed from the control text, its title is the name after " - ", and it has no description. Any other element, or a title that does not qualify, changes nothing |
| LegacyCci.LegacyReadControls | workercciadd.cpp:125-193 | Only controls and the counter change, earlier controls are kept, and commits are re-enabled |
| LegacyCci.ReadControlPageEntries | workercciadd.cpp:134-146 | Reading one control page adds the control named by each title element, in page order |
| LegacyCci.ReadPagesEntries | workercciadd.cpp:127-190 | Reading the pages one after another adds the title controls of every page, page by page |
| LegacyCci.LegacyReadControlsOfTitles | workercciadd.cpp:125-193 | With commits delayed, step 5 adds the control named by every title element of every page, in order. It uses the same AddControls as the current worker's feed, then re-enables commits |
| LegacyCci.LegacyReadControlsValid | workercciadd.cpp:125-193 | Reading control pages preserves the consistency invariant |
| LegacyCci.LegacyReferenceControl | workercciadd.cpp:286-296 | The legacy control string starts with the base control and appends the parenthesised text whenever there is one |
| LegacyCci.LegacyAgrees | workercciadd.cpp:286-296 | The legacy and current control strings are equal exactly when the index has no '(', or its '(' comes before any second space, or no ')' follows the '(' |
| LegacyCci.LegacyStrayEnhancement | workercciadd.cpp:286-296 | "AC-2 a (1)" becomes "AC-2(1)" in the legacy reader but "AC-2" in the current one |
| LegacyCci.LegacyScanStep | workercciadd.cpp:244-303 | The legacy scan step emits exactly where the current one does, with the same state, number and definition |
| LegacyCci.LegacyScanAgrees | workercciadd.cpp:244-303 | Where the two control strings agree on every reference, the legacy and current scans collect the same CCIs |
| StigParse.HeaderField | workerstigadd.cpp:44-73 | Before the rules, a header element sets the STIG's title, description, release or version. A release-info plain-text sets the release. Other elements change nothing |
| StigParse.BeforeRules | workerstigadd.cpp:44-82 | The header is read only before a Profile. A Group enters rule mode, and a Profile stops header reading |
| StigParse.ParsedHeader | workerstigadd.cpp:44-84 | The parsed STIG header is the fold of the elements before the first Group or Profile; later elements never change it |
| StigParse.HeaderFrozen | workerstigadd.cpp:44-84 | Once in rule mode or past a Profile, the header never changes and rule mode is never left |
| StigParse.InRules | workerstigadd.cpp:86-214 | A Group with an id opens a group and sets the vulnerability number. A Rule files the pending check and starts a new one. A title goes to the group title or the rule title. An ident starting "CCI" sets the CCI through the corrected lookup by CCI number (see Findings). Other elements leave the checks |
| StigParse.FieldRead | workerstigadd.cpp:126-212 | A title fills the group or rule title. A description is ignored inside a Group; otherwise its elements fill the check. An ident starting "CCI" sets the CCI (corrected lookup), and any other ident changes nothing. Every other element goes to the fix, check-reference and check-text reader |
| StigParse.CheckField | workerstigadd.cpp:195-212 | A fixtext sets the fix text. A check-content-ref with a name sets the check reference. A check-content sets the check text. Each is trimmed, and any other element changes nothing |
| StigParse.Description | workerstigadd.cpp:133-188 | Parsing a rule description changes only the description-derived fields |
| StigParse.DescriptionField | workerstigadd.cpp:143-184 | Each of the ten named elements sets exactly its own field, with the trimmed text, or with the Documentable test; other elements change nothing |
| StigParse.DescriptionLastWins | workerstigadd.cpp:140-186 | After the whole description, each text field holds the trimmed text of the last element with its name, or keeps its value when there is none |
| StigParse.DocumentableLastWins | workerstigadd.cpp:140-186 | The documentable flag is decided by the last Documentable element, and kept when there is none |
| StigParse.DocumentableIff | workerstigadd.cpp:157-160 | A check is documentable exactly when its trimmed text starts with 't' or 'T' |
| StigParse.DocumentableField | workerstigadd.cpp:157-160 | The Documentable field sets exactly that flag |
| StigParse.IdentCci | workerstigadd.cpp:189-194 | The ident's CCI number resolves to the stored CCI with that number (the corrected lookup) |
| StigParse.IdentCciAsWrittenMisses | workerstigadd.cpp:193 | Looking CCI-000366 up by row id, as written, finds nothing when its row id is 1 |
| StigParse.IdentCciFinds | workerstigadd.cpp:189-194 | The corrected lookup finds CCI-000366 in the same table |
| StigParse.FieldsCarried | workerstigadd.cpp:99-125 | A Rule sets the rule id, severity and weight from its attributes and files the previous check when there was one |
| StigParse.TitleRouting | workerstigadd.cpp:126-132 | A title inside a Group becomes the group title, and one after the Rule becomes the rule title |
| StigParse.NoGroupNoChecks | workerstigadd.cpp:216-220 | A document without a Group yields no checks |
| StigParse.RuleCount | workerstigadd.cpp:99-109 | In rule mode, every qualifying Rule accounts for exactly one check, either filed or still pending |
| StigParse.CheckCount | workerstigadd.cpp:99-220 | After the first Group there is one check per Rule, or a single blank check when there is no Rule |
| StigParse.Finish | workerstigadd.cpp:216-220 | The kept checks come first and in order. In rule mode the pending check is filed after them; otherwise nothing is added |
| StigParse.ImportStig | workerstigadd.cpp:216-222 | A parsed release that is already stored is refused and nothing changes. A new release is appended under the next STIG id, and the parsed checks are appended after it, numbered from the check counter |
| StigParse.ImportStigReadBack | workerstigadd.cpp:216-222 | A new release's checks, read back with the corrected read, are the parsed checks in document order, numbered from the check counter |
| StigParse.ImportStigCount | workerstigadd.cpp:99-222 | A new release whose rules start at a Group reads back with one check per qualifying Rule, or one check when there is none |
| Emass.Tally | src/workeremassreport.cpp:173-189 | An Open finding puts its CCI in failed and out of passed. A Not-a-Finding adds to passed unless the CCI already failed. Other statuses change nothing. Failed and passed stay disjoint |
| Emass.TallyAll | src/workeremassreport.cpp:165-191 | Tallying all findings yields disjoint failed and passed maps |
| Emass.ChecksWith | src/workeremassreport.cpp:173-189 | The checks with a CCI and a status are empty exactly when no finding has that pair |
| Emass.TallyAllContents | src/workeremassreport.cpp:165-191 | A CCI fails exactly when some finding is Open. It passes exactly when some finding is Not-a-Finding and none is Open. Each list holds that CCI's Open, resp. Not-a-Finding, checks in order |
| Emass.Padded | src/workeremassreport.cpp:221-223 | The CCI column text is at least six characters |
| Emass.PadCci | src/workeremassreport.cpp:221-223 | The padding loop ends with the number's text prefixed by zeros to six characters |
| Emass.PaddedValue | src/workeremassreport.cpp:221-223 | The padded text reads back as the same number |
| Emass.PaddedRoundTrip | src/workeremassreport.cpp:221-223 | Below a million the padding has exactly six digits, and "CCI-" plus it gives the number back through the import's rightmost-six-characters parse |
| Emass.Latest | src/workeremassreport.cpp:250-253 | The latest-results columns are the imported values for an imported CCI and empty otherwise |
| Emass.FailedRow | src/workeremassreport.cpp:206-254 | A failed CCI's row is Non-Compliant and its results start with the open-checks header |
| Emass.PassedRow | src/workeremassreport.cpp:259-305 | A passed CCI's row is Compliant and its results start with the compliant-checks header |
| Emass.LeftoverRow | src/workeremassreport.cpp:310-348 | A CCI without findings has empty compliance, results, date and tester |
| Emass.Plan | src/workeremassreport.cpp:195-350 | Failed rows come first, then passed rows, then the untested CCIs, numbered from row 6. Each row carries its padded CCI and latest results |
| Emass.PlanCcis | src/workeremassreport.cpp:195-350 | The CCIs of the rows are the failed keys, then the passed keys, then the leftover stored CCIs |
| Emass.PlanCovers | src/workeremassreport.cpp:195-350 | No CCI gets two rows. A CCI gets a row exactly when it failed, passed, or is stored and has no finding |
| Emass.ReportCompliance | src/workeremassreport.cpp:165-334 | End to end, a row is Non-Compliant exactly when its CCI has an Open finding. It is Compliant exactly when its CCI has a Not-a-Finding and no Open finding, and empty otherwise |
| Emass.AnyUnimported | src/workeremassreport.cpp:246-247 | True exactly when some CCI in the list was not imported |
| Emass.WarnsIff | src/workeremassreport.cpp:352-353 | The warning is shown exactly when the database came from an eMASS import and some failed or passed CCI was not imported |

## Left out

- `Valid` does not cover four foreign keys the schema declares:
  Control.FamilyID (dbmanager.cpp:1481), CCI.ControlId
  (dbmanager.cpp:1494), and STIGCheck.STIGId and STIGCheck.CCIId
  (dbmanager.cpp:1538-1539). The program does not keep them either:
  `DeleteCcis` leaves STIGCheck rows naming deleted CCIs, and `AddStig`
  with a positive id that is not stored appends checks of no stored STIG.
- Downloads, zip extraction, file access, and the HTML and XML clean-up
  (`DownloadPage`, `GetFilesFromZip`, `CleanXML`): pages and files are
  given as sequences of start-element events. The XML tokeniser
  (`QXmlStreamReader`) is abstracted to those events, each carrying its
  name, its attributes and its element text.
- Several XML files in one import are modelled as a list of event
  sequences. Reader errors (`hasError`) end nothing early in the model.
- Progress signals, status text, `Warning` dialogs and the UI are left
  out. A warning becomes a boolean where the report depends on it
  (`Emass.Warns`).
- Calls into code that is not part of this model are parameters:
  - `Sanitize` in `AddFamily`;
  - `GetSeverity` and `GetCCINumber` in the STIG reader (`StigParse.Helpers`);
  - the check description, the severity text and the check ordering in
    the report (`Emass.Context`).

  `PrintAsset`, `PrintCKLCheck`, `Excelify` and the other spreadsheet
  writers are not part of this model.
- The report's columns 0-2 and 4-6 are left out: the CCI text and the
  control text, which come from the control lookup of the report's
  first part. The current date and the `USER`/`USERNAME` environment are
  parameters.
- `QMap<CCI, …>` key order in the report is the `order` parameter.
  `QMap::contains` is read as plain equality of CCI rows.
- `StigParse.InRules`: the Rule `weight` attribute is kept as its text
  rather than converted with `toDouble`.
- The defaults of `STIG` and `STIGCheck` that the headers define are
  stated as constants: version -1 for "no STIG", and a blank check with
  id -1 and severity 0.
- `StigParse.ImportStig`: `AddSTIG`'s default `stigExists` argument is
  false at the call site, and the model passes false.
- `CciImport.ReferenceControl`: a `QStringRef` with a negative length (a
  ")" before the "(") is taken as empty.
- The older `AddCCI` and `AddControl` overloads that take separate
  arguments are not modelled as their own members. The legacy worker
  calls them: its two-argument `AddControl` (workercciadd.cpp:145) is
  mapped onto `Store.AddControl` with an empty description, and its
  three-argument `AddCCI` (workercciadd.cpp:318) onto `Store.AddCci`
  with a record built from those arguments.
- LegacyCci.TitleParts: a trimmed title shorter than 16 characters builds
  a `QStringRef` with a negative length (workercciadd.cpp:142), which is
  undefined behaviour in Qt. The model takes it as the empty text.
- LegacyCci.TitleParts: the name piece is stated to hold no " - " and to
  follow a " - ", but not to follow the last separator the left-to-right
  split finds. When separators overlap ("a - - b"), the contract admits
  more than one name piece; the control piece is pinned exactly.
- LegacyReadControls: the enhancement loop of the legacy control pages
  (workercciadd.cpp:178-187) scans the raw page text for
  "EnhancementNameDT" and adds one control per match. The model sees
  each page only as start-element events, which do not carry that raw
  text, so the model adds no enhancement controls.
- `StoreFlows.StigsOfAsset`: returns the asset's STIGs in stored order,
  not sorted by title as the SQL query does.
- `Store.GetControl`: the SELECT has no `ORDER BY`, and the model
  returns the first matching row in rowid order.
- `IsEmassImport` is a parameter of the report (`emassImport`).
- QtString.StartsWithNoCase: folds only the ASCII letters A-Z; Qt's
  case-insensitive comparison also folds other letters. The model uses
  it only to compare against "t" and "CCI".
- Strings are sequences of Unicode code points, not UTF-16 code units as
  in `QString`. Lengths and offsets (such as the 16-character title
  prefix) differ only for characters outside the Basic Multilingual Plane.
- SQL errors, transactions and commit batching are left out: each
  operation is atomic, and `DelayCommit` only records its flag.

## Findings

| source | as written | input that shows it | evidently intended | confidence | as-written member | corrected member |
|---|---|---|---|---|---|---|
| dbmanager.cpp:1141-1143 | Reading STIG checks assigns column 22 (responsibility) to `thirdPartyTools` a second time, overwriting column 20 and never setting `responsibility` | A stored check with third-party tools "tools" and responsibility "owner" reads back with third-party tools "owner" and responsibility "" | Column 22 sets `responsibility` | high; not executed | Store.ReadStigCheckAsWrittenLoses | StoreFlows.AddStigReadBack |
| dbmanager.cpp:1389-1403 | The UPDATE of the import columns has no WHERE clause, so every CCI row takes the imported CCI's result | Two CCIs, 366 and 367, none imported: importing a Compliant result for CCI-000366 marks CCI-000367 imported and Compliant | Update only the row with that CCI number | medium; not executed | Store.ImportCciAsWrittenSpreads | Store.ImportCciOnlyItsRow |
| workerstigadd.cpp:193 | The ident's CCI number is passed to `GetCCI`, which looks a CCI up by its row id (dbmanager.cpp:880-887) | A table whose only CCI is CCI-000366 with row id 1: the ident "CCI-000366" resolves to no CCI | Look the CCI up by its number (`GetCCIByCCI`) | medium; not executed | StigParse.IdentCciAsWrittenMisses | StigParse.IdentCciFinds |

=== FILE: cciimport.dfy ===
/**
 * The CCI import job of src/workercciadd.cpp: the 800-53 families from the
 * NIST family links, the controls feed, and the CCI list whose references
 * are turned into control strings and resolved with GetControl. Downloads,
 * unzipping and the XML tokeniser are not modelled: each document arrives
 * as its stream of start elements.
 */
module CciImport {
  import opened Wrappers
  import opened QtString
  import opened ControlId
  import opened Seqs
  import opened XmlEvents
  import opened Store
  import opened StoreProps

  // ---------------------------------------------------------------------
  // Reference index to control string (src/workercciadd.cpp:277-294)
  // ---------------------------------------------------------------------

  /**
   * QStringRef(&index, open, close - open + 1): the text from `open` through
   * `close`. A non-positive length (no ')' or one before the '(') selects
   * nothing; a negative length is undefined behaviour in Qt and is taken as
   * nothing here.
   */
  function EnhancementRef(index: string, open: int, close: int): (r: string)
    requires 0 <= open < |index| && -1 <= close < |index|
    ensures close >= open ==> |r| == close - open + 1 && r[0] == index[open] && r[|r| - 1] == index[close]
    ensures close < open ==> r == ""
  {
    if close >= open then index[open..close + 1] else ""
  }

  /** The index cut at its first space, then at its first '.'. */
  function BaseControl(index: string): (r: string)
    ensures StartsWith(index, r)
    ensures ' ' !in r && '.' !in r
  {
    var c1 := if Contains(index, ' ') then Left(index, IndexOf(index, ' ')) else index;
    assert ' ' !in c1;
    var c2 := if Contains(c1, '.') then Left(c1, IndexOf(c1, '.')) else c1;
    assert StartsWith(c1, c2);
    c2
  }

  /**
   * Whether the parenthesised text of `index` is an enhancement: there is a
   * '(' and either no second space or the '(' comes before it.
   */
  predicate EnhancementWanted(index: string) {
    Contains(index, '(')
    && var second := IndexOfFrom(index, ' ', IndexOf(index, ' ') + 1);
       second <= 0 || IndexOf(index, '(') < second
  }

  /**
   * The control string the CCI import builds from a reference index
   * (src/workercciadd.cpp:278-294): the base control, followed by the text
   * from '(' through ')' when that is an enhancement.
   */
  function ReferenceControl(index: string): (r: string)
    ensures StartsWith(r, BaseControl(index))
    ensures !EnhancementWanted(index) ==> r == BaseControl(index)
    ensures EnhancementWanted(index) && IndexOf(index, ')') >= IndexOf(index, '(') ==>
              |r| > |BaseControl(index)| && r[|BaseControl(index)|] == '(' && r[|r| - 1] == ')'
  {
    var control := BaseControl(index);
    if EnhancementWanted(index) then
      control + EnhancementRef(index, IndexOf(index, '('), IndexOf(index, ')'))
    else control
  }

  /** A family code as the catalogue writes it: two capital letters. */
  predicate IsFamilyCode(f: string) {
    |f| == 2 && forall i :: 0 <= i < 2 ==> 'A' <= f[i] <= 'Z'
  }

  /** `head` holds no space, '.', '(' or ')'. */
  predicate Bare(head: string) {
    forall i :: 0 <= i < |head| ==> head[i] != ' ' && head[i] != '.' && head[i] != '(' && head[i] != ')'
  }

  lemma FormattedHeadBare(family: string, n: string)
    requires IsFamilyCode(family) && |n| >= 1 && AllDigits(n)
    ensures Bare(family + "-" + n) && |family + "-" + n| >= 4
  {
    var head := family + "-" + n;
    NoSpaceInDigits(n);
    forall i | 0 <= i < |head|
      ensures head[i] != ' ' && head[i] != '.' && head[i] != ')'
    {
      if i >= 3 {
        assert head[i] == n[i - 3];
      } else if i < 2 {
        assert head[i] == family[i];
      }
    }
  }

  /** A bare index is kept whole. */
  lemma ReferenceOfBare(head: string)
    requires Bare(head)
    ensures ReferenceControl(head) == head
  {
    IndexOfNone(head, ' ', 0);
    IndexOfNone(head, '.', 0);
    IndexOfNone(head, '(', 0);
  }

  /** "head (m)" with a bare head and bare m becomes "head(m)". */
  lemma ReferenceOfSpaced(head: string, m: string)
    requires Bare(head) && Bare(m) && |head| > 0
    ensures ReferenceControl(head + " (" + m + ")") == head + "(" + m + ")"
  {
    var s := head + " (" + m + ")";
    SpacedFacts(head, m);
    BaseOfSpaced(head, m);
    assert EnhancementRef(s, |head| + 1, |s| - 1) == "(" + m + ")" by {
      assert s[|head| + 1..|s|] == "(" + m + ")";
    }
    assert ReferenceControl(s) == head + ("(" + m + ")");
    assert head + ("(" + m + ")") == head + "(" + m + ")";
  }

  /** Where the separators of "head (m)" are. */
  lemma SpacedFacts(head: string, m: string)
    requires Bare(head) && Bare(m) && |head| > 0
    ensures var s := head + " (" + m + ")";
            && IndexOf(s, ' ') == |head|
            && IndexOfFrom(s, ' ', |head| + 1) == -1
            && IndexOf(s, '(') == |head| + 1
            && IndexOf(s, ')') == |s| - 1
            && EnhancementWanted(s)
  {
    var s := head + " (" + m + ")";
    var h := |head|;
    assert s[h] == ' ' && s[h + 1] == '(' && s[|s| - 1] == ')';
    assert forall i :: 0 <= i < h ==> s[i] == head[i];
    assert forall i :: h + 2 <= i < |s| - 1 ==> s[i] == m[i - h - 2];
    IndexOfAt(s, ' ', 0, h);
    IndexOfAt(s, '(', 0, h + 1);
    IndexOfAt(s, ')', 0, |s| - 1);
    IndexOfNone(s, ' ', h + 1);
  }

  /** The base control of "head (m)" is the head. */
  lemma BaseOfSpaced(head: string, m: string)
    requires Bare(head) && Bare(m) && |head| > 0
    ensures BaseControl(head + " (" + m + ")") == head
  {
    var s := head + " (" + m + ")";
    SpacedFacts(head, m);
    assert Left(s, |head|) == head;
    IndexOfNone(head, '.', 0);
  }

  /**
   * The reference index of an enhancement, written the catalogue's way
   * ("AC-2 (1)"), becomes the attached form ("AC-2(1)"); a base control
   * stays as it is.
   */
  lemma ReferenceOfFormatted(family: string, number: nat, enhancement: Option<nat>)
    requires IsFamilyCode(family)
    ensures ReferenceControl(FormatControl(family, number, enhancement, true))
         == FormatControl(family, number, enhancement, false)
  {
    var head := family + "-" + NatText(number);
    FormattedHeadBare(family, NatText(number));
    match enhancement
    case None =>
      assert FormatControl(family, number, enhancement, true) == head;
      ReferenceOfBare(head);
    case Some(e) =>
      NoSpaceInDigits(NatText(e));
      assert FormatControl(family, number, enhancement, true) == head + " (" + NatText(e) + ")";
      assert FormatControl(family, number, enhancement, false) == head + "(" + NatText(e) + ")";
      ReferenceOfSpaced(head, NatText(e));
  }

  /**
   * What the import resolves is what the catalogue meant: the control string
   * built from a formatted reference parses to the same family, number and
   * enhancement (-1 for none).
   */
  lemma ReferenceResolves(family: string, number: nat, enhancement: Option<nat>)
    requires IsFamilyCode(family) && number <= IntMax
    requires enhancement.Some? ==> enhancement.value <= IntMax
    ensures ParseControlRef(ReferenceControl(FormatControl(family, number, enhancement, true)))
         == ControlRef(family, number, if enhancement.Some? then enhancement.value else -1)
  {
    ReferenceOfFormatted(family, number, enhancement);
    ParseAttached(family, number, enhancement);
  }

  /** The attached form of a formatted control parses back to its family, number and enhancement. */
  lemma ParseAttached(family: string, number: nat, enhancement: Option<nat>)
    requires IsFamilyCode(family) && number <= IntMax
    requires enhancement.Some? ==> enhancement.value <= IntMax
    ensures ParseControlRef(FormatControl(family, number, enhancement, false))
         == ControlRef(family, number, if enhancement.Some? then enhancement.value else -1)
  {
    assert IsAcronym(family);
    ParseFormatted(family, number, enhancement, false);
  }

  /** The reference of the catalogue's "AC-2 (1)" is "AC-2(1)", which GetControl reads as AC / 2 / 1. */
  lemma ReferenceExample()
    ensures ReferenceControl("AC-2 (1)") == "AC-2(1)"
    ensures ParseControlRef(ReferenceControl("AC-2 (1)")) == ControlRef("AC", 2, 1)
  {
    assert NatText(2) == "2" && NatText(1) == "1";
    assert FormatControl("AC", 2, Some(1), true) == "AC-2 (1)";
    assert FormatControl("AC", 2, Some(1), false) == "AC-2(1)";
    ReferenceOfFormatted("AC", 2, Some(1));
    ParseAttachedExample();
  }

  /** A '(' after the second space is not an enhancement; an item letter is cut off. */
  lemma ReferenceCutExamples()
    ensures ReferenceControl("AC-2 a (1)") == "AC-2"
    ensures ReferenceControl("AC-2 (1) (a)") == "AC-2(1)"
    ensures ReferenceControl("AC-2 a") == "AC-2"
    ensures ReferenceControl("AC-2.3") == "AC-2"
  {
    ExamplePiecesBare();
    ReferenceCutItemExample();
    ReferenceCutSecondExample();
    ReferenceCutLetterExample();
    ReferenceCutDotExample();
  }

  /** The pieces the examples are built from hold no separator. */
  lemma ExamplePiecesBare()
    ensures Bare("AC-2") && Bare("a") && Bare("1") && Bare("3")
  {
    FormattedHeadBare("AC", "2");
    assert "AC" + "-" + "2" == "AC-2";
  }

  lemma ReferenceCutItemExample()
    requires Bare("AC-2") && Bare("a") && Bare("1")
    ensures ReferenceControl("AC-2 a (1)") == "AC-2"
  {
    assert "AC-2" + " " + "a" + " (" + "1" + ")" == "AC-2 a (1)";
    ReferenceCutItem("AC-2", "a", "1");
  }

  lemma ReferenceCutSecondExample()
    requires Bare("AC-2") && Bare("a") && Bare("1")
    ensures ReferenceControl("AC-2 (1) (a)") == "AC-2(1)"
  {
    assert "AC-2" + " (" + "1" + ") (" + "a" + ")" == "AC-2 (1) (a)";
    assert "AC-2" + "(" + "1" + ")" == "AC-2(1)";
    ReferenceCutSecond("AC-2", "1", "a");
  }

  lemma ReferenceCutLetterExample()
    requires Bare("AC-2") && Bare("a")
    ensures ReferenceControl("AC-2 a") == "AC-2"
  {
    assert "AC-2" + " " + "a" == "AC-2 a";
    ReferenceCutLetter("AC-2", "a");
  }

  lemma ReferenceCutDotExample()
    requires Bare("AC-2") && Bare("3")
    ensures ReferenceControl("AC-2.3") == "AC-2"
  {
    assert "AC-2" + "." + "3" == "AC-2.3";
    ReferenceCutDot("AC-2", "3");
  }

  /** "head w (m)": the '(' comes after the second space, so only the head is kept. */
  lemma ReferenceCutItem(head: string, w: string, m: string)
    requires Bare(head) && Bare(w) && Bare(m) && |head| > 0
    ensures BaseControl(head + " " + w + " (" + m + ")") == head
    ensures ReferenceControl(head + " " + w + " (" + m + ")") == head
  {
    var s := head + " " + w + " (" + m + ")";
    var h := |head|;
    var q := h + 1 + |w|;
    assert s[h] == ' ' && s[q] == ' ' && s[q + 1] == '(';
    assert forall i :: 0 <= i < h ==> s[i] == head[i];
    assert forall i :: h < i < q ==> s[i] == w[i - h - 1];
    IndexOfAt(s, ' ', 0, h);
    IndexOfAt(s, ' ', h + 1, q);
    IndexOfAt(s, '(', 0, q + 1);
    assert !EnhancementWanted(s);
    assert Left(s, h) == head;
    IndexOfNone(head, '.', 0);
  }

  /** Where the parentheses of "head w (m)" are. */
  lemma ItemParens(head: string, w: string, m: string)
    requires Bare(head) && Bare(w) && Bare(m)
    ensures var s := head + " " + w + " (" + m + ")";
            && IndexOf(s, '(') == |head| + 2 + |w|
            && IndexOf(s, ')') == |s| - 1
  {
    var s := head + " " + w + " (" + m + ")";
    var h := |head|;
    var q := h + 1 + |w|;
    assert s[h] == ' ' && s[q] == ' ' && s[q + 1] == '(' && s[|s| - 1] == ')';
    assert forall i :: 0 <= i < h ==> s[i] == head[i];
    assert forall i :: h < i < q ==> s[i] == w[i - h - 1];
    assert forall i :: q + 2 <= i < |s| - 1 ==> s[i] == m[i - q - 2];
    IndexOfAt(s, '(', 0, q + 1);
    IndexOfAt(s, ')', 0, |s| - 1);
  }

  /** "head (m) (w)": the first parenthesis comes before the second space and is kept, the second is cut. */
  lemma ReferenceCutSecond(head: string, m: string, w: string)
    requires Bare(head) && Bare(m) && Bare(w) && |head| > 0
    ensures ReferenceControl(head + " (" + m + ") (" + w + ")") == head + "(" + m + ")"
  {
    var s := head + " (" + m + ") (" + w + ")";
    SecondFacts(head, m, w);
    SecondPieces(head, m, w);
    assert ReferenceControl(s) == head + ("(" + m + ")");
    assert head + ("(" + m + ")") == head + "(" + m + ")";
  }

  /** The base control of "head (m) (w)" is the head, and its first parenthesis is "(m)". */
  lemma SecondPieces(head: string, m: string, w: string)
    requires Bare(head) && |head| > 0
    ensures var s := head + " (" + m + ") (" + w + ")";
            && |head| + 2 + |m| < |s|
            && BaseControl(s) == head
            && EnhancementRef(s, |head| + 1, |head| + 2 + |m|) == "(" + m + ")"
  {
    var s := head + " (" + m + ") (" + w + ")";
    var p := |head| + 2 + |m|;
    SecondBase(head, s);
    assert s[|head| + 1..p + 1] == "(" + m + ")";
  }

  /** Text that starts with a bare head and a space has that head as its base control. */
  lemma SecondBase(head: string, s: string)
    requires Bare(head) && |head| < |s| && s[..|head|] == head && s[|head|] == ' '
    ensures BaseControl(s) == head
  {
    assert forall i :: 0 <= i < |head| ==> s[i] == head[i];
    IndexOfAt(s, ' ', 0, |head|);
    assert Left(s, |head|) == head;
    IndexOfNone(head, '.', 0);
  }

  /** Where the separators of "head (m) (w)" are. */
  lemma SecondFacts(head: string, m: string, w: string)
    requires Bare(head) && Bare(m) && Bare(w) && |head| > 0
    ensures var s := head + " (" + m + ") (" + w + ")";
            var p := |head| + 2 + |m|;
            && p < |s|
            && IndexOf(s, ' ') == |head|
            && IndexOfFrom(s, ' ', |head| + 1) == p + 1
            && IndexOf(s, '(') == |head| + 1
            && IndexOf(s, ')') == p
            && EnhancementWanted(s)
  {
    var s := head + " (" + m + ") (" + w + ")";
    var h := |head|;
    var p := h + 2 + |m|;
    assert s[h] == ' ' && s[h + 1] == '(' && s[p] == ')' && s[p + 1] == ' ';
    assert forall i :: 0 <= i < h ==> s[i] == head[i];
    assert IndexOf(s, ' ') == h && IndexOf(s, '(') == h + 1 by {
      IndexOfAt(s, ' ', 0, h);
      IndexOfAt(s, '(', 0, h + 1);
    }
    assert IndexOfFrom(s, ' ', h + 1) == p + 1 && IndexOf(s, ')') == p by {
      assert forall i :: h + 2 <= i < p ==> s[i] == m[i - h - 2];
      IndexOfAt(s, ' ', h + 1, p + 1);
      IndexOfAt(s, ')', 0, p);
    }
  }

  /** "head w": a sub-item letter after the space is cut off. */
  lemma ReferenceCutLetter(head: string, w: string)
    requires Bare(head) && Bare(w) && |head| > 0
    ensures ReferenceControl(head + " " + w) == head
  {
    var s := head + " " + w;
    var h := |head|;
    assert s[h] == ' ';
    assert forall i :: 0 <= i < h ==> s[i] == head[i];
    assert forall i :: h < i < |s| ==> s[i] == w[i - h - 1];
    IndexOfAt(s, ' ', 0, h);
    IndexOfNone(s, '(', 0);
    assert Left(s, h) == head;
    IndexOfNone(head, '.', 0);
  }

  /** "head.w": a dotted sub-part is cut off. */
  lemma ReferenceCutDot(head: string, w: string)
    requires Bare(head) && Bare(w) && |head| > 0
    ensures ReferenceControl(head + "." + w) == head
  {
    var s := head + "." + w;
    var h := |head|;
    assert s[h] == '.';
    assert forall i :: 0 <= i < h ==> s[i] == head[i];
    assert forall i :: h < i < |s| ==> s[i] == w[i - h - 1];
    IndexOfNone(s, ' ', 0);
    IndexOfNone(s, '(', 0);
    IndexOfAt(s, '.', 0, h);
    assert Left(s, h) == head;
  }

  // ---------------------------------------------------------------------
  // Families (src/workercciadd.cpp:83-125)
  // ---------------------------------------------------------------------

  /** A family as the NIST page's family link names it. */
  datatype FamilyText = FamilyText(acronym: string, name: string)

  /**
   * The family an element links to (src/workercciadd.cpp:87-104): only an
   * `a` element with both an id and an href, whose id ends in "FamilyLink".
   * The acronym is the first two characters of the trimmed text; the name
   * is the text after the fifth character, trimmed.
   */
  function LinkFamily(e: Elem): (r: Option<FamilyText>)
    ensures r.Some? <==> e.name == "a" && HasAttr(e, "id") && HasAttr(e, "href")
                         && EndsWith(Attr(e, "id"), "FamilyLink")
    ensures r.Some? ==> |r.value.acronym| <= 2 && StartsWith(Trim(e.text), r.value.acronym)
  {
    if e.name == "a" && HasAttr(e, "id") && HasAttr(e, "href") && EndsWith(Attr(e, "id"), "FamilyLink") then
      var family := Trim(e.text);
      Some(FamilyText(Left(family, 2), Trim(Right(family, |family| - 5))))
    else None
  }

  /** The families the links of a page name, in page order. */
  function FamilyLinks(page: seq<Elem>): (r: seq<FamilyText>)
    ensures |r| <= |page|
    ensures forall i :: 0 <= i < |r| ==> exists j :: 0 <= j < |page| && LinkFamily(page[j]) == Some(r[i])
    ensures forall j :: 0 <= j < |page| && LinkFamily(page[j]).Some? ==> LinkFamily(page[j]).value in r
  {
    if |page| == 0 then []
    else
      var rest := FamilyLinks(page[1..]);
      var r := match LinkFamily(page[0]) case None => rest case Some(f) => [f] + rest;
      CollectCons(page, LinkFamily, rest, r);
      r
  }

  /**
   * The two halves of FamilyLinks's contract carry over from `page[1..]` to
   * `page`, for any reading `f` of one element.
   */
  lemma CollectCons<T, U>(page: seq<T>, f: T -> Option<U>, rest: seq<U>, r: seq<U>)
    requires |page| > 0
    requires forall i :: 0 <= i < |rest| ==> exists j :: 0 <= j < |page[1..]| && f(page[1..][j]) == Some(rest[i])
    requires forall j :: 0 <= j < |page[1..]| && f(page[1..][j]).Some? ==> f(page[1..][j]).value in rest
    requires r == match f(page[0]) case None => rest case Some(x) => [x] + rest
    ensures forall i :: 0 <= i < |r| ==> exists j :: 0 <= j < |page| && f(page[j]) == Some(r[i])
    ensures forall j :: 0 <= j < |page| && f(page[j]).Some? ==> f(page[j]).value in r
  {
    forall i | 0 <= i < |rest|
      ensures exists j :: 0 <= j < |page| && f(page[j]) == Some(rest[i])
    {
      var j :| 0 <= j < |page[1..]| && f(page[1..][j]) == Some(rest[i]);
      assert page[j + 1] == page[1..][j];
    }
    forall j | 1 <= j < |page| && f(page[j]).Some?
      ensures f(page[j]).value in r
    {
      assert page[j] == page[1..][j - 1];
    }
    if f(page[0]).Some? {
      forall i | 0 <= i < |r|
        ensures exists j :: 0 <= j < |page| && f(page[j]) == Some(r[i])
      {
        if i > 0 {
          assert r[i] == rest[i - 1];
        } else {
          assert f(page[0]) == Some(r[0]);
        }
      }
    }
  }

  /**
   * The link text of a family, "AC - Access Control", gives back its
   * acronym and name.
   */
  lemma LinkFamilyOfText(acronym: string, name: string, id: string, href: string)
    requires IsFamilyCode(acronym)
    requires |name| > 0 && !IsSpace(name[0]) && !IsSpace(name[|name| - 1])
    ensures LinkFamily(Start("a", map["id" := id + "FamilyLink", "href" := href], acronym + " - " + name, []))
         == Some(FamilyText(acronym, name))
  {
    var e := Start("a", map["id" := id + "FamilyLink", "href" := href], acronym + " - " + name, []);
    assert Attr(e, "id") == id + "FamilyLink";
    EndsWithAppended(id, "FamilyLink");
    FamilyTextParts(acronym, name);
  }

  /** A string ends with what was appended to it. */
  lemma EndsWithAppended(s: string, suffix: string)
    ensures EndsWith(s + suffix, suffix)
  {
    assert (s + suffix)[|s|..] == suffix;
  }

  /** The text "AC - Access Control" is trimmed; its first two characters and its trimmed tail after five give back the parts. */
  lemma FamilyTextParts(acronym: string, name: string)
    requires IsFamilyCode(acronym)
    requires |name| > 0 && !IsSpace(name[0]) && !IsSpace(name[|name| - 1])
    ensures var t := acronym + " - " + name;
            Trim(t) == t && Left(t, 2) == acronym && Trim(Right(t, |t| - 5)) == name
  {
    var t := acronym + " - " + name;
    assert !IsSpace(t[0]) && t[|t| - 1] == name[|name| - 1];
    TrimOfTrimmed(t);
    assert Left(t, 2) == acronym;
    assert Right(t, |t| - 5) == name by {
      assert t[|t| - (|t| - 5)..] == t[5..] == name;
    }
    TrimOfTrimmed(name);
  }

  /** What AddFamily does to one family name: present afterwards, by acronym or by name. */
  predicate FamilyPresent(db: Tables, sanitize: string -> string, f: FamilyText) {
    exists i :: 0 <= i < |db.families| && (db.families[i].acronym == f.acronym || db.families[i].description == sanitize(f.name))
  }

  /**
   * AddFamily for each family in turn. Existing rows stay; each new row is
   * one of the given families; afterwards every given family is present,
   * under its acronym or its name (the UNIQUE columns refuse a duplicate of
   * either).
   */
  function AddFamilies(db: Tables, sanitize: string -> string, fs: seq<FamilyText>): (r: Tables)
    decreases |fs|
    ensures r == db.(families := r.families, last := r.last)
    ensures |r.families| >= |db.families| && r.families[..|db.families|] == db.families
    ensures forall i :: |db.families| <= i < |r.families| ==>
              exists k :: 0 <= k < |fs| && r.families[i].acronym == fs[k].acronym
                          && r.families[i].description == sanitize(fs[k].name)
    ensures forall k :: 0 <= k < |fs| ==> FamilyPresent(r, sanitize, fs[k])
  {
    if |fs| == 0 then db
    else
      var d := AddFamily(db, sanitize, fs[0].acronym, fs[0].name).db;
      var r := AddFamilies(d, sanitize, fs[1..]);
      AddFamilyPresent(db, sanitize, fs[0]);
      AddFamiliesStep(db, d, r, sanitize, fs);
      r
  }

  /** AddFamilies's contract for `fs`, from AddFamily of its first family and the contract for the rest. */
  lemma AddFamiliesStep(db: Tables, d: Tables, r: Tables, sanitize: string -> string, fs: seq<FamilyText>)
    requires |fs| > 0
    requires d == db.(families := d.families, last := d.last)
    requires |d.families| >= |db.families| && d.families[..|db.families|] == db.families
    requires forall i :: |db.families| <= i < |d.families| ==>
               d.families[i].acronym == fs[0].acronym && d.families[i].description == sanitize(fs[0].name)
    requires FamilyPresent(d, sanitize, fs[0])
    requires r == d.(families := r.families, last := r.last)
    requires |r.families| >= |d.families| && r.families[..|d.families|] == d.families
    requires forall i :: |d.families| <= i < |r.families| ==>
               exists k :: 0 <= k < |fs[1..]| && r.families[i].acronym == fs[1..][k].acronym
                           && r.families[i].description == sanitize(fs[1..][k].name)
    requires forall k :: 0 <= k < |fs[1..]| ==> FamilyPresent(r, sanitize, fs[1..][k])
    ensures r == db.(families := r.families, last := r.last)
    ensures |r.families| >= |db.families| && r.families[..|db.families|] == db.families
    ensures forall i :: |db.families| <= i < |r.families| ==>
              exists k :: 0 <= k < |fs| && r.families[i].acronym == fs[k].acronym
                          && r.families[i].description == sanitize(fs[k].name)
    ensures forall k :: 0 <= k < |fs| ==> FamilyPresent(r, sanitize, fs[k])
  {
    FamilyPresentGrows(d, r, sanitize, fs[0]);
    assert forall k :: 1 <= k < |fs| ==> fs[k] == fs[1..][k - 1];
    assert r.families[..|db.families|] == db.families by {
      assert r.families[..|d.families|] == d.families;
    }
    forall i | |db.families| <= i < |r.families|
      ensures exists k :: 0 <= k < |fs| && r.families[i].acronym == fs[k].acronym
                          && r.families[i].description == sanitize(fs[k].name)
    {
      if i < |d.families| {
        assert r.families[i] == d.families[i];
      } else {
        var k :| 0 <= k < |fs[1..]| && r.families[i].acronym == fs[1..][k].acronym
                 && r.families[i].description == sanitize(fs[1..][k].name);
        assert fs[1..][k] == fs[k + 1];
      }
    }
  }

  lemma AddFamilyPresent(db: Tables, sanitize: string -> string, f: FamilyText)
    ensures FamilyPresent(AddFamily(db, sanitize, f.acronym, f.name).db, sanitize, f)
  {
    var r := AddFamily(db, sanitize, f.acronym, f.name);
    if r.ok {
      assert r.db.families[|db.families|].acronym == f.acronym;
    }
  }

  lemma FamilyPresentGrows(db: Tables, r: Tables, sanitize: string -> string, f: FamilyText)
    requires FamilyPresent(db, sanitize, f)
    requires |r.families| >= |db.families| && r.families[..|db.families|] == db.families
    ensures FamilyPresent(r, sanitize, f)
  {
    var i :| 0 <= i < |db.families| && (db.families[i].acronym == f.acronym || db.families[i].description == sanitize(f.name));
    assert r.families[i] == db.families[i];
  }

  /** The privacy families added by hand (src/workercciadd.cpp:118-125). */
  const PrivacyFamilies: seq<FamilyText> := [
    FamilyText("AP", "Authority and Purpose"),
    FamilyText("AR", "Accountability, Audit, and Risk Management"),
    FamilyText("DI", "Data Quality and Integrity"),
    FamilyText("DM", "Data Minimization and Retention"),
    FamilyText("IP", "Individual Participation and Redress"),
    FamilyText("SE", "Security"),
    FamilyText("TR", "Transparency"),
    FamilyText("UL", "Use Limitation")
  ]

  /**
   * Steps 3 and 3a: the linked families with delayed commits, then the
   * families added by hand (`extra`; Process passes PrivacyFamilies).
   * Afterwards commits are re-enabled and every linked and every added
   * family is present.
   */
  function ReadFamilies(db: Tables, sanitize: string -> string, page: seq<Elem>, extra: seq<FamilyText>): (r: Tables)
    ensures r.delayCommit == false
    ensures forall j :: 0 <= j < |page| && LinkFamily(page[j]).Some? ==> FamilyPresent(r, sanitize, LinkFamily(page[j]).value)
    ensures forall k :: 0 <= k < |extra| ==> FamilyPresent(r, sanitize, extra[k])
  {
    var links := FamilyLinks(page);
    var d1 := AddFamilies(DelayCommit(db, true), sanitize, links);
    var d2 := DelayCommit(d1, false);
    var r := AddFamilies(d2, sanitize, extra);
    LinksPresent(page, links, d1, d2, r, sanitize);
    r
  }

  lemma LinksPresent(page: seq<Elem>, links: seq<FamilyText>, d1: Tables, d2: Tables, r: Tables, sanitize: string -> string)
    requires forall j :: 0 <= j < |page| && LinkFamily(page[j]).Some? ==> LinkFamily(page[j]).value in links
    requires forall k :: 0 <= k < |links| ==> FamilyPresent(d1, sanitize, links[k])
    requires d2.families == d1.families
    requires |r.families| >= |d2.families| && r.families[..|d2.families|] == d2.families
    ensures forall j :: 0 <= j < |page| && LinkFamily(page[j]).Some? ==> FamilyPresent(r, sanitize, LinkFamily(page[j]).value)
  {
    forall j | 0 <= j < |page| && LinkFamily(page[j]).Some?
      ensures FamilyPresent(r, sanitize, LinkFamily(page[j]).value)
    {
      var k :| 0 <= k < |links| && links[k] == LinkFamily(page[j]).value;
      FamilyPresentGrows(d1, r, sanitize, links[k]);
    }
  }

  // ---------------------------------------------------------------------
  // Controls feed (src/workercciadd.cpp:127-216)
  // ---------------------------------------------------------------------

  /** What the feed reader has accumulated: the current number, title and description, and whether a statement is open. */
  datatype Feed = Feed(control: string, title: string, description: string, inStatement: bool)

  const FeedStart := Feed("", "", "", false)

  predicate IsControlStart(name: string) {
    name == "control" || name == "control-enhancement"
  }

  /** AddControl with what has been accumulated. */
  function Flush(db: Tables, f: Feed): Tables {
    AddControl(db, f.control, f.title, f.description).db
  }

  /** One start element of the feed (src/workercciadd.cpp:137-173). */
  function FeedStep(db: Tables, f: Feed, e: Elem): (r: (Tables, Feed))
    ensures !IsControlStart(e.name) ==> r.0 == db
    ensures IsControlStart(e.name) ==> r == (Flush(db, f), f.(inStatement := false))
    ensures f.inStatement && !IsControlStart(e.name) && e.name != "description" ==>
              r.1.(inStatement := true) == f
  {
    if f.inStatement then
      if e.name == "supplemental-guidance" then (db, f.(inStatement := false))
      else if e.name == "description" then (db, f.(description := Trim(e.text)))
      else if IsControlStart(e.name) then (Flush(db, f), f.(inStatement := false))
      else (db, f)
    else
      if e.name == "statement" then (db, f.(inStatement := true))
      else if e.name == "number" then (db, f.(control := Trim(e.text)))
      else if e.name == "title" then (db, f.(title := Trim(e.text)))
      else if e.name == "description" then (db, f.(description := Trim(e.text)))
      else if IsControlStart(e.name) then (Flush(db, f), f)
      else (db, f)
  }

  /** The reader loop over the feed. */
  function FeedAll(db: Tables, f: Feed, events: seq<Elem>): (r: (Tables, Feed))
    decreases |events|
  {
    if |events| == 0 then (db, f)
    else
      var (d, g) := FeedStep(db, f, events[0]);
      FeedAll(d, g, events[1..])
  }

  /** Reading a feed in two pieces is reading it whole. */
  lemma {:induction false} FeedAllAppend(db: Tables, f: Feed, a: seq<Elem>, b: seq<Elem>)
    ensures FeedAll(db, f, a + b) == FeedAll(FeedAll(db, f, a).0, FeedAll(db, f, a).1, b)
    decreases |a|
  {
    if |a| > 0 {
      assert (a + b)[0] == a[0] && (a + b)[1..] == a[1..] + b;
      var (d, g) := FeedStep(db, f, a[0]);
      FeedAllAppend(d, g, a[1..], b);
    } else {
      assert a + b == b;
    }
  }

  /** The whole feed: the loop, then the last control once more when its number is not empty. */
  function ReadControls(db: Tables, events: seq<Elem>): Tables {
    var (d, f) := FeedAll(db, FeedStart, events);
    if f.control != "" then Flush(d, f) else d
  }

  /** An empty number is refused by AddControl, so the final guard changes nothing. */
  lemma FlushEmpty(db: Tables, f: Feed)
    requires f.control == ""
    ensures Flush(db, f) == db
  {
    assert |Trim(f.control)| < 4;
  }

  /** A control of the catalogue: its number, title and statement description. */
  datatype Entry = Entry(number: string, title: string, description: string)

  /** The start elements of one control as the feed writes it. */
  function EntryEvents(b: Entry): seq<Elem> {
    [Plain("control", ""), Plain("number", b.number), Plain("title", b.title), Plain("statement", ""),
     Plain("description", b.description), Plain("supplemental-guidance", "")]
  }

  function FeedOf(bs: seq<Entry>): seq<Elem>
    decreases |bs|
  {
    if |bs| == 0 then [] else EntryEvents(bs[0]) + FeedOf(bs[1..])
  }

  /** AddControl for each entry in turn. */
  function AddControls(db: Tables, bs: seq<Entry>): (r: Tables)
    decreases |bs|
    ensures r == db.(controls := r.controls, last := r.last)
    ensures |r.controls| >= |db.controls| && r.controls[..|db.controls|] == db.controls
  {
    if |bs| == 0 then db
    else
      var d := AddControl(db, bs[0].number, bs[0].title, bs[0].description).db;
      AddControlGrows(db, bs[0]);
      var r := AddControls(d, bs[1..]);
      PrefixTrans(db.controls, d.controls, r.controls);
      r
  }

  lemma AddControlGrows(db: Tables, b: Entry)
    ensures var d := AddControl(db, b.number, b.title, b.description).db;
            && d == db.(controls := d.controls, last := d.last)
            && |d.controls| >= |db.controls| && d.controls[..|db.controls|] == db.controls
  {
  }

  lemma PrefixTrans<T>(a: seq<T>, b: seq<T>, c: seq<T>)
    requires |b| >= |a| && b[..|a|] == a
    requires |c| >= |b| && c[..|b|] == b
    ensures |c| >= |a| && c[..|a|] == a
  {
    assert c[..|a|] == c[..|b|][..|a|];
  }

  function TrimEntry(b: Entry): Entry {
    Entry(Trim(b.number), Trim(b.title), Trim(b.description))
  }

  function TrimEntries(bs: seq<Entry>): (r: seq<Entry>)
    ensures |r| == |bs| && forall i :: 0 <= i < |bs| ==> r[i] == TrimEntry(bs[i])
  {
    seq(|bs|, i requires 0 <= i < |bs| => TrimEntry(bs[i]))
  }

  /** One control's elements flush what came before and leave that control accumulated. */
  lemma FeedEntry(db: Tables, f: Feed, b: Entry)
    requires !f.inStatement
    ensures FeedAll(db, f, EntryEvents(b)) == (Flush(db, f), Feed(Trim(b.number), Trim(b.title), Trim(b.description), false))
  {
    var ev := EntryEvents(b);
    assert ev == ev[..3] + ev[3..];
    FeedAllAppend(db, f, ev[..3], ev[3..]);
    EntryHead(db, f, b);
    EntryTail(Flush(db, f), f.(control := Trim(b.number), title := Trim(b.title)), b);
  }

  /** The control start flushes; the number and title are then taken. */
  lemma EntryHead(db: Tables, f: Feed, b: Entry)
    requires !f.inStatement
    ensures FeedAll(db, f, EntryEvents(b)[..3]) == (Flush(db, f), f.(control := Trim(b.number), title := Trim(b.title)))
  {
    var ev := EntryEvents(b)[..3];
    FeedStepOutside(db, f, ev[0]);
    FeedAllCons(db, f, ev);
    EntryNumberTitle(Flush(db, f), f, b.number, b.title, ev[1..]);
  }

  /** The number and then the title are taken, outside a statement. */
  lemma EntryNumberTitle(db: Tables, f: Feed, number: string, title: string, ev: seq<Elem>)
    requires !f.inStatement
    requires ev == [Plain("number", number), Plain("title", title)]
    ensures FeedAll(db, f, ev) == (db, f.(control := Trim(number), title := Trim(title)))
  {
    FeedStepOutside(db, f, ev[0]);
    FeedAllCons(db, f, ev);
    FeedStepOutside(db, f.(control := Trim(number)), ev[1]);
    FeedAllCons(db, f.(control := Trim(number)), ev[1..]);
  }

  /** The statement opens, its description is taken, and the supplemental guidance closes it. */
  lemma EntryTail(db: Tables, f: Feed, b: Entry)
    requires !f.inStatement
    ensures FeedAll(db, f, EntryEvents(b)[3..]) == (db, f.(description := Trim(b.description)))
  {
    var ev := EntryEvents(b)[3..];
    FeedStepOutside(db, f, ev[0]);
    FeedAllCons(db, f, ev);
    StatementBody(db, f.(inStatement := true), b.description, ev[1..]);
  }

  /** Inside a statement, the description is taken and the supplemental guidance closes it. */
  lemma StatementBody(db: Tables, f: Feed, description: string, ev: seq<Elem>)
    requires f.inStatement
    requires ev == [Plain("description", description), Plain("supplemental-guidance", "")]
    ensures FeedAll(db, f, ev) == (db, f.(description := Trim(description), inStatement := false))
  {
    FeedStepInside(db, f, ev[0]);
    FeedAllCons(db, f, ev);
    FeedStepInside(db, f.(description := Trim(description)), ev[1]);
    FeedAllCons(db, f.(description := Trim(description)), ev[1..]);
  }

  /** One step of the reader loop. */
  lemma FeedAllCons(db: Tables, f: Feed, events: seq<Elem>)
    requires |events| > 0
    ensures FeedAll(db, f, events) == FeedAll(FeedStep(db, f, events[0]).0, FeedStep(db, f, events[0]).1, events[1..])
  {
  }

  /** The feed elements of a control outside a statement: the control start flushes, the others fill in. */
  lemma FeedStepOutside(db: Tables, f: Feed, e: Elem)
    requires !f.inStatement
    ensures e.name == "control" ==> FeedStep(db, f, e) == (Flush(db, f), f)
    ensures e.name == "number" ==> FeedStep(db, f, e) == (db, f.(control := Trim(e.text)))
    ensures e.name == "title" ==> FeedStep(db, f, e) == (db, f.(title := Trim(e.text)))
    ensures e.name == "statement" ==> FeedStep(db, f, e) == (db, f.(inStatement := true))
  {
  }

  /** The feed elements of a control inside its statement: the description is taken, the guidance closes it. */
  lemma FeedStepInside(db: Tables, f: Feed, e: Elem)
    requires f.inStatement
    ensures e.name == "description" ==> FeedStep(db, f, e) == (db, f.(description := Trim(e.text)))
    ensures e.name == "supplemental-guidance" ==> FeedStep(db, f, e) == (db, f.(inStatement := false))
  {
  }

  /** Flushing what is pending after a sequence of well-formed controls adds each control once, in order. */
  lemma {:induction false} FeedEntries(db: Tables, f: Feed, bs: seq<Entry>)
    requires !f.inStatement
    ensures var (d, g) := FeedAll(db, f, FeedOf(bs));
            Flush(d, g) == AddControls(Flush(db, f), TrimEntries(bs))
    decreases |bs|
  {
    if |bs| > 0 {
      var b := bs[0];
      var g := Feed(Trim(b.number), Trim(b.title), Trim(b.description), false);
      FeedOfCons(db, f, bs);
      FeedEntries(Flush(db, f), g, bs[1..]);
      AddControlsCons(Flush(db, f), bs, g);
    }
  }

  /** Reading the first control's elements leaves it accumulated, with the one before flushed. */
  lemma FeedOfCons(db: Tables, f: Feed, bs: seq<Entry>)
    requires !f.inStatement && |bs| > 0
    ensures FeedAll(db, f, FeedOf(bs))
         == FeedAll(Flush(db, f), Feed(Trim(bs[0].number), Trim(bs[0].title), Trim(bs[0].description), false),
                    FeedOf(bs[1..]))
  {
    FeedAllAppend(db, f, EntryEvents(bs[0]), FeedOf(bs[1..]));
    FeedEntry(db, f, bs[0]);
  }

  /** AddControls of a non-empty list flushes its first entry, trimmed, then adds the rest. */
  lemma AddControlsCons(db: Tables, bs: seq<Entry>, g: Feed)
    requires |bs| > 0 && g == Feed(Trim(bs[0].number), Trim(bs[0].title), Trim(bs[0].description), false)
    ensures AddControls(db, TrimEntries(bs)) == AddControls(Flush(db, g), TrimEntries(bs[1..]))
  {
    var ts := TrimEntries(bs);
    assert ts[0] == TrimEntry(bs[0]);
    assert AddControl(db, ts[0].number, ts[0].title, ts[0].description).db == Flush(db, g);
    assert ts[1..] == TrimEntries(bs[1..]);
  }

  /**
   * A feed made of well-formed controls adds each of them once, in feed
   * order, with trimmed texts: the flush at each control start adds the
   * previous one and the final guard adds the last.
   */
  lemma ReadControlsOfEntries(db: Tables, bs: seq<Entry>)
    ensures ReadControls(db, FeedOf(bs)) == AddControls(db, TrimEntries(bs))
  {
    FeedEntries(db, FeedStart, bs);
    FlushEmpty(db, FeedStart);
    var (d, g) := FeedAll(db, FeedStart, FeedOf(bs));
    if g.control == "" {
      FlushEmpty(d, g);
    }
  }

  /** Inside a statement, only a description, a supplemental guidance or a control start changes anything. */
  lemma StatementIgnores(db: Tables, f: Feed, e: Elem)
    requires f.inStatement
    requires e.name != "description" && e.name != "supplemental-guidance" && !IsControlStart(e.name)
    ensures FeedStep(db, f, e) == (db, f)
  {
  }

  /** The privacy controls added by hand, without descriptions (src/workercciadd.cpp:181-216). */
  const PrivacyControls: seq<Entry> := [
    Entry("AP-1", "AUTHORITY TO COLLECT", ""),
    Entry("AP-2", "PURPOSE SPECIFICATION", ""),
    Entry("AR-1", "GOVERNANCE AND PRIVACY PROGRAM", ""),
    Entry("AR-2", "PRIVACY IMPACT AND RISK ASSESSMENT", ""),
    Entry("AR-3", "PRIVACY REQUIREMENTS FOR CONTRACTORS AND SERVICE PROVIDERS", ""),
    Entry("AR-4", "PRIVACY MONITORING AND AUDITING", ""),
    Entry("AR-5", "PRIVACY AWARENESS AND TRAINING", ""),
    Entry("AR-6", "PRIVACY REPORTING", ""),
    Entry("AR-7", "PRIVACY-ENHANCED SYSTEM DESIGN AND DEVELOPMENT", ""),
    Entry("AR-8", "ACCOUNTING OF DISCLOSURES", ""),
    Entry("DI-1", "DATA QUALITY", ""),
    Entry("DI-1 (1)", "DATA QUALITY | VALIDATE PII", ""),
    Entry("DI-1 (2)", "DATA QUALITY | RE-VALIDATE PII", ""),
    Entry("DI-2", "DATA INTEGRITY AND DATA INTEGRITY BOARD", ""),
    Entry("DI-2 (1)", "DATA INTEGRITY AND DATA INTEGRITY BOARD | PUBLISH AREEMENTS ON WEBSITE", ""),
    Entry("DM-1", "MINIMIZATION OF PERSONALLY IDENTIFIABLE INFORMATION", ""),
    Entry("DM-1 (1)", "MINIMIZATION OF PERSONALLY IDENTIFIABLE INFORMATION | LOCATE / REMOVE / REDACT / ANONYMIZE PII", ""),
    Entry("DM-2", "DATA RETENTION AND DISPOSAL", ""),
    Entry("DM-2 (1)", "DATA RETENTION AND DISPOSAL | SYSTEM CONFIGURATION", ""),
    Entry("DM-3", "MINIMIZATION OF PII USED IN TESTING, TRAINING, AND RESEARCH", ""),
    Entry("DM-3 (1)", "MINIMIZATION OF PII USED IN TESTING, TRAINING, AND RESEARCH | RISK MINIMIZATION TECHNIQUES", ""),
    Entry("IP-1", "CONSENT", ""),
    Entry("IP-1 (1)", "CONSENT | MECHANISMS SUPPORTING ITEMIZED OR TIERED CONSENT", ""),
    Entry("IP-2", "INDIVIDUAL ACCESS", ""),
    Entry("IP-3", "REDRESS", ""),
    Entry("IP-4", "COMPLAINT MANAGEMENT", ""),
    Entry("IP-4 (1)", "COMPLAINT MANAGEMENT | RESPONSE TIMES", ""),
    Entry("SE-1", "INVENTORY OF PERSONALLY IDENTIFIABLE INFORMATION", ""),
    Entry("SE-2", "PRIVACY INCIDENT RESPONSE", ""),
    Entry("TR-1", "PRIVACY NOTICE", ""),
    Entry("TR-1 (1)", "PRIVACY NOTICE | REAL-TIME OR LAYERED NOTICE", ""),
    Entry("TR-2", "SYSTEM OF RECORDS NOTICES AND PRIVACY ACT STATEMENTS", ""),
    Entry("TR-2 (1)", "SYSTEM OF RECORDS NOTICES AND PRIVACY ACT STATEMENTS | PUBLIC WEBSITE PUBLICATION", ""),
    Entry("TR-3", "DISSEMINATION OF PRIVACY PROGRAM INFORMATION", ""),
    Entry("UL-1", "INTERNAL USE", ""),
    Entry("UL-2", "INFORMATION SHARING WITH THIRD PARTIES", "")
  ]

  // ---------------------------------------------------------------------
  // CCI list (src/workercciadd.cpp:234-319)
  // ---------------------------------------------------------------------

  /** The current cci_item id and definition text while a CCI list file is read. */
  datatype CciScan = CciScan(cci: string, definition: string)

  const ScanStart := CciScan("", "")

  /**
   * A reference that produces a CCI (src/workercciadd.cpp:264-275): both a
   * version and an index attribute, a current cci id, version exactly "4"
   * and a non-empty index.
   */
  predicate Rev4Reference(e: Elem, cci: string) {
    && e.name == "reference" && HasAttr(e, "version") && HasAttr(e, "index") && cci != ""
    && Attr(e, "version") != "" && Attr(e, "index") != "" && Attr(e, "version") == "4"
  }

  /**
   * The CCI a reference produces (src/workercciadd.cpp:277-299): the number
   * is the last six characters of the id read as an integer; the control is
   * resolved with GetControl against the controls already stored.
   */
  function ParsedCci(db: Tables, cci: string, definition: string, index: string): Cci {
    Cci(-1, GetControl(db, ReferenceControl(index)).id, ToInt(Right(cci, 6)), definition, false, "", "", "", "")
  }

  /** One start element of a CCI list file and the CCIs it produces. */
  function ScanStep(db: Tables, st: CciScan, e: Elem): (r: (CciScan, seq<Cci>))
    ensures |r.1| <= 1
    ensures |r.1| == 1 <==> Rev4Reference(e, st.cci)
    ensures e.name != "cci_item" && e.name != "definition" ==> r.0 == st
    ensures r.0.cci == st.cci || (e.name == "cci_item" && r.0.cci == Attr(e, "id"))
    ensures |r.1| == 1 ==> && e.name == "reference" && Attr(e, "version") == "4"
                           && r.1[0].controlId == GetControl(db, ReferenceControl(Attr(e, "index"))).id
                           && r.1[0].cci == ToInt(Right(st.cci, 6))
  {
    if e.name == "cci_item" then (if HasAttr(e, "id") then st.(cci := Attr(e, "id")) else st, [])
    else if e.name == "definition" then (st.(definition := e.text), [])
    else if Rev4Reference(e, st.cci) then (st, [ParsedCci(db, st.cci, st.definition, Attr(e, "index"))])
    else (st, [])
  }

  /** The CCIs one file produces, in document order. */
  function ScanFile(db: Tables, st: CciScan, events: seq<Elem>): (r: seq<Cci>)
    decreases |events|
    ensures |r| <= |events|
    ensures forall i :: 0 <= i < |r| ==> Explained(events, r[i], (e, c) => NamesControl(db, e, c))
    ensures forall i :: 0 <= i < |r| ==> r[i].cci == ToInt(Right(st.cci, 6)) || Explained(events, r[i], NamesNumber)
  {
    if |events| == 0 then []
    else
      var step := ScanStep(db, st, events[0]);
      var rest := ScanFile(db, step.0, events[1..]);
      ExplainedStep(events, step.1, rest, step.1 + rest, (e, c) => NamesControl(db, e, c));
      ExplainedStateStep(events, step.1, rest, step.1 + rest, NamesNumber,
                         (c: Cci) => c.cci == ToInt(Right(st.cci, 6)), (c: Cci) => c.cci == ToInt(Right(step.0.cci, 6)));
      step.1 + rest
  }

  /** `e` is a Rev 4 reference naming the control of `c`. */
  predicate NamesControl(db: Tables, e: Elem, c: Cci) {
    e.name == "reference" && Attr(e, "version") == "4"
    && c.controlId == GetControl(db, ReferenceControl(Attr(e, "index"))).id
  }

  /** `e` is a cci_item whose id gave `c` its number. */
  predicate NamesNumber(e: Elem, c: Cci) {
    e.name == "cci_item" && c.cci == ToInt(Right(Attr(e, "id"), 6))
  }

  /** A file that names no cci id before its references produces nothing. */
  lemma {:induction false} NoIdNoCcis(db: Tables, st: CciScan, events: seq<Elem>)
    requires st.cci == ""
    requires forall j :: 0 <= j < |events| ==> events[j].name != "cci_item" || Attr(events[j], "id") == ""
    ensures ScanFile(db, st, events) == []
    decreases |events|
  {
    if |events| > 0 {
      var (st2, out) := ScanStep(db, st, events[0]);
      NoIdNoCcis(db, st2, events[1..]);
    }
  }

  /** A file without a version-4 reference produces nothing. */
  lemma {:induction false} NoRev4NoCcis(db: Tables, st: CciScan, events: seq<Elem>)
    requires forall j :: 0 <= j < |events| ==> events[j].name != "reference" || Attr(events[j], "version") != "4"
    ensures ScanFile(db, st, events) == []
    decreases |events|
  {
    if |events| > 0 {
      var (st2, out) := ScanStep(db, st, events[0]);
      NoRev4NoCcis(db, st2, events[1..]);
    }
  }

  /** Six digits after "CCI-" read as their decimal value: "CCI-000366" gives 366. */
  lemma CciNumberOfId(d: string)
    requires |d| == 6 && AllDigits(d)
    ensures ToInt(Right("CCI-" + d, 6)) == DecimalValue(d)
  {
    assert Right("CCI-" + d, 6) == d;
    SixDigitsFit(d);
    ToIntOfDigits(d);
  }

  lemma {:induction false} SixDigitsFit(d: string)
    requires AllDigits(d)
    ensures DecimalValue(d) < Pow10(|d|)
    decreases |d|
  {
    if |d| > 0 {
      DecimalValueAppend(d[..|d| - 1], d[|d| - 1..]);
      assert d[..|d| - 1] + d[|d| - 1..] == d;
      SixDigitsFit(d[..|d| - 1]);
    }
  }

  const ExampleItem := Start("cci_item", map["id" := "CCI-000366"], "", [])
  const ExampleDefinition := Plain("definition", "Implement the security configuration settings.")
  const ExampleRev4 := Start("reference", map["version" := "4", "index" := "CM-6 b"], "", [])
  const ExampleRev5 := Start("reference", map["version" := "5", "index" := "CM-6 b"], "", [])

  /** A cci_item, its definition and a Rev 4 reference make one CCI; a reference to another revision makes none. */
  lemma ScanExample(db: Tables)
    ensures ScanFile(db, ScanStart, [ExampleItem, ExampleDefinition, ExampleRev4, ExampleRev5])
         == [Cci(-1, GetControl(db, "CM-6").id, 366, "Implement the security configuration settings.",
                 false, "", "", "", "")]
  {
    ScanExampleFile(db);
    ExampleCciNumber();
    ReferenceCmExample();
  }

  lemma ScanExampleFile(db: Tables)
    ensures ScanFile(db, ScanStart, [ExampleItem, ExampleDefinition, ExampleRev4, ExampleRev5])
         == [ParsedCci(db, "CCI-000366", "Implement the security configuration settings.", "CM-6 b")]
  {
    var st1 := CciScan("CCI-000366", "");
    var st2 := st1.(definition := "Implement the security configuration settings.");
    var c := ParsedCci(db, st2.cci, st2.definition, "CM-6 b");
    ScanExampleSteps(db);
    ScanCons(db, st2, ExampleRev5, []);
    ScanCons(db, st2, ExampleRev4, [ExampleRev5]);
    ScanCons(db, st1, ExampleDefinition, [ExampleRev4, ExampleRev5]);
    ScanCons(db, ScanStart, ExampleItem, [ExampleDefinition, ExampleRev4, ExampleRev5]);
  }

  /** ScanFile on a non-empty file: the first step's output, then the rest scanned from the step's state. */
  lemma ScanCons(db: Tables, st: CciScan, e: Elem, rest: seq<Elem>)
    ensures ScanFile(db, st, [e] + rest) == ScanStep(db, st, e).1 + ScanFile(db, ScanStep(db, st, e).0, rest)
  {
    assert ([e] + rest)[1..] == rest;
  }

  lemma ExampleCciNumber()
    ensures ToInt(Right("CCI-000366", 6)) == 366
  {
    DigitSnoc("", '0'); assert "" + ['0'] == "0";
    DigitSnoc("0", '0'); assert "0" + ['0'] == "00";
    DigitSnoc("00", '0'); assert "00" + ['0'] == "000";
    DigitSnoc("000", '3'); assert "000" + ['3'] == "0003";
    DigitSnoc("0003", '6'); assert "0003" + ['6'] == "00036";
    DigitSnoc("00036", '6'); assert "00036" + ['6'] == "000366";
    assert Right("CCI-000366", 6) == "000366";
    ToIntOfDigits("000366");
  }

  /** One more digit shifts the value left by one place. */
  lemma DigitSnoc(s: string, c: char)
    requires AllDigits(s) && IsDigit(c)
    ensures AllDigits(s + [c]) && DecimalValue(s + [c]) == DecimalValue(s) * 10 + DigitValue(c)
  {
    assert (s + [c])[..|s|] == s;
  }

  lemma ScanExampleSteps(db: Tables)
    ensures var st1 := CciScan("CCI-000366", "");
            var st2 := st1.(definition := "Implement the security configuration settings.");
            && ScanStep(db, ScanStart, ExampleItem) == (st1, [])
            && ScanStep(db, st1, ExampleDefinition) == (st2, [])
            && ScanStep(db, st2, ExampleRev4) == (st2, [ParsedCci(db, st2.cci, st2.definition, "CM-6 b")])
            && ScanStep(db, st2, ExampleRev5) == (st2, [])
  {
    ScanExampleItem(db);
    ScanExampleDefinition(db, CciScan("CCI-000366", ""));
    ScanExampleRev4(db, CciScan("CCI-000366", "Implement the security configuration settings."));
    ScanExampleRev5(db, CciScan("CCI-000366", "Implement the security configuration settings."));
  }

  lemma ScanExampleItem(db: Tables)
    ensures ScanStep(db, ScanStart, ExampleItem) == (CciScan("CCI-000366", ""), [])
  {
    assert Attr(ExampleItem, "id") == "CCI-000366";
  }

  lemma ScanExampleDefinition(db: Tables, st: CciScan)
    ensures ScanStep(db, st, ExampleDefinition) == (st.(definition := ExampleDefinition.text), [])
  {
  }

  lemma ScanExampleRev4(db: Tables, st: CciScan)
    requires st.cci != ""
    ensures ScanStep(db, st, ExampleRev4) == (st, [ParsedCci(db, st.cci, st.definition, "CM-6 b")])
  {
    assert HasAttr(ExampleRev4, "version") && HasAttr(ExampleRev4, "index");
    assert Attr(ExampleRev4, "index") == "CM-6 b" && Attr(ExampleRev4, "version") == "4";
    assert Rev4Reference(ExampleRev4, st.cci);
  }

  lemma ScanExampleRev5(db: Tables, st: CciScan)
    ensures ScanStep(db, st, ExampleRev5) == (st, [])
  {
    assert Attr(ExampleRev5, "version") == "5";
  }

  lemma ReferenceCmExample()
    ensures ReferenceControl("CM-6 b") == "CM-6"
  {
    FormattedHeadBare("CM", "6");
    assert "CM" + "-" + "6" == "CM-6";
    assert Bare("b");
    assert "CM-6" + " " + "b" == "CM-6 b";
    ReferenceCutLetter("CM-6", "b");
  }

  /** The CCIs of every file, in file order: all are collected before any is inserted. */
  function CollectCcis(db: Tables, files: seq<seq<Elem>>): (r: seq<Cci>)
    decreases |files|
  {
    if |files| == 0 then [] else ScanFile(db, ScanStart, files[0]) + CollectCcis(db, files[1..])
  }

  /** A CCI number is stored. */
  predicate CciPresent(db: Tables, cci: int) {
    exists i :: 0 <= i < |db.ccis| && db.ccis[i].cci == cci
  }

  /**
   * AddCCI for each collected CCI in turn (src/workercciadd.cpp:312-318).
   * Existing rows stay; each new row is one of the collected CCIs, in
   * collection order and not imported; afterwards every collected number
   * is stored (AddCCI refuses a number already present).
   */
  function AddCcis(db: Tables, cs: seq<Cci>): (r: Tables)
    decreases |cs|
    ensures r == db.(ccis := r.ccis, last := r.last)
    ensures |r.ccis| >= |db.ccis| && r.ccis[..|db.ccis|] == db.ccis
    ensures forall i :: |db.ccis| <= i < |r.ccis| ==>
              !r.ccis[i].isImport
              && exists k :: 0 <= k < |cs| && r.ccis[i].cci == cs[k].cci && r.ccis[i].controlId == cs[k].controlId
                             && r.ccis[i].definition == cs[k].definition
    ensures forall k :: 0 <= k < |cs| ==> CciPresent(r, cs[k].cci)
  {
    if |cs| == 0 then db
    else
      var d := AddCci(db, cs[0]).db;
      var r := AddCcis(d, cs[1..]);
      AddCcisStep(db, d, r, cs);
      r
  }

  /** The induction step of AddCcis. */
  lemma AddCcisStep(db: Tables, d: Tables, r: Tables, cs: seq<Cci>)
    requires |cs| > 0 && d == AddCci(db, cs[0]).db
    requires r == d.(ccis := r.ccis, last := r.last)
    requires |r.ccis| >= |d.ccis| && r.ccis[..|d.ccis|] == d.ccis
    requires forall i :: |d.ccis| <= i < |r.ccis| ==>
               !r.ccis[i].isImport
               && exists k :: 0 <= k < |cs[1..]| && r.ccis[i].cci == cs[1..][k].cci && r.ccis[i].controlId == cs[1..][k].controlId
                              && r.ccis[i].definition == cs[1..][k].definition
    requires forall k :: 0 <= k < |cs[1..]| ==> CciPresent(r, cs[1..][k].cci)
    ensures r == db.(ccis := r.ccis, last := r.last)
    ensures |r.ccis| >= |db.ccis| && r.ccis[..|db.ccis|] == db.ccis
    ensures forall i :: |db.ccis| <= i < |r.ccis| ==>
              !r.ccis[i].isImport
              && exists k :: 0 <= k < |cs| && r.ccis[i].cci == cs[k].cci && r.ccis[i].controlId == cs[k].controlId
                             && r.ccis[i].definition == cs[k].definition
    ensures forall k :: 0 <= k < |cs| ==> CciPresent(r, cs[k].cci)
  {
    AddCciPresent(db, cs[0]);
    CciPresentGrows(d, r, cs[0].cci);
    PrefixTrans(db.ccis, d.ccis, r.ccis);
    assert forall k :: 1 <= k < |cs| ==> cs[k] == cs[1..][k - 1];
    forall i | |db.ccis| <= i < |r.ccis|
      ensures !r.ccis[i].isImport
              && exists k :: 0 <= k < |cs| && r.ccis[i].cci == cs[k].cci && r.ccis[i].controlId == cs[k].controlId
                             && r.ccis[i].definition == cs[k].definition
    {
      if i < |d.ccis| {
        assert r.ccis[i] == d.ccis[i];
        assert d.ccis[i].cci == cs[0].cci;
      } else {
        var k :| 0 <= k < |cs[1..]| && r.ccis[i].cci == cs[1..][k].cci && r.ccis[i].controlId == cs[1..][k].controlId
                 && r.ccis[i].definition == cs[1..][k].definition;
        assert cs[1..][k] == cs[k + 1];
      }
    }
  }

  lemma AddCciPresent(db: Tables, c: Cci)
    ensures var d := AddCci(db, c).db;
            && CciPresent(d, c.cci)
            && |d.ccis| >= |db.ccis| && d.ccis[..|db.ccis|] == db.ccis
  {
    var r := AddCci(db, c);
    if r.ok {
      assert r.db.ccis[|db.ccis|].cci == c.cci;
    }
  }

  lemma CciPresentGrows(db: Tables, r: Tables, cci: int)
    requires CciPresent(db, cci)
    requires |r.ccis| >= |db.ccis| && r.ccis[..|db.ccis|] == db.ccis
    ensures CciPresent(r, cci)
  {
    var i :| 0 <= i < |db.ccis| && db.ccis[i].cci == cci;
    assert r.ccis[i] == db.ccis[i];
  }

  /** Steps 5 to 7: collect from every file, then insert with delayed commits. */
  function ImportCcis(db: Tables, files: seq<seq<Elem>>): (r: Tables)
    ensures r.delayCommit == false
    ensures forall k :: 0 <= k < |CollectCcis(db, files)| ==> CciPresent(r, CollectCcis(db, files)[k].cci)
  {
    var d := DelayCommit(db, true);
    assert CollectCcis(d, files) == CollectCcis(db, files) by {
      SameLookups(db, d, files);
    }
    DelayCommit(AddCcis(d, CollectCcis(d, files)), false)
  }

  /** Collecting reads only the Family and Control tables. */
  lemma {:induction false} SameLookups(db: Tables, d: Tables, files: seq<seq<Elem>>)
    requires d.families == db.families && d.controls == db.controls
    ensures CollectCcis(d, files) == CollectCcis(db, files)
    decreases |files|
  {
    if |files| > 0 {
      SameScan(db, d, ScanStart, files[0]);
      SameLookups(db, d, files[1..]);
    }
  }

  lemma {:induction false} SameScan(db: Tables, d: Tables, st: CciScan, events: seq<Elem>)
    requires d.families == db.families && d.controls == db.controls
    ensures ScanFile(d, st, events) == ScanFile(db, st, events)
    decreases |events|
  {
    if |events| > 0 {
      var (st2, out) := ScanStep(db, st, events[0]);
      if Rev4Reference(events[0], st.cci) {
        SameControl(db, d, ReferenceControl(Attr(events[0], "index")));
      }
      SameScan(db, d, st2, events[1..]);
    }
  }

  lemma SameControl(db: Tables, d: Tables, control: string)
    requires d.families == db.families && d.controls == db.controls
    ensures GetControl(d, control) == GetControl(db, control)
  {
    var p := ParseControlRef(control);
    assert GetFamily(d, p.family) == GetFamily(db, p.family);
  }

  // ---------------------------------------------------------------------
  // The whole job
  // ---------------------------------------------------------------------

  /**
   * WorkerCCIAdd::process (src/workercciadd.cpp:63-324) on the family page,
   * the controls feed and the CCI list files.
   */
  function Process(db: Tables, sanitize: string -> string, page: seq<Elem>, feed: seq<Elem>,
                   files: seq<seq<Elem>>): Tables
  {
    var d := ReadFamilies(db, sanitize, page, PrivacyFamilies);
    var d2 := AddControls(ReadControls(d, feed), PrivacyControls);
    ImportCcis(d2, files)
  }

  /** The whole import keeps the store's invariants: fresh ascending ids, unique keys and resolved links. */
  lemma ProcessValid(db: Tables, sanitize: string -> string, page: seq<Elem>, feed: seq<Elem>,
                     files: seq<seq<Elem>>)
    requires Valid(db)
    ensures Valid(Process(db, sanitize, page, feed, files))
  {
    StepsValid(db, sanitize, page, feed, files, PrivacyFamilies, PrivacyControls);
  }

  /** The steps of the import keep the store's invariants, whatever families and controls are added by hand. */
  lemma StepsValid(db: Tables, sanitize: string -> string, page: seq<Elem>, feed: seq<Elem>,
                   files: seq<seq<Elem>>, families: seq<FamilyText>, controls: seq<Entry>)
    requires Valid(db)
    ensures Valid(ImportCcis(AddControls(ReadControls(ReadFamilies(db, sanitize, page, families), feed), controls), files))
  {
    var d := ReadFamilies(db, sanitize, page, families);
    ReadFamiliesValid(db, sanitize, page, families);
    ReadControlsValid(d, feed);
    var d2 := AddControls(ReadControls(d, feed), controls);
    AddControlsValid(ReadControls(d, feed), controls);
    ImportCcisValid(d2, files);
  }

  lemma {:induction false} AddFamiliesValid(db: Tables, sanitize: string -> string, fs: seq<FamilyText>)
    requires Valid(db)
    ensures Valid(AddFamilies(db, sanitize, fs))
    decreases |fs|
  {
    if |fs| > 0 {
      AddFamilyValid(db, sanitize, fs[0].acronym, fs[0].name);
      AddFamiliesValid(AddFamily(db, sanitize, fs[0].acronym, fs[0].name).db, sanitize, fs[1..]);
    }
  }

  lemma ReadFamiliesValid(db: Tables, sanitize: string -> string, page: seq<Elem>, extra: seq<FamilyText>)
    requires Valid(db)
    ensures Valid(ReadFamilies(db, sanitize, page, extra))
  {
    var links := FamilyLinks(page);
    DelayCommitValid(db, true);
    AddFamiliesValid(DelayCommit(db, true), sanitize, links);
    var d1 := AddFamilies(DelayCommit(db, true), sanitize, links);
    DelayCommitValid(d1, false);
    AddFamiliesValid(DelayCommit(d1, false), sanitize, extra);
  }

  lemma {:induction false} AddControlsValid(db: Tables, bs: seq<Entry>)
    requires Valid(db)
    ensures Valid(AddControls(db, bs))
    decreases |bs|
  {
    if |bs| > 0 {
      AddControlValid(db, bs[0].number, bs[0].title, bs[0].description);
      AddControlsValid(AddControl(db, bs[0].number, bs[0].title, bs[0].description).db, bs[1..]);
    }
  }

  lemma {:induction false} FeedAllValid(db: Tables, f: Feed, events: seq<Elem>)
    requires Valid(db)
    ensures Valid(FeedAll(db, f, events).0)
    decreases |events|
  {
    if |events| > 0 {
      var (d, g) := FeedStep(db, f, events[0]);
      AddControlValid(db, f.control, f.title, f.description);
      FeedAllValid(d, g, events[1..]);
    }
  }

  lemma ReadControlsValid(db: Tables, events: seq<Elem>)
    requires Valid(db)
    ensures Valid(ReadControls(db, events))
  {
    FeedAllValid(db, FeedStart, events);
    var r := FeedAll(db, FeedStart, events);
    FlushValid(r.0, r.1);
  }

  lemma FlushValid(db: Tables, f: Feed)
    requires Valid(db)
    ensures Valid(Flush(db, f))
  {
    AddControlValid(db, f.control, f.title, f.description);
  }

  lemma {:induction false} AddCcisValid(db: Tables, cs: seq<Cci>)
    requires Valid(db)
    ensures Valid(AddCcis(db, cs))
    decreases |cs|
  {
    if |cs| > 0 {
      AddCciValid(db, cs[0]);
      AddCcisValid(AddCci(db, cs[0]).db, cs[1..]);
    }
  }

  lemma ImportCcisValid(db: Tables, files: seq<seq<Elem>>)
    requires Valid(db)
    ensures Valid(ImportCcis(db, files))
  {
    var d := DelayCommit(db, true);
    DelayCommitValid(db, true);
    SameLookups(db, d, files);
    AddCcisValid(d, CollectCcis(d, files));
    DelayCommitValid(AddCcis(d, CollectCcis(d, files)), false);
  }
}

=== FILE: controlid.dfy ===
/**
 * Human-readable RMF control identifiers such as "AC-2 (1)": a two-letter
 * family acronym, a dash, the control number and an optional parenthesised
 * enhancement. The data layer parses them in two places (dbmanager.cpp):
 * when inserting a control and when resolving a control by name. Both trim
 * the text, cut it before a second space, take the first two characters as
 * the family, skip three characters and split off a parenthesised part.
 */
module ControlId {
  import opened Wrappers
  import opened QtString

  /** Cuts trimmed text before its second space (if the first space is not at the start), then trims again. */
  function CutAtSecondSpace(t: string): string {
    var i := IndexOf(t, ' ');
    if i > 0 then
      var j := IndexOfFrom(t, ' ', i + 1);
      if j > 0 then Trim(Left(t, j + 1)) else t
    else t
  }

  /** The textual pieces of an identifier: family, number text and, when a '(' follows the family, enhancement text. */
  datatype Parts = Parts(family: string, number: string, enhancement: Option<string>)

  function SplitParts(t: string): Parts {
    var family := Left(t, 2);
    var rest := Right(t, |t| - 3);
    if Contains(rest, '(') then
      var k := IndexOf(rest, '(');
      var e := Right(rest, |rest| - k - 1);
      Parts(family, Left(rest, k), Some(Left(e, |e| - 1)))
    else
      Parts(family, rest, None)
  }

  /** The pieces both parsers work from. */
  function ControlParts(control: string): Parts {
    SplitParts(CutAtSecondSpace(Trim(control)))
  }

  /** What AddControl inserts: the family to look up, the number and a nullable enhancement. */
  datatype NewControl = NewControl(family: string, number: int, enhancement: Option<int>)

  /**
   * AddControl's parse (dbmanager.cpp:305-338): None when the trimmed text is
   * shorter than four characters. The enhancement is NULL when there is no
   * '(' or the parenthesised text reads as 0.
   */
  function ParseNewControl(control: string): (r: Option<NewControl>)
    ensures r.None? <==> |Trim(control)| < 4
    ensures r.Some? ==> (r.value.enhancement.Some? <==>
      ControlParts(control).enhancement.Some? && ToInt(ControlParts(control).enhancement.value) != 0)
  {
    if |Trim(control)| < 4 then None
    else
      var p := ControlParts(control);
      var enhancement := if p.enhancement.Some? && ToInt(p.enhancement.value) != 0
                         then Some(ToInt(p.enhancement.value)) else None;
      Some(NewControl(p.family, ToInt(p.number), enhancement))
  }

  /** What GetControl searches for: the enhancement is -1 without a '(' and toInt of the text with one. */
  datatype ControlRef = ControlRef(family: string, number: int, enhancement: int)

  /** GetControl's parse (dbmanager.cpp:1218-1246). It has no length check. */
  function ParseControlRef(control: string): ControlRef {
    var p := ControlParts(control);
    ControlRef(p.family, ToInt(p.number), if p.enhancement.Some? then ToInt(p.enhancement.value) else -1)
  }

  /**
   * The two parsers agree on family and number, and the enhancement AddControl
   * stores is exactly the one GetControl filters on (enhancement > 0) or
   * reports as non-zero.
   */
  lemma InsertAgreesWithLookup(control: string)
    requires |Trim(control)| >= 4
    ensures var n := ParseNewControl(control).value;
            var r := ParseControlRef(control);
            && n.family == r.family
            && n.number == r.number
            && (ControlParts(control).enhancement.None? ==> n.enhancement.None? && r.enhancement == -1)
            && (ControlParts(control).enhancement.Some? ==>
                  n.enhancement == (if r.enhancement == 0 then None else Some(r.enhancement)))
  {
  }

  // ---------------------------------------------------------------------
  // Cutting before the second space
  // ---------------------------------------------------------------------

  /** No two positions of `s` both hold a space. */
  predicate AtMostOneSpace(s: string) {
    forall a, b :: 0 <= a < b < |s| ==> s[a] != ' ' || s[b] != ' '
  }

  lemma TrimStartNoop(s: string)
    requires |s| > 0 ==> !IsSpace(s[0])
    ensures TrimStart(s) == s
  {
  }

  /** Positions before the second space hold a space only at the first space. */
  lemma OnlyFirstSpaceBefore(t: string, i: int, j: int, a: int)
    requires i == IndexOf(t, ' ') && i > 0
    requires j == IndexOfFrom(t, ' ', i + 1)
    requires 0 <= a < |t| && (j >= 0 ==> a < j) && t[a] == ' '
    ensures a == i
  {
  }

  /** The cut of trimmed text whose second space is at `j`: a prefix of at most `j` characters. */
  lemma CutWithSecondSpace(t: string, i: int, j: int)
    requires |t| > 0 && !IsSpace(t[0])
    requires i == IndexOf(t, ' ') && i > 0
    requires j == IndexOfFrom(t, ' ', i + 1) && j > 0
    ensures var r := CutAtSecondSpace(t);
            |r| <= j && r == t[..|r|] && AtMostOneSpace(r)
  {
    var r := CutAtSecondSpace(t);
    assert |r| <= j && r == t[..|r|] by {
      assert r == Trim(Left(t, j + 1));
      TrimmedLeft(t, j);
      assert IsSpace(t[..j + 1][j]);
      PrefixOfSpaceEnded(t[..j + 1]);
    }
    PrefixOneSpace(t, i, j, r);
  }

  /** Text that starts with a non-space, cut after position `j`, only loses its trailing whitespace to Trim. */
  lemma TrimmedLeft(t: string, j: int)
    requires 0 <= j < |t| && !IsSpace(t[0])
    ensures Trim(Left(t, j + 1)) == TrimEnd(t[..j + 1])
  {
    assert Left(t, j + 1) == t[..j + 1];
    TrimStartNoop(t[..j + 1]);
  }

  /** A prefix that stops before the second space holds at most one space. */
  lemma PrefixOneSpace(t: string, i: int, j: int, r: string)
    requires i == IndexOf(t, ' ') && i > 0
    requires j == IndexOfFrom(t, ' ', i + 1) && j > 0
    requires |r| <= j && r == t[..|r|]
    ensures AtMostOneSpace(r)
  {
    forall a, b | 0 <= a < b < |r|
      ensures r[a] != ' ' || r[b] != ' '
    {
      if r[a] == ' ' && r[b] == ' ' {
        OnlyFirstSpaceBefore(t, i, j, a);
        OnlyFirstSpaceBefore(t, i, j, b);
      }
    }
  }

  /** Trailing trimming removes at least the final whitespace character. */
  lemma PrefixOfSpaceEnded(l: string)
    requires |l| > 0 && IsSpace(l[|l| - 1])
    ensures |TrimEnd(l)| < |l| && TrimEnd(l) == l[..|TrimEnd(l)|]
  {
  }

  /** Text with no second space (or whose only space is not after the start) passes the cut unchanged and has at most one space. */
  lemma NoSecondSpace(t: string)
    requires |t| > 0 ==> !IsSpace(t[0])
    requires IndexOf(t, ' ') <= 0 || IndexOfFrom(t, ' ', IndexOf(t, ' ') + 1) <= 0
    ensures CutAtSecondSpace(t) == t
    ensures AtMostOneSpace(t)
  {
    var i := IndexOf(t, ' ');
    if i > 0 {
      forall a, b | 0 <= a < b < |t|
        ensures t[a] != ' ' || t[b] != ' '
      {
        if t[a] == ' ' && t[b] == ' ' {
          OnlyFirstSpaceBefore(t, i, -1, a);
          OnlyFirstSpaceBefore(t, i, -1, b);
        }
      }
    }
  }

  /**
   * On text that does not start with whitespace the cut keeps a prefix
   * holding at most one space, and it changes nothing when the text already
   * has at most one space.
   */
  lemma CutAtSecondSpaceKeepsPrefix(t: string)
    requires |t| > 0 ==> !IsSpace(t[0])
    ensures var r := CutAtSecondSpace(t);
            |r| <= |t| && r == t[..|r|] && AtMostOneSpace(r)
    ensures AtMostOneSpace(t) ==> CutAtSecondSpace(t) == t
  {
    var i := IndexOf(t, ' ');
    if i > 0 {
      var j := IndexOfFrom(t, ' ', i + 1);
      if j > 0 {
        CutWithSecondSpace(t, i, j);
        assert !AtMostOneSpace(t) by {
          assert t[i] == ' ' && t[j] == ' ';
        }
      } else {
        NoSecondSpace(t);
      }
    } else {
      NoSecondSpace(t);
    }
  }

  // ---------------------------------------------------------------------
  // Well-formed identifiers
  // ---------------------------------------------------------------------

  /** A family acronym as the NIST catalogue writes it: two characters, neither whitespace nor '('. */
  predicate IsAcronym(f: string) {
    |f| == 2 && forall i :: 0 <= i < 2 ==> !IsSpace(f[i]) && f[i] != '('
  }

  /**
   * The identifier text for `family`, `number` and `enhancement`. With
   * `spaced` the enhancement follows a space ("AC-2 (1)", the catalogue's
   * style); without it the enhancement is attached ("AC-2(1)", the style the
   * CCI import produces).
   */
  function FormatControl(family: string, number: nat, enhancement: Option<nat>, spaced: bool): string {
    family + "-" + NatText(number) + EnhancementSuffix(enhancement, spaced)
  }

  function EnhancementSuffix(enhancement: Option<nat>, spaced: bool): string {
    match enhancement
    case None => ""
    case Some(e) => (if spaced then " (" else "(") + NatText(e) + ")"
  }

  lemma NoSpaceInDigits(d: string)
    requires AllDigits(d)
    ensures forall i :: 0 <= i < |d| ==> !IsSpace(d[i]) && d[i] != '(' && d[i] != ')' && d[i] != ' ' && d[i] != '.'
  {
  }

  /** The first occurrence of `c` is at `k` when `k` holds it and nothing before does. */
  lemma IndexOfAt(s: string, c: char, from: nat, k: int)
    requires from <= k < |s| && s[k] == c
    requires forall i :: from <= i < k ==> s[i] != c
    ensures IndexOfFrom(s, c, from) == k
  {
  }

  lemma IndexOfNone(s: string, c: char, from: nat)
    requires forall i :: from <= i < |s| ==> s[i] != c
    ensures IndexOfFrom(s, c, from) == -1
  {
  }

  /** A digit string followed by trailing whitespace still reads as its value. */
  lemma ToIntDigitsThenSpace(d: string)
    requires |d| >= 1 && AllDigits(d) && DecimalValue(d) <= IntMax
    ensures ToInt(d + " ") == DecimalValue(d)
  {
    var s := d + " ";
    NoSpaceInDigits(d);
    assert TrimStart(s) == s;
    assert s[..|s| - 1] == d;
    assert TrimEnd(d) == d;
    assert Trim(s) == d;
    ToIntOfDigits(d);
  }

  /** Splitting text whose remainder after the third character has no '('. */
  lemma SplitWithoutParen(t: string)
    requires |t| >= 3 && '(' !in t[3..]
    ensures SplitParts(t) == Parts(t[..2], t[3..], None)
  {
    assert Right(t, |t| - 3) == t[3..];
    IndexOfNone(t[3..], '(', 0);
  }

  /** Splitting text whose remainder after the third character has its first '(' at `k` and ends in ')'. */
  lemma SplitWithParen(t: string, k: int)
    requires |t| >= 3 && 0 <= k < |t| - 4 && t[3 + k] == '(' && t[|t| - 1] == ')'
    requires '(' !in t[3..3 + k]
    ensures SplitParts(t) == Parts(t[..2], t[3..3 + k], Some(t[3 + k + 1..|t| - 1]))
  {
    var rest := Right(t, |t| - 3);
    assert rest == t[3..];
    IndexOfAt(rest, '(', 0, k);
    var e := Right(rest, |rest| - k - 1);
    assert e == t[3 + k + 1..];
    assert Left(e, |e| - 1) == t[3 + k + 1..|t| - 1];
    assert Left(rest, k) == t[3..3 + k];
  }

  /** Text without any space that does not start with whitespace passes trimming and the cut unchanged. */
  lemma NoSpaceUnchanged(s: string)
    requires |s| > 0 && !IsSpace(s[0]) && !IsSpace(s[|s| - 1])
    requires ' ' !in s
    ensures CutAtSecondSpace(Trim(s)) == s
  {
    TrimOfTrimmed(s);
    IndexOfNone(s, ' ', 0);
  }

  /** "FF-n": family, dash and number digits, with no whitespace and no '('. */
  lemma HeadFacts(family: string, n: string)
    requires IsAcronym(family) && |n| >= 1 && AllDigits(n)
    ensures var head := family + "-" + n;
            && |head| == 3 + |n| && head[..2] == family && head[3..] == n
            && forall i :: 0 <= i < |head| ==> !IsSpace(head[i]) && head[i] != '('
  {
    var head := family + "-" + n;
    NoSpaceInDigits(n);
    forall i | 0 <= i < |head|
      ensures !IsSpace(head[i]) && head[i] != '('
    {
      if i >= 3 {
        assert head[i] == n[i - 3];
      } else if i == 2 {
        assert head[i] == '-';
      } else {
        assert head[i] == family[i];
      }
    }
  }

  lemma PartsUnenhanced(family: string, number: nat, spaced: bool)
    requires IsAcronym(family)
    ensures var s := FormatControl(family, number, None, spaced);
            |Trim(s)| >= 4 && ControlParts(s) == Parts(family, NatText(number), None)
  {
    var n := NatText(number);
    var s := FormatControl(family, number, None, spaced);
    HeadFacts(family, n);
    assert s == family + "-" + n;
    NoSpaceUnchanged(s);
    SplitWithoutParen(s);
  }

  /** Digit text: no whitespace, no parentheses, no dot. */
  predicate PlainDigits(d: string) {
    |d| >= 1 && forall i :: 0 <= i < |d| ==> d[i] != ' ' && !IsSpace(d[i]) && d[i] != '(' && d[i] != ')'
  }

  lemma DigitsArePlain(d: string)
    requires |d| >= 1 && AllDigits(d)
    ensures PlainDigits(d)
  {
  }

  /** "FF-n (m)" splits into FF, "n " and m. */
  lemma PartsSpacedText(head: string, n: string, m: string)
    requires |head| == 3 + |n| && head[3..] == n
    requires forall i :: 0 <= i < |head| ==> head[i] != ' ' && !IsSpace(head[i])
    requires PlainDigits(n) && PlainDigits(m)
    ensures var s := head + " (" + m + ")";
            |Trim(s)| >= 4 && ControlParts(s) == Parts(head[..2], n + " ", Some(m))
  {
    var s := head + " (" + m + ")";
    SpacedTextShape(head, n, m);
    assert CutAtSecondSpace(s) == s;
    SplitWithParen(s, |n| + 1);
    assert ControlParts(s) == SplitParts(s);
  }

  /** Where the pieces of "FF-n (m)" are: it is trimmed, has one space, and the text after the family is "n (m)". */
  lemma SpacedTextShape(head: string, n: string, m: string)
    requires |head| == 3 + |n| && head[3..] == n
    requires forall i :: 0 <= i < |head| ==> head[i] != ' ' && !IsSpace(head[i])
    requires PlainDigits(n) && PlainDigits(m)
    ensures var s := head + " (" + m + ")";
            var k := |n| + 1;
            && Trim(s) == s && |s| >= 4
            && IndexOf(s, ' ') == |head| && IndexOfFrom(s, ' ', |head| + 1) == -1
            && 0 <= k < |s| - 4 && s[3 + k] == '(' && s[|s| - 1] == ')'
            && s[3..3 + k] == n + " " && '(' !in s[3..3 + k]
            && s[..2] == head[..2] && s[3 + k + 1..|s| - 1] == m
  {
    var s := head + " (" + m + ")";
    var h := |head|;
    assert |s| == h + 3 + |m|;
    assert s[..h] == head;
    assert s[h] == ' ' && s[h + 1] == '(' && s[|s| - 1] == ')';
    assert s[h + 2..|s| - 1] == m;
    assert s[0] == head[0];
    TrimOfTrimmed(s);
    IndexOfAt(s, ' ', 0, h);
    forall i | h + 1 <= i < |s|
      ensures s[i] != ' '
    {
      if h + 2 <= i < |s| - 1 {
        assert s[i] == s[h + 2..|s| - 1][i - h - 2];
      }
    }
    IndexOfNone(s, ' ', h + 1);
    var k := |n| + 1;
    assert s[3..3 + k] == n + " " by {
      assert s[3..h] == head[3..];
    }
    assert s[..2] == head[..2];
  }

  /** "FF-n(m)" splits into FF, n and m. */
  lemma PartsAttachedText(head: string, n: string, m: string)
    requires |head| == 3 + |n| && head[3..] == n
    requires forall i :: 0 <= i < |head| ==> head[i] != ' ' && !IsSpace(head[i])
    requires PlainDigits(n) && PlainDigits(m)
    ensures var s := head + "(" + m + ")";
            |Trim(s)| >= 4 && ControlParts(s) == Parts(head[..2], n, Some(m))
  {
    var s := head + "(" + m + ")";
    assert s[0] == head[0];
    forall i | 0 <= i < |s|
      ensures s[i] != ' '
    {
      if i < |head| {
        assert s[i] == head[i];
      } else if i == |head| {
        assert s[i] == '(';
      } else if i < |s| - 1 {
        assert s[i] == m[i - |head| - 1];
      }
    }
    NoSpaceUnchanged(s);
    var k := |n|;
    assert s[3 + k] == '(';
    assert s[3..3 + k] == n;
    assert s[3 + k + 1..|s| - 1] == m;
    SplitWithParen(s, k);
  }

  /** Regrouping of a four-part concatenation. */
  lemma Regroup(a: string, b: string, c: string, d: string)
    ensures a + (b + c + d) == a + b + c + d
  {
  }

  lemma PartsSpaced(family: string, number: nat, e: nat)
    requires IsAcronym(family)
    ensures var s := FormatControl(family, number, Some(e), true);
            |Trim(s)| >= 4 && ControlParts(s) == Parts(family, NatText(number) + " ", Some(NatText(e)))
  {
    var n := NatText(number);
    var m := NatText(e);
    var head := family + "-" + n;
    HeadFacts(family, n);
    DigitsArePlain(n);
    DigitsArePlain(m);
    PartsSpacedText(head, n, m);
    Regroup(head, " (", m, ")");
  }

  lemma PartsAttached(family: string, number: nat, e: nat)
    requires IsAcronym(family)
    ensures var s := FormatControl(family, number, Some(e), false);
            |Trim(s)| >= 4 && ControlParts(s) == Parts(family, NatText(number), Some(NatText(e)))
  {
    var n := NatText(number);
    var m := NatText(e);
    var head := family + "-" + n;
    HeadFacts(family, n);
    DigitsArePlain(n);
    DigitsArePlain(m);
    PartsAttachedText(head, n, m);
    Regroup(head, "(", m, ")");
  }

  /** The pieces a well-formed identifier should split into: the family, the number's digits (with the space that precedes a spaced enhancement) and the enhancement's digits. */
  function FormattedParts(family: string, number: nat, enhancement: Option<nat>, spaced: bool): Parts {
    match enhancement
    case None => Parts(family, NatText(number), None)
    case Some(e) => Parts(family, NatText(number) + (if spaced then " " else ""), Some(NatText(e)))
  }

  lemma PartsOfFormatted(family: string, number: nat, enhancement: Option<nat>, spaced: bool)
    requires IsAcronym(family)
    ensures |Trim(FormatControl(family, number, enhancement, spaced))| >= 4
    ensures ControlParts(FormatControl(family, number, enhancement, spaced)) == FormattedParts(family, number, enhancement, spaced)
  {
    if enhancement.None? {
      PartsUnenhanced(family, number, spaced);
    } else if spaced {
      PartsSpaced(family, number, enhancement.value);
    } else {
      PartsAttached(family, number, enhancement.value);
    }
  }

  /**
   * Round trip: a well-formed identifier, spaced or attached, parses back to
   * its family, number and enhancement for both insertion and lookup. An
   * enhancement of 0 is stored as NULL, as AddControl does.
   */
  lemma ParseFormatted(family: string, number: nat, enhancement: Option<nat>, spaced: bool)
    requires IsAcronym(family)
    requires number <= IntMax
    requires enhancement.Some? ==> enhancement.value <= IntMax
    ensures var s := FormatControl(family, number, enhancement, spaced);
            && ParseNewControl(s) == Some(NewControl(family, number,
                                                     if enhancement == Some(0) then None else enhancement))
            && ParseControlRef(s) == ControlRef(family, number,
                                                if enhancement.Some? then enhancement.value else -1)
  {
    PartsOfFormatted(family, number, enhancement, spaced);
    ParseOfParts(FormatControl(family, number, enhancement, spaced), family, number, enhancement, spaced);
  }

  /** Both parsers read text whose pieces are those of a well-formed identifier as that identifier. */
  lemma ParseOfParts(control: string, family: string, number: nat, enhancement: Option<nat>, spaced: bool)
    requires |Trim(control)| >= 4
    requires ControlParts(control) == FormattedParts(family, number, enhancement, spaced)
    requires number <= IntMax
    requires enhancement.Some? ==> enhancement.value <= IntMax
    ensures ParseNewControl(control) == Some(NewControl(family, number,
                                                        if enhancement == Some(0) then None else enhancement))
    ensures ParseControlRef(control) == ControlRef(family, number,
                                                   if enhancement.Some? then enhancement.value else -1)
  {
    PartsValues(number, enhancement, spaced);
    NewOfParts(control, family, number, enhancement, spaced);
    RefOfParts(control, family, number, enhancement, spaced);
  }

  /** The number and enhancement pieces of a formatted identifier read back as their values. */
  lemma PartsValues(number: nat, enhancement: Option<nat>, spaced: bool)
    requires number <= IntMax
    requires enhancement.Some? ==> enhancement.value <= IntMax
    ensures ToInt(FormattedParts("", number, enhancement, spaced).number) == number
    ensures enhancement.Some? ==> ToInt(NatText(enhancement.value)) == enhancement.value
  {
    var n := NatText(number);
    if spaced && enhancement.Some? {
      ToIntDigitsThenSpace(n);
    } else {
      assert n + "" == n;
      ToIntOfDigits(n);
    }
    if enhancement.Some? {
      ToIntOfDigits(NatText(enhancement.value));
    }
  }

  lemma NewOfParts(control: string, family: string, number: nat, enhancement: Option<nat>, spaced: bool)
    requires |Trim(control)| >= 4
    requires ControlParts(control) == FormattedParts(family, number, enhancement, spaced)
    requires ToInt(FormattedParts("", number, enhancement, spaced).number) == number
    requires enhancement.Some? ==> ToInt(NatText(enhancement.value)) == enhancement.value
    ensures ParseNewControl(control) == Some(NewControl(family, number,
                                                        if enhancement == Some(0) then None else enhancement))
  {
  }

  lemma RefOfParts(control: string, family: string, number: nat, enhancement: Option<nat>, spaced: bool)
    requires |Trim(control)| >= 4
    requires ControlParts(control) == FormattedParts(family, number, enhancement, spaced)
    requires ToInt(FormattedParts("", number, enhancement, spaced).number) == number
    requires enhancement.Some? ==> ToInt(NatText(enhancement.value)) == enhancement.value
    ensures ParseControlRef(control) == ControlRef(family, number,
                                                   if enhancement.Some? then enhancement.value else -1)
  {
  }

  /** "AC-2 (1)", the catalogue's spelling, is family AC, number 2, enhancement 1 for both parsers. */
  lemma ParseSpacedExample()
    ensures ParseNewControl("AC-2 (1)") == Some(NewControl("AC", 2, Some(1)))
    ensures ParseControlRef("AC-2 (1)") == ControlRef("AC", 2, 1)
  {
    assert NatText(2) == "2" && NatText(1) == "1";
    assert FormatControl("AC", 2, Some(1), true) == "AC-2 (1)";
    ParseFormatted("AC", 2, Some(1), true);
  }

  /** "AC-2(1)", the spelling the CCI import produces, resolves to the same control. */
  lemma ParseAttachedExample()
    ensures ParseControlRef("AC-2(1)") == ControlRef("AC", 2, 1)
  {
    assert NatText(2) == "2" && NatText(1) == "1";
    assert FormatControl("AC", 2, Some(1), false) == "AC-2(1)";
    ParseFormatted("AC", 2, Some(1), false);
  }

  /** "AC-2" has no enhancement: GetControl looks it up with -1. */
  lemma ParseBaseExample()
    ensures ParseNewControl("AC-2") == Some(NewControl("AC", 2, None))
    ensures ParseControlRef("AC-2") == ControlRef("AC", 2, -1)
  {
    assert NatText(2) == "2";
    assert FormatControl("AC", 2, None, false) == "AC-2";
    ParseFormatted("AC", 2, None, false);
  }
}

=== FILE: emass.dfy ===
/**
 * The eMASS test result report of src/workeremassreport.cpp: the reviewed
 * checks are partitioned by CCI into failed and passed CCIs, then one
 * spreadsheet row is planned per failed CCI, per passed CCI and per
 * imported CCI seen in neither. The spreadsheet library, cell formats, the
 * clock and the environment are not modelled: the date and the user name
 * are parameters and rows are records.
 */
module Emass {
  import opened QtString
  import opened Seqs
  import opened Store
  import opened CciImport

  // ---------------------------------------------------------------------
  // Pass/fail partition (src/workeremassreport.cpp:165-191)
  // ---------------------------------------------------------------------

  /** A reviewed check together with the CCI its STIG check maps to. */
  datatype Finding = Finding(check: CklCheck, cci: Cci)

  /** The two CCI-keyed maps, each CCI with its checks in review order. */
  datatype Partition = Partition(failed: map<Cci, seq<CklCheck>>, passed: map<Cci, seq<CklCheck>>)

  const NoResults := Partition(map[], map[])

  /** No CCI is both failed and passed. */
  predicate Disjoint(p: Partition) {
    forall c :: c in p.failed ==> c !in p.passed
  }

  /** QMap::operator[](c).append(x), inserting an empty list first when `c` is new. */
  function Append(m: map<Cci, seq<CklCheck>>, c: Cci, x: CklCheck): (r: map<Cci, seq<CklCheck>>)
    ensures r.Keys == m.Keys + {c}
    ensures r[c] == (if c in m then m[c] else []) + [x]
    ensures forall d :: d in m && d != c ==> r[d] == m[d]
  {
    m[c := (if c in m then m[c] else []) + [x]]
  }

  /**
   * One check of the loop (src/workeremassreport.cpp:173-189): an Open
   * check fails its CCI and takes it out of the passed map; a NotAFinding
   * check passes its CCI unless it has already failed; any other status is
   * ignored.
   */
  function Tally(p: Partition, f: Finding): (r: Partition)
    ensures Disjoint(p) ==> Disjoint(r)
    ensures f.check.status == Open ==> f.cci in r.failed && f.cci !in r.passed
    ensures f.check.status != Open && f.check.status != NotAFinding ==> r == p
    ensures f.check.status == NotAFinding && f.cci in p.failed ==> r == p
    ensures f.check.status == NotAFinding ==> r.failed == p.failed && f.cci in r.failed + r.passed
  {
    var c := f.cci;
    if f.check.status == Open then Partition(Append(p.failed, c, f.check), p.passed - {c})
    else if f.check.status == NotAFinding && c !in p.failed then Partition(p.failed, Append(p.passed, c, f.check))
    else p
  }

  /** The whole loop, as a fold over the checks in order. */
  function TallyAll(fs: seq<Finding>): (r: Partition)
    decreases |fs|
    ensures Disjoint(r)
  {
    if |fs| == 0 then NoResults else Tally(TallyAll(fs[..|fs| - 1]), fs[|fs| - 1])
  }

  /** Some check of CCI `c` has status `s`. */
  predicate HasStatus(fs: seq<Finding>, c: Cci, s: Status) {
    exists i :: 0 <= i < |fs| && fs[i].cci == c && fs[i].check.status == s
  }

  /** The checks of CCI `c` with status `s`, in review order. */
  function ChecksWith(fs: seq<Finding>, c: Cci, s: Status): (r: seq<CklCheck>)
    decreases |fs|
    ensures r == [] <==> !HasStatus(fs, c, s)
  {
    if |fs| == 0 then []
    else
      var last := fs[|fs| - 1];
      var init := fs[..|fs| - 1];
      assert forall i :: 0 <= i < |init| ==> init[i] == fs[i];
      ChecksWith(init, c, s) + (if last.cci == c && last.check.status == s then [last.check] else [])
  }

  /**
   * After the loop, the failed CCIs are those with an Open check, each
   * holding its Open checks; the passed CCIs are those with a NotAFinding
   * check and no Open check, each holding its NotAFinding checks.
   */
  lemma {:induction false} TallyAllContents(fs: seq<Finding>)
    decreases |fs|
    ensures forall c :: c in TallyAll(fs).failed <==> HasStatus(fs, c, Open)
    ensures forall c :: c in TallyAll(fs).passed <==> HasStatus(fs, c, NotAFinding) && !HasStatus(fs, c, Open)
    ensures forall c :: c in TallyAll(fs).failed ==> TallyAll(fs).failed[c] == ChecksWith(fs, c, Open)
    ensures forall c :: c in TallyAll(fs).passed ==> TallyAll(fs).passed[c] == ChecksWith(fs, c, NotAFinding)
  {
    if |fs| > 0 {
      var init := fs[..|fs| - 1];
      TallyAllContents(init);
      var p := TallyAll(init);
      assert TallyAll(fs) == Tally(p, fs[|fs| - 1]);
      forall c
        ensures TalliedAt(TallyAll(fs), fs, c)
      {
        assert TalliedAt(p, init, c);
        TallyAt(p, fs, c);
      }
    }
    TalliedEverywhere(TallyAll(fs), fs);
  }

  /** TalliedAt at every CCI, spelled out. */
  lemma TalliedEverywhere(p: Partition, fs: seq<Finding>)
    requires |fs| == 0 ==> p == NoResults
    requires |fs| > 0 ==> forall c :: TalliedAt(p, fs, c)
    ensures forall c :: c in p.failed <==> HasStatus(fs, c, Open)
    ensures forall c :: c in p.passed <==> HasStatus(fs, c, NotAFinding) && !HasStatus(fs, c, Open)
    ensures forall c :: c in p.failed ==> p.failed[c] == ChecksWith(fs, c, Open)
    ensures forall c :: c in p.passed ==> p.passed[c] == ChecksWith(fs, c, NotAFinding)
  {
    forall c
      ensures && (c in p.failed <==> HasStatus(fs, c, Open))
              && (c in p.passed <==> HasStatus(fs, c, NotAFinding) && !HasStatus(fs, c, Open))
              && (c in p.failed ==> p.failed[c] == ChecksWith(fs, c, Open))
              && (c in p.passed ==> p.passed[c] == ChecksWith(fs, c, NotAFinding))
    {
      if |fs| == 0 {
        assert !HasStatus(fs, c, Open) && !HasStatus(fs, c, NotAFinding);
      } else {
        assert TalliedAt(p, fs, c);
      }
    }
  }

  /** The contents TallyAllContents states, at one CCI. */
  predicate TalliedAt(p: Partition, fs: seq<Finding>, c: Cci) {
    && (c in p.failed <==> HasStatus(fs, c, Open))
    && (c in p.passed <==> HasStatus(fs, c, NotAFinding) && !HasStatus(fs, c, Open))
    && (c in p.failed ==> p.failed[c] == ChecksWith(fs, c, Open))
    && (c in p.passed ==> p.passed[c] == ChecksWith(fs, c, NotAFinding))
  }

  /** One more check keeps the tally right at CCI `c`. */
  lemma TallyAt(p: Partition, fs: seq<Finding>, c: Cci)
    requires |fs| > 0 && TalliedAt(p, fs[..|fs| - 1], c)
    ensures TalliedAt(Tally(p, fs[|fs| - 1]), fs, c)
  {
    HasStatusSnoc(fs, c, Open);
    HasStatusSnoc(fs, c, NotAFinding);
  }

  /** A CCI has a check with status `s` among `fs` when it has one among all but the last, or the last is one. */
  lemma HasStatusSnoc(fs: seq<Finding>, c: Cci, s: Status)
    requires |fs| > 0
    ensures HasStatus(fs, c, s) <==> HasStatus(fs[..|fs| - 1], c, s) || (fs[|fs| - 1].cci == c && fs[|fs| - 1].check.status == s)
  {
    var init := fs[..|fs| - 1];
    if HasStatus(fs, c, s) && !(fs[|fs| - 1].cci == c && fs[|fs| - 1].check.status == s) {
      var i :| 0 <= i < |fs| && fs[i].cci == c && fs[i].check.status == s;
      assert init[i] == fs[i];
    }
    if HasStatus(init, c, s) {
      var i :| 0 <= i < |init| && init[i].cci == c && init[i].check.status == s;
      assert fs[i] == init[i];
    }
  }

  // ---------------------------------------------------------------------
  // The CCI column (src/workeremassreport.cpp:221-223)
  // ---------------------------------------------------------------------

  /** The CCI number as text, left-padded with '0' to six characters. */
  function Padded(n: int): (r: string)
    ensures |r| >= 6
  {
    var t := NumberText(n);
    if |t| >= 6 then t else Zeros(6 - |t|) + t
  }

  /** The padding loop of the report: prepend '0' while the text is shorter than six characters. */
  method PadCci(n: int) returns (s: string)
    ensures s == Padded(n)
    ensures |s| >= 6 && EndsWith(s, NumberText(n))
    ensures forall i :: 0 <= i < |s| - |NumberText(n)| ==> s[i] == '0'
  {
    var t := NumberText(n);
    s := t;
    assert Zeros(0) + t == t;
    while |s| < 6
      invariant |t| <= |s| && (|t| < 6 ==> |s| <= 6) && (|t| >= 6 ==> s == t)
      invariant s == Zeros(|s| - |t|) + t
      decreases 6 - |s|
    {
      ZeroPrepended(|s| - |t|, t);
      s := "0" + s;
    }
    PaddedShape(n, t, s);
  }

  /** One more '0' in front of `k` zeros and `t`. */
  lemma ZeroPrepended(k: nat, t: string)
    ensures "0" + (Zeros(k) + t) == Zeros(k + 1) + t
  {
  }

  /** What the padding loop leaves is Padded(n): at least six characters, zeros, then the number's text. */
  lemma PaddedShape(n: int, t: string, s: string)
    requires t == NumberText(n)
    requires |t| <= |s| && (|t| < 6 ==> |s| == 6) && (|t| >= 6 ==> s == t)
    requires s == Zeros(|s| - |t|) + t
    ensures s == Padded(n)
    ensures |s| >= 6 && EndsWith(s, NumberText(n))
    ensures forall i :: 0 <= i < |s| - |NumberText(n)| ==> s[i] == '0'
  {
    assert s[|s| - |t|..] == t;
    assert forall i :: 0 <= i < |s| - |t| ==> s[i] == Zeros(|s| - |t|)[i];
  }

  /** Padding keeps the numeric value of any CCI number that fits an `int`. */
  lemma PaddedValue(n: int)
    requires 0 <= n <= IntMax
    ensures ToInt(Padded(n)) == n
  {
    var t := NatText(n);
    if |t| < 6 {
      LeadingZerosValue(6 - |t|, t);
      var d := Zeros(6 - |t|) + t;
      ToIntOfDigits(d);
    } else {
      ToIntOfNumberText(n);
    }
  }

  /**
   * Below a million the padded number is exactly six digits, and the CCI
   * import reads "CCI-" followed by them back as the same number.
   */
  lemma PaddedRoundTrip(n: int)
    requires 0 <= n < 1000000
    ensures |Padded(n)| == 6
    ensures ToInt(Right("CCI-" + Padded(n), 6)) == n
  {
    var t := NatText(n);
    NatTextShort(n);
    LeadingZerosValue(6 - |t|, t);
    CciNumberOfId(Padded(n));
  }

  lemma NatTextShort(n: nat)
    requires n < 1000000
    ensures |NatText(n)| <= 6
  {
    var t := NatText(n);
    if |t| > 6 {
      LeadingDigitFloor(t);
      Pow10Grows(6, |t| - 1);
      assert false;
    }
  }

  /** A digit string without a leading zero is worth at least 10^(length - 1). */
  lemma {:induction false} LeadingDigitFloor(t: string)
    requires |t| >= 1 && AllDigits(t) && (|t| > 1 ==> t[0] != '0')
    ensures DecimalValue(t) >= Pow10(|t| - 1) || |t| == 1
    ensures |t| > 1 ==> DecimalValue(t) >= Pow10(|t| - 1)
    decreases |t|
  {
    if |t| > 1 {
      var init := t[..|t| - 1];
      assert init[0] == t[0];
      if |init| == 1 {
        assert DecimalValue(init) == DigitValue(t[0]) >= 1;
      } else {
        LeadingDigitFloor(init);
      }
    }
  }

  lemma {:induction false} Pow10Grows(j: nat, k: nat)
    requires j <= k
    ensures Pow10(j) <= Pow10(k)
    decreases k
  {
    if j < k {
      Pow10Grows(j, k - 1);
    }
  }

  lemma PaddedExample()
    ensures Padded(366) == "000366"
  {
    assert NatText(366) == "366" by {
      assert NatText(3) == "3";
      assert NatText(36) == NatText(3) + [DigitChar(6)];
    }
    assert Zeros(3) == "000";
  }

  // ---------------------------------------------------------------------
  // Row plan (src/workeremassreport.cpp:195-353)
  // ---------------------------------------------------------------------

  const OpenHeader := "The following checks are open:"
  const CompliantHeader := "The following checks were compliant:"
  const NonCompliant := "Non-Compliant"
  const Compliant := "Compliant"

  /** The first data row: rows 0 to 5 hold the headers. */
  const FirstRow := 6

  /**
   * A planned row: its number, the CCI, column 3 (the padded number),
   * columns 7 to 10 (compliance, date tested, tested by, test results) and
   * columns 11 to 14 (the latest imported result).
   */
  datatype Row = Row(row: int, cci: Cci, cciText: string, compliance: string, dateTested: string,
                     testedBy: string, results: string, latest: seq<string>)

  /** Columns 11 to 14: the imported result of an imported CCI, otherwise empty. */
  function Latest(c: Cci): (r: seq<string>)
    ensures |r| == 4
    ensures c.isImport ==> r == [c.importCompliance, c.importDateTested, c.importTestedBy, c.importTestResults]
    ensures !c.isImport ==> r == ["", "", "", ""]
  {
    if c.isImport then [c.importCompliance, c.importDateTested, c.importTestedBy, c.importTestResults]
    else ["", "", "", ""]
  }

  /**
   * The line of one open check: its description (asset and check), its
   * severity, and its finding details when there are any.
   */
  function OpenLine(cc: CklCheck, describe: CklCheck -> string, severity: CklCheck -> string): string {
    "\n" + describe(cc) + " - " + severity(cc) + (if cc.findingDetails != "" then " - " + cc.findingDetails else "")
  }

  function OpenLines(checks: seq<CklCheck>, describe: CklCheck -> string, severity: CklCheck -> string): string
    decreases |checks|
  {
    if |checks| == 0 then "" else OpenLine(checks[0], describe, severity) + OpenLines(checks[1..], describe, severity)
  }

  function CompliantLines(checks: seq<CklCheck>, describe: CklCheck -> string): string
    decreases |checks|
  {
    if |checks| == 0 then "" else "\n" + describe(checks[0]) + CompliantLines(checks[1..], describe)
  }

  /** What the report needs beyond the partition: the clock, the user and the printers. */
  datatype Context = Context(date: string, user: string, describe: CklCheck -> string,
                             severity: CklCheck -> string, sortChecks: seq<CklCheck> -> seq<CklCheck>)

  function FailedRow(n: int, c: Cci, checks: seq<CklCheck>, x: Context): (r: Row)
    ensures r.compliance == NonCompliant && StartsWith(r.results, OpenHeader)
  {
    Row(n, c, Padded(c.cci), NonCompliant, x.date, x.user,
        OpenHeader + OpenLines(x.sortChecks(checks), x.describe, x.severity), Latest(c))
  }

  function PassedRow(n: int, c: Cci, checks: seq<CklCheck>, x: Context): (r: Row)
    ensures r.compliance == Compliant && StartsWith(r.results, CompliantHeader)
  {
    Row(n, c, Padded(c.cci), Compliant, x.date, x.user,
        CompliantHeader + CompliantLines(x.sortChecks(checks), x.describe), Latest(c))
  }

  function LeftoverRow(n: int, c: Cci): (r: Row)
    ensures r.compliance == "" && r.results == "" && r.dateTested == "" && r.testedBy == ""
  {
    Row(n, c, Padded(c.cci), "", "", "", "", Latest(c))
  }

  /** One row per failed CCI, in key order, numbered from `start`. */
  function FailedRows(start: int, keys: seq<Cci>, failed: map<Cci, seq<CklCheck>>, x: Context): (r: seq<Row>)
    requires forall i :: 0 <= i < |keys| ==> keys[i] in failed
    ensures |r| == |keys|
    ensures forall i :: 0 <= i < |r| ==> r[i] == FailedRow(start + i, keys[i], failed[keys[i]], x)
    ensures Ccis(r) == keys
  {
    seq(|keys|, i requires 0 <= i < |keys| => FailedRow(start + i, keys[i], failed[keys[i]], x))
  }

  function PassedRows(start: int, keys: seq<Cci>, passed: map<Cci, seq<CklCheck>>, x: Context): (r: seq<Row>)
    requires forall i :: 0 <= i < |keys| ==> keys[i] in passed
    ensures |r| == |keys|
    ensures forall i :: 0 <= i < |r| ==> r[i] == PassedRow(start + i, keys[i], passed[keys[i]], x)
    ensures Ccis(r) == keys
  {
    seq(|keys|, i requires 0 <= i < |keys| => PassedRow(start + i, keys[i], passed[keys[i]], x))
  }

  function LeftoverRows(start: int, keys: seq<Cci>): (r: seq<Row>)
    ensures |r| == |keys|
    ensures forall i :: 0 <= i < |r| ==> r[i] == LeftoverRow(start + i, keys[i])
    ensures Ccis(r) == keys
  {
    seq(|keys|, i requires 0 <= i < |keys| => LeftoverRow(start + i, keys[i]))
  }

  /** An imported CCI that neither failed nor passed (the skip test at src/workeremassreport.cpp:312). */
  predicate Leftover(p: Partition, c: Cci) {
    c.isImport && c !in p.failed && c !in p.passed
  }

  /** The failed CCIs in key order. */
  function FailedKeys(p: Partition, order: seq<Cci>): seq<Cci> {
    Filter(order, c => c in p.failed)
  }

  /** The passed CCIs in key order. */
  function PassedKeys(p: Partition, order: seq<Cci>): seq<Cci> {
    Filter(order, c => c in p.passed)
  }

  /** The stored CCIs that neither failed nor passed, in CCI order. */
  function LeftoverKeys(p: Partition, stored: seq<Cci>): seq<Cci> {
    Filter(stored, c => Leftover(p, c))
  }

  /**
   * The rows of the report. QMap iterates its keys in CCI order, whose
   * comparison is not part of this model: `order` lists the CCIs in that
   * order. `stored` is GetCCIs(), the CCI table ordered by number.
   */
  function Plan(p: Partition, order: seq<Cci>, stored: seq<Cci>, x: Context): (r: seq<Row>)
    ensures var nf := |FailedKeys(p, order)|;
            var np := |PassedKeys(p, order)|;
            && |r| == nf + np + |LeftoverKeys(p, stored)|
            && (forall i :: 0 <= i < |r| ==> r[i].row == FirstRow + i && r[i].cciText == Padded(r[i].cci.cci)
                                             && r[i].latest == Latest(r[i].cci))
            && (forall i :: 0 <= i < nf ==> r[i].cci in p.failed && r[i].compliance == NonCompliant)
            && (forall i :: nf <= i < nf + np ==> r[i].cci in p.passed && r[i].compliance == Compliant)
            && (forall i :: nf + np <= i < |r| ==> Leftover(p, r[i].cci) && r[i].compliance == "")
  {
    var fk := FailedKeys(p, order);
    var pk := PassedKeys(p, order);
    var fr := FailedRows(FirstRow, fk, p.failed, x);
    var pr := PassedRows(FirstRow + |fk|, pk, p.passed, x);
    var lr := LeftoverRows(FirstRow + |fk| + |pk|, LeftoverKeys(p, stored));
    FailedRowsShape(FirstRow, fk, p.failed, x);
    PassedRowsShape(FirstRow + |fk|, pk, p.passed, x);
    LeftoverRowsShape(FirstRow + |fk| + |pk|, LeftoverKeys(p, stored), p);
    PlanParts(p, fr, pr, lr);
    fr + pr + lr
  }

  /** Rows numbered consecutively from `first`, each with its padded CCI text and latest revision. */
  predicate Numbered(rows: seq<Row>, first: int) {
    forall i :: 0 <= i < |rows| ==>
      rows[i].row == first + i && rows[i].cciText == Padded(rows[i].cci.cci) && rows[i].latest == Latest(rows[i].cci)
  }

  lemma FailedRowsShape(start: int, keys: seq<Cci>, failed: map<Cci, seq<CklCheck>>, x: Context)
    requires forall i :: 0 <= i < |keys| ==> keys[i] in failed
    ensures Numbered(FailedRows(start, keys, failed, x), start)
    ensures forall i :: 0 <= i < |keys| ==> (FailedRows(start, keys, failed, x)[i].cci in failed
                                           && FailedRows(start, keys, failed, x)[i].compliance == NonCompliant)
  {
  }

  lemma PassedRowsShape(start: int, keys: seq<Cci>, passed: map<Cci, seq<CklCheck>>, x: Context)
    requires forall i :: 0 <= i < |keys| ==> keys[i] in passed
    ensures Numbered(PassedRows(start, keys, passed, x), start)
    ensures forall i :: 0 <= i < |keys| ==> (PassedRows(start, keys, passed, x)[i].cci in passed
                                           && PassedRows(start, keys, passed, x)[i].compliance == Compliant)
  {
  }

  lemma LeftoverRowsShape(start: int, keys: seq<Cci>, p: Partition)
    requires forall i :: 0 <= i < |keys| ==> Leftover(p, keys[i])
    ensures Numbered(LeftoverRows(start, keys), start)
    ensures forall i :: 0 <= i < |keys| ==> (Leftover(p, LeftoverRows(start, keys)[i].cci)
                                           && LeftoverRows(start, keys)[i].compliance == "")
  {
  }

  /** Joining the three sections keeps the numbering and each section's compliance. */
  lemma PlanParts(p: Partition, fr: seq<Row>, pr: seq<Row>, lr: seq<Row>)
    requires Numbered(fr, FirstRow) && Numbered(pr, FirstRow + |fr|) && Numbered(lr, FirstRow + |fr| + |pr|)
    requires forall i :: 0 <= i < |fr| ==> fr[i].cci in p.failed && fr[i].compliance == NonCompliant
    requires forall i :: 0 <= i < |pr| ==> pr[i].cci in p.passed && pr[i].compliance == Compliant
    requires forall i :: 0 <= i < |lr| ==> Leftover(p, lr[i].cci) && lr[i].compliance == ""
    ensures var r := fr + pr + lr;
            && (forall i :: 0 <= i < |r| ==> r[i].row == FirstRow + i && r[i].cciText == Padded(r[i].cci.cci)
                                             && r[i].latest == Latest(r[i].cci))
            && (forall i :: 0 <= i < |fr| ==> r[i].cci in p.failed && r[i].compliance == NonCompliant)
            && (forall i :: |fr| <= i < |fr| + |pr| ==> r[i].cci in p.passed && r[i].compliance == Compliant)
            && (forall i :: |fr| + |pr| <= i < |r| ==> Leftover(p, r[i].cci) && r[i].compliance == "")
  {
    ThreeParts(fr, pr, lr);
  }

  /** Where the elements of `a + b + c` come from. */
  lemma ThreeParts<T>(a: seq<T>, b: seq<T>, c: seq<T>)
    ensures var r := a + b + c;
            && |r| == |a| + |b| + |c|
            && (forall i :: 0 <= i < |a| ==> r[i] == a[i])
            && (forall i :: |a| <= i < |a| + |b| ==> r[i] == b[i - |a|])
            && (forall i :: |a| + |b| <= i < |r| ==> r[i] == c[i - |a| - |b|])
  {
  }

  /** The CCI of each row. */
  function Ccis(rows: seq<Row>): (r: seq<Cci>)
    ensures |r| == |rows| && forall i :: 0 <= i < |r| ==> r[i] == rows[i].cci
  {
    seq(|rows|, i requires 0 <= i < |rows| => rows[i].cci)
  }

  lemma CcisAppend(a: seq<Row>, b: seq<Row>)
    ensures Ccis(a + b) == Ccis(a) + Ccis(b)
  {
  }

  /** The rows' CCIs are the failed keys, then the passed keys, then the leftover CCIs. */
  lemma PlanCcis(p: Partition, order: seq<Cci>, stored: seq<Cci>, x: Context)
    ensures Ccis(Plan(p, order, stored, x)) == FailedKeys(p, order) + PassedKeys(p, order) + LeftoverKeys(p, stored)
  {
    var fk := FailedKeys(p, order);
    var pk := PassedKeys(p, order);
    var fr := FailedRows(FirstRow, fk, p.failed, x);
    var pr := PassedRows(FirstRow + |fk|, pk, p.passed, x);
    var lr := LeftoverRows(FirstRow + |fk| + |pk|, LeftoverKeys(p, stored));
    assert Plan(p, order, stored, x) == fr + pr + lr;
    CcisAppend(fr + pr, lr);
    CcisAppend(fr, pr);
  }

  /** Every element of `s` occurs once. */
  predicate Distinct<T(==)>(s: seq<T>) {
    forall i, j :: 0 <= i < j < |s| ==> s[i] != s[j]
  }

  lemma DistinctConcat<T>(a: seq<T>, b: seq<T>)
    requires Distinct(a) && Distinct(b)
    requires forall i, j :: 0 <= i < |a| && 0 <= j < |b| ==> a[i] != b[j]
    ensures Distinct(a + b)
  {
    forall i, j | 0 <= i < j < |a + b|
      ensures (a + b)[i] != (a + b)[j]
    {
      if j < |a| {
        assert (a + b)[i] == a[i] && (a + b)[j] == a[j];
      } else if i < |a| {
        assert (a + b)[i] == a[i] && (a + b)[j] == b[j - |a|];
      } else {
        assert (a + b)[i] == b[i - |a|] && (a + b)[j] == b[j - |a|];
      }
    }
  }

  /**
   * With no CCI both failed and passed and with `order` listing every CCI
   * once, each failed and each passed CCI gets exactly one row, and so does
   * each imported CCI stored once that is in neither map; no other CCI
   * gets a row.
   */
  lemma PlanCovers(p: Partition, order: seq<Cci>, stored: seq<Cci>, x: Context)
    requires Disjoint(p) && Distinct(order) && Distinct(stored)
    requires forall d :: d in p.failed || d in p.passed ==> d in order
    ensures Distinct(Ccis(Plan(p, order, stored, x)))
    ensures forall c :: (c in Ccis(Plan(p, order, stored, x)))
                        <==> (c in p.failed || c in p.passed || (Leftover(p, c) && c in stored))
  {
    PlanCcis(p, order, stored, x);
    var fk := FailedKeys(p, order);
    var pk := PassedKeys(p, order);
    var lk := LeftoverKeys(p, stored);
    FilterDistinct(order, c => c in p.failed);
    FilterDistinct(order, c => c in p.passed);
    FilterDistinct(stored, c => Leftover(p, c));
    DistinctConcat(fk, pk);
    DistinctConcat(fk + pk, lk);
    forall c | c in p.failed || c in p.passed || (Leftover(p, c) && c in stored)
      ensures c in fk + pk + lk
    {
      if c in p.failed {
        assert c in fk;
      } else if c in p.passed {
        assert c in pk;
      } else {
        assert c in lk;
      }
    }
  }

  lemma {:induction false} FilterDistinct<T>(s: seq<T>, keep: T -> bool)
    requires Distinct(s)
    ensures Distinct(Filter(s, keep))
    decreases |s|
  {
    if |s| > 0 {
      FilterDistinct(s[1..], keep);
      var rest := Filter(s[1..], keep);
      if keep(s[0]) {
        var r := [s[0]] + rest;
        forall i, j | 0 <= i < j < |r|
          ensures r[i] != r[j]
        {
          if i == 0 {
            assert r[j] in s[1..];
          } else {
            assert r[i] == rest[i - 1] && r[j] == rest[j - 1];
          }
        }
      }
    }
  }

  /**
   * End to end: a row of the report says Non-Compliant exactly when its
   * CCI has an Open check, Compliant exactly when it has a NotAFinding
   * check and no Open one, and is left blank when it has neither.
   */
  lemma ReportCompliance(fs: seq<Finding>, order: seq<Cci>, stored: seq<Cci>, x: Context, i: int)
    requires 0 <= i < |Plan(TallyAll(fs), order, stored, x)|
    ensures var row := Plan(TallyAll(fs), order, stored, x)[i];
            && (row.compliance == NonCompliant <==> HasStatus(fs, row.cci, Open))
            && (row.compliance == Compliant <==> HasStatus(fs, row.cci, NotAFinding) && !HasStatus(fs, row.cci, Open))
            && (row.compliance == "" <==> !HasStatus(fs, row.cci, NotAFinding) && !HasStatus(fs, row.cci, Open))
  {
    TallyAllContents(fs);
  }

  // ---------------------------------------------------------------------
  // The new-CCI warning (src/workeremassreport.cpp:246-247, 297-298, 352-353)
  // ---------------------------------------------------------------------

  /** Whether any of the CCIs is not imported: the flag the failed and passed loops raise. */
  function AnyUnimported(keys: seq<Cci>): (r: bool)
    decreases |keys|
    ensures r <==> exists i :: 0 <= i < |keys| && !keys[i].isImport
  {
    if |keys| == 0 then false
    else
      assert forall i :: 1 <= i < |keys| ==> keys[i] == keys[1..][i - 1];
      !keys[0].isImport || AnyUnimported(keys[1..])
  }

  /** The warning fires after the rows are written when a row's CCI was not imported and an eMASS import exists. */
  function Warns(p: Partition, order: seq<Cci>, emassImport: bool): bool {
    AnyUnimported(FailedKeys(p, order) + PassedKeys(p, order)) && emassImport
  }

  /** With every key listed in `order`, the warning fires iff a failed or passed CCI is not imported and an eMASS import exists. */
  lemma WarnsIff(p: Partition, order: seq<Cci>, emassImport: bool)
    requires forall d :: d in p.failed || d in p.passed ==> d in order
    ensures Warns(p, order, emassImport)
        <==> emassImport && exists d :: (d in p.failed || d in p.passed) && !d.isImport
  {
    if exists d :: (d in p.failed || d in p.passed) && !d.isImport {
      var d :| (d in p.failed || d in p.passed) && !d.isImport;
      UnimportedListed(p, order, d);
    }
    UnimportedKnown(p, order);
  }

  /** An unimported failed or passed CCI is among the keys the warning looks at. */
  lemma UnimportedListed(p: Partition, order: seq<Cci>, d: Cci)
    requires (d in p.failed || d in p.passed) && d in order && !d.isImport
    ensures AnyUnimported(FailedKeys(p, order) + PassedKeys(p, order))
  {
    var k :| 0 <= k < |order| && order[k] == d;
    if d in p.failed {
      assert order[k] in FailedKeys(p, order);
    } else {
      assert order[k] in PassedKeys(p, order);
    }
    assert d in FailedKeys(p, order) + PassedKeys(p, order);
  }

  /** The keys the warning looks at are failed or passed CCIs. */
  lemma UnimportedKnown(p: Partition, order: seq<Cci>)
    ensures AnyUnimported(FailedKeys(p, order) + PassedKeys(p, order))
            ==> exists d :: (d in p.failed || d in p.passed) && !d.isImport
  {
    var keys := FailedKeys(p, order) + PassedKeys(p, order);
    if AnyUnimported(keys) {
      var i :| 0 <= i < |keys| && !keys[i].isImport;
      assert keys[i] in p.failed || keys[i] in p.passed;
    }
  }
}

=== FILE: legacycci.dfy ===
/**
 * The older CCI import job of workercciadd.cpp. It scrapes the family
 * links, the family pages and the control pages of the NIST site, then
 * reads the CCI list. It differs from src/workercciadd.cpp in four places:
 * the family link text is cut without trimming, control pages are found by
 * their href, each control page title is cut at fixed offsets, and the
 * parenthesised part of a reference index is always appended to the
 * control. Downloads, HTML tidying and unzipping are not modelled: each
 * page arrives as its stream of start elements.
 */
module LegacyCci {
  import opened Wrappers
  import opened QtString
  import opened ControlId
  import opened Seqs
  import opened XmlEvents
  import opened Store
  import opened StoreProps
  import opened CciImport

  // ---------------------------------------------------------------------
  // Family links (workercciadd.cpp:58-86)
  // ---------------------------------------------------------------------

  /** A family link: the family it names and the family page it points to. */
  datatype Link = Link(family: FamilyText, href: string)

  /**
   * The family an element links to (workercciadd.cpp:61-82): an `a` element
   * with both an id and an href, whose id ends in "FamilyLink". The acronym
   * is the first two characters of the text and the name drops the first
   * five characters; neither is trimmed.
   */
  function LegacyLinkFamily(e: Elem): (r: Option<Link>)
    ensures r.Some? <==> e.name == "a" && HasAttr(e, "id") && HasAttr(e, "href")
                         && EndsWith(Attr(e, "id"), "FamilyLink")
    ensures r.Some? ==> r.value.href == Attr(e, "href")
    ensures r.Some? && |e.text| >= 5 ==> e.text == r.value.family.acronym + e.text[2..5] + r.value.family.name
    ensures r.Some? && |e.text| < 5 ==> StartsWith(e.text, r.value.family.acronym) && r.value.family.name == e.text
  {
    if e.name == "a" && HasAttr(e, "id") && HasAttr(e, "href") && EndsWith(Attr(e, "id"), "FamilyLink") then
      var family := e.text;
      assert |family| >= 5 ==> family == family[..2] + family[2..5] + family[5..];
      Some(Link(FamilyText(Left(family, 2), Right(family, |family| - 5)), Attr(e, "href")))
    else None
  }

  /**
   * The link text "AC - Access Control" gives back its acronym and name,
   * whatever their spacing; for a two-letter code and a name without outer
   * spaces, that is the family the newer job reads too.
   */
  lemma LegacyLinkOfText(acronym: string, name: string, id: string, href: string)
    requires |acronym| == 2
    ensures LegacyLinkFamily(Start("a", map["id" := id + "FamilyLink", "href" := href], acronym + " - " + name, []))
         == Some(Link(FamilyText(acronym, name), href))
    ensures IsFamilyCode(acronym) && |name| > 0 && !IsSpace(name[0]) && !IsSpace(name[|name| - 1]) ==>
              LinkFamily(Start("a", map["id" := id + "FamilyLink", "href" := href], acronym + " - " + name, []))
              == Some(FamilyText(acronym, name))
  {
    var e := Start("a", map["id" := id + "FamilyLink", "href" := href], acronym + " - " + name, []);
    assert Attr(e, "id") == id + "FamilyLink";
    assert EndsWith(Attr(e, "id"), "FamilyLink") by {
      assert (id + "FamilyLink")[|id|..] == "FamilyLink";
    }
    if IsFamilyCode(acronym) && |name| > 0 && !IsSpace(name[0]) && !IsSpace(name[|name| - 1]) {
      LinkFamilyOfText(acronym, name, id, href);
    }
  }

  /**
   * Padding after the link text is kept in the family name by the older
   * job and trimmed away by the newer one.
   */
  lemma PaddedName(acronym: string, name: string, id: string, href: string)
    requires IsFamilyCode(acronym)
    requires |name| > 0 && !IsSpace(name[0]) && !IsSpace(name[|name| - 1])
    ensures var e := Start("a", map["id" := id + "FamilyLink", "href" := href], acronym + " - " + name + " ", []);
            && LegacyLinkFamily(e) == Some(Link(FamilyText(acronym, name + " "), href))
            && LinkFamily(e) == Some(FamilyText(acronym, name))
  {
    var e := Start("a", map["id" := id + "FamilyLink", "href" := href], acronym + " - " + name + " ", []);
    assert acronym + " - " + name + " " == acronym + " - " + (name + " ");
    LegacyLinkOfText(acronym, name + " ", id, href);
    var t := acronym + " - " + name;
    assert t[0] == acronym[0] && t[|t| - 1] == name[|name| - 1];
    TrimDropsTrailingSpace(t);
    LinkFamilyTrims(e);
    LinkFamilyOfText(acronym, name, id, href);
  }

  /** The newer job reads the link text only through its trimmed form. */
  lemma LinkFamilyTrims(e: Elem)
    ensures LinkFamily(e) == LinkFamily(e.(text := Trim(e.text)))
  {
    TrimIdempotent(e.text);
  }

  lemma TrimDropsTrailingSpace(s: string)
    requires |s| > 0 && !IsSpace(s[0]) && !IsSpace(s[|s| - 1])
    ensures Trim(s + " ") == s
  {
    var t := s + " ";
    assert TrimStart(t) == t;
    assert t[..|t| - 1] == s;
    TrimOfTrimmed(s);
    assert TrimEnd(t) == TrimEnd(s);
  }

  /** The links of the families page, in page order. */
  function LegacyLinks(page: seq<Elem>): (r: seq<Link>)
    ensures |r| <= |page|
    ensures forall i :: 0 <= i < |r| ==> Explained(page, r[i], (e, l) => LegacyLinkFamily(e) == Some(l))
    ensures forall j :: 0 <= j < |page| && LegacyLinkFamily(page[j]).Some? ==> LegacyLinkFamily(page[j]).value in r
  {
    if |page| == 0 then []
    else
      var rest := LegacyLinks(page[1..]);
      var out := match LegacyLinkFamily(page[0]) case None => [] case Some(l) => [l];
      ExplainedStep(page, out, rest, out + rest, (e, l) => LegacyLinkFamily(e) == Some(l));
      assert forall j :: 1 <= j < |page| ==> page[j] == page[1..][j - 1];
      out + rest
  }

  /** The href of every link, in link order: the family pages to index. */
  function Hrefs(links: seq<Link>): (r: seq<string>)
    ensures |r| == |links| && forall i :: 0 <= i < |r| ==> r[i] == links[i].href
  {
    seq(|links|, i requires 0 <= i < |links| => links[i].href)
  }

  /** The families of the links, in link order. */
  function Families(links: seq<Link>): (r: seq<FamilyText>)
    ensures |r| == |links| && forall i :: 0 <= i < |r| ==> r[i] == links[i].family
  {
    seq(|links|, i requires 0 <= i < |links| => links[i].family)
  }

  /**
   * Step 3 (workercciadd.cpp:57-86): AddFamily for every link under delayed
   * commits; the hrefs are queued as the family pages. Every linked family
   * is present afterwards and one page is queued per link.
   */
  function LegacyReadFamilies(db: Tables, sanitize: string -> string, page: seq<Elem>): (r: (Tables, seq<string>))
    ensures r.0.delayCommit == false
    ensures forall j :: 0 <= j < |page| && LegacyLinkFamily(page[j]).Some? ==>
              && FamilyPresent(r.0, sanitize, LegacyLinkFamily(page[j]).value.family)
              && LegacyLinkFamily(page[j]).value.href in r.1
    ensures forall i :: 0 <= i < |r.1| ==> exists j :: 0 <= j < |page| && LegacyLinkFamily(page[j]).Some?
                                                      && LegacyLinkFamily(page[j]).value.href == r.1[i]
  {
    var links := LegacyLinks(page);
    var fs := Families(links);
    var d := AddFamilies(DelayCommit(db, true), sanitize, fs);
    var todo := Hrefs(links);
    LinkedFamiliesRead(page, links, fs, todo, d, sanitize);
    (DelayCommit(d, false), todo)
  }

  lemma LinkedFamiliesRead(page: seq<Elem>, links: seq<Link>, fs: seq<FamilyText>, todo: seq<string>,
                           d: Tables, sanitize: string -> string)
    requires forall i :: 0 <= i < |links| ==> Explained(page, links[i], (e, l) => LegacyLinkFamily(e) == Some(l))
    requires forall j :: 0 <= j < |page| && LegacyLinkFamily(page[j]).Some? ==> LegacyLinkFamily(page[j]).value in links
    requires |fs| == |links| && forall i :: 0 <= i < |fs| ==> fs[i] == links[i].family
    requires |todo| == |links| && forall i :: 0 <= i < |todo| ==> todo[i] == links[i].href
    requires forall k :: 0 <= k < |fs| ==> FamilyPresent(d, sanitize, fs[k])
    ensures forall j :: 0 <= j < |page| && LegacyLinkFamily(page[j]).Some? ==>
              && FamilyPresent(d, sanitize, LegacyLinkFamily(page[j]).value.family)
              && LegacyLinkFamily(page[j]).value.href in todo
    ensures forall i :: 0 <= i < |todo| ==> exists j :: 0 <= j < |page| && LegacyLinkFamily(page[j]).Some?
                                                       && LegacyLinkFamily(page[j]).value.href == todo[i]
  {
    forall j | 0 <= j < |page| && LegacyLinkFamily(page[j]).Some?
      ensures FamilyPresent(d, sanitize, LegacyLinkFamily(page[j]).value.family)
      ensures LegacyLinkFamily(page[j]).value.href in todo
    {
      var k :| 0 <= k < |links| && links[k] == LegacyLinkFamily(page[j]).value;
      assert fs[k] == links[k].family && todo[k] == links[k].href;
    }
    forall i | 0 <= i < |todo|
      ensures exists j :: 0 <= j < |page| && LegacyLinkFamily(page[j]).Some? && LegacyLinkFamily(page[j]).value.href == todo[i]
    {
      assert Explained(page, links[i], (e, l) => LegacyLinkFamily(e) == Some(l));
      var j :| 0 <= j < |page| && LegacyLinkFamily(page[j]) == Some(links[i]);
      assert LegacyLinkFamily(page[j]).value.href == todo[i];
    }
  }

  // ---------------------------------------------------------------------
  // Family pages (workercciadd.cpp:90-123)
  // ---------------------------------------------------------------------

  /** An `a` element whose href names a control page: it contains "/control/" and no '?'. */
  predicate ControlHref(e: Elem) {
    e.name == "a" && HasAttr(e, "href") && ContainsText(Attr(e, "href"), "/control/") && !Contains(Attr(e, "href"), '?')
  }

  /** The control pages one family page queues, in page order (workercciadd.cpp:100-119). */
  function ControlHrefs(page: seq<Elem>): (r: seq<string>)
    ensures |r| <= |page|
    ensures forall i :: 0 <= i < |r| ==> ContainsText(r[i], "/control/") && !Contains(r[i], '?')
    ensures forall j :: 0 <= j < |page| && ControlHref(page[j]) ==> Attr(page[j], "href") in r
    ensures forall i :: 0 <= i < |r| ==> Explained(page, r[i], (e, h) => ControlHref(e) && Attr(e, "href") == h)
  {
    if |page| == 0 then []
    else
      var rest := ControlHrefs(page[1..]);
      var out := if ControlHref(page[0]) then [Attr(page[0], "href")] else [];
      ExplainedStep(page, out, rest, out + rest, (e, h) => ControlHref(e) && Attr(e, "href") == h);
      assert forall j :: 1 <= j < |page| ==> page[j] == page[1..][j - 1];
      out + rest
  }

  /** Step 4: the control pages of every family page, family by family. */
  function ControlPages(familyPages: seq<seq<Elem>>): (r: seq<string>)
    decreases |familyPages|
    ensures forall i :: 0 <= i < |r| ==> ContainsText(r[i], "/control/") && !Contains(r[i], '?')
  {
    if |familyPages| == 0 then [] else ControlHrefs(familyPages[0]) + ControlPages(familyPages[1..])
  }

  /** An href with a query string is not queued, even when it names a control page. */
  lemma QueryHrefSkipped()
    ensures !ControlHref(Start("a", map["href" := "/control/ac-2?version=4"], "", []))
    ensures ControlHref(Start("a", map["href" := "/control/ac-2"], "", []))
  {
    var q := Start("a", map["href" := "/control/ac-2?version=4"], "", []);
    assert Attr(q, "href")[13] == '?';
    var p := Start("a", map["href" := "/control/ac-2"], "", []);
    assert OccursAt(Attr(p, "href"), "/control/", 0);
    assert forall i :: 0 <= i < |Attr(p, "href")| ==> Attr(p, "href")[i] != '?';
  }

  // ---------------------------------------------------------------------
  // Control pages (workercciadd.cpp:125-193)
  // ---------------------------------------------------------------------

  const TitleSeparator := " - "

  /**
   * A control page title (workercciadd.cpp:141-145): trimmed, its first 16
   * characters dropped, split on " - "; the first piece is the control, up to
   * the first " - ", and the last piece its title. A title of 16 characters or fewer leaves
   * nothing (a negative QStringRef length is undefined behaviour in Qt and
   * is taken as nothing here).
   */
  function TitleParts(text: string): (r: (string, string))
    ensures var rest := Mid(Trim(text), 16, |Trim(text)| - 16);
            && StartsWith(rest, r.0) && EndsWith(rest, r.1)
            && !ContainsText(r.0, TitleSeparator) && !ContainsText(r.1, TitleSeparator)
            && (!ContainsText(rest, TitleSeparator) ==> r.0 == rest && r.1 == rest)
            && (ContainsText(rest, TitleSeparator) ==>
                  && OccursAt(rest, TitleSeparator, |r.0|)
                  && FirstOccurrence(rest, TitleSeparator, |r.0|)
                  && OccursAt(rest, TitleSeparator, |rest| - |r.1| - |TitleSeparator|))
  {
    var t := Trim(text);
    var rest := Mid(t, 16, |t| - 16);
    var parts := Split(rest, TitleSeparator);
    JoinEnds(parts, TitleSeparator);
    SplitWhole(rest, TitleSeparator);
    JoinedBounds(rest, TitleSeparator, parts);
    SplitFirstPiece(rest, TitleSeparator);
    (parts[0], parts[|parts| - 1])
  }

  /** `sep` occurs nowhere in `s` before position `n`. */
  predicate FirstOccurrence(s: string, sep: string, n: int) {
    forall k :: 0 <= k < n ==> !OccursAt(s, sep, k)
  }

  /** When `s` holds `sep`, the first piece of the split ends at its first occurrence. */
  lemma SplitFirstPiece(s: string, sep: string)
    requires |sep| > 0
    ensures ContainsText(s, sep) ==> FirstOccurrence(s, sep, |Split(s, sep)[0]|)
  {
    if ContainsText(s, sep) {
      var i := FindFrom(s, sep, 0);
      assert |Split(s, sep)[0]| == i;
    }
  }

  /** `parts` has two or more pieces, the first followed by a separator and the last preceded by one. */
  predicate SeparatorBounds(s: string, sep: string, parts: seq<string>) {
    && |parts| >= 2
    && OccursAt(s, sep, |parts[0]|)
    && OccursAt(s, sep, |s| - |parts[|parts| - 1]| - |sep|)
  }

  /**
   * Pieces without the separator that join to a text holding it are two or
   * more: the first is followed by a separator and the last preceded by one.
   */
  lemma JoinedBounds(s: string, sep: string, parts: seq<string>)
    requires |parts| >= 1 && Join(parts, sep) == s
    requires forall k :: 0 <= k < |parts| ==> !ContainsText(parts[k], sep)
    ensures ContainsText(s, sep) ==> SeparatorBounds(s, sep, parts)
  {
    if ContainsText(s, sep) {
      var tail := Join(parts[1..], sep);
      assert s == parts[0] + sep + tail;
      assert s[|parts[0]|..|parts[0]| + |sep|] == sep;
      JoinedLast(s, sep, parts);
    }
  }

  /** In a join of two or more pieces, a separator comes just before the last piece. */
  lemma JoinedLast(s: string, sep: string, parts: seq<string>)
    requires |parts| >= 2 && Join(parts, sep) == s
    ensures OccursAt(s, sep, |s| - |parts[|parts| - 1]| - |sep|)
  {
    JoinLastSep(parts, sep);
    EndsWithSep(s, sep, parts[|parts| - 1]);
  }

  lemma EndsWithSep(s: string, sep: string, last: string)
    requires EndsWith(s, sep + last)
    ensures OccursAt(s, sep, |s| - |last| - |sep|)
  {
    var k := |s| - |last| - |sep|;
    assert s[k..] == sep + last;
    assert s[k..k + |sep|] == s[k..][..|sep|];
  }

  /** A join of two or more pieces ends with the separator and the last piece. */
  lemma {:induction false} JoinLastSep(parts: seq<string>, sep: string)
    requires |parts| >= 2
    ensures EndsWith(Join(parts, sep), sep + parts[|parts| - 1])
    decreases |parts|
  {
    var tail := Join(parts[1..], sep);
    var last := parts[|parts| - 1];
    var whole := parts[0] + sep + tail;
    assert Join(parts, sep) == whole;
    if |parts| == 2 {
      assert tail == last;
      assert whole == parts[0] + (sep + last);
    } else {
      JoinLastSep(parts[1..], sep);
      assert parts[1..][|parts[1..]| - 1] == last;
      assert whole[|whole| - |sep + last|..] == tail[|tail| - |sep + last|..];
    }
  }

  /** A joined text starts with its first piece and ends with its last. */
  lemma {:induction false} JoinEnds(parts: seq<string>, sep: string)
    requires |parts| >= 1
    ensures StartsWith(Join(parts, sep), parts[0]) && EndsWith(Join(parts, sep), parts[|parts| - 1])
    decreases |parts|
  {
    if |parts| > 1 {
      JoinEnds(parts[1..], sep);
      var tail := Join(parts[1..], sep);
      assert Join(parts, sep) == parts[0] + sep + tail;
      assert (parts[0] + sep + tail)[..|parts[0]|] == parts[0];
      var last := parts[|parts| - 1];
      assert parts[1..][|parts[1..]| - 1] == last;
      assert tail[|tail| - |last|..] == last;
      assert (parts[0] + sep + tail)[|parts[0] + sep + tail| - |last|..] == tail[|tail| - |last|..];
    }
  }

  /** A text without the separator splits into itself alone. */
  lemma SplitWhole(s: string, sep: string)
    requires |sep| > 0
    ensures !ContainsText(s, sep) ==> Split(s, sep) == [s]
  {
  }

  /**
   * A title written as 16 characters, the control, " - " and the control's
   * name gives back the control and the name.
   */
  lemma TitlePartsOf(prefix: string, control: string, name: string)
    requires |prefix| == 16 && !IsSpace(prefix[0])
    requires |control| > 0 && control[|control| - 1] != ' ' && control[|control| - 1] != '-'
    requires |name| > 0 && !IsSpace(name[|name| - 1])
    requires !ContainsText(control, TitleSeparator) && !ContainsText(name, TitleSeparator)
    ensures TitleParts(prefix + control + TitleSeparator + name) == (control, name)
  {
    var rest := control + TitleSeparator + name;
    var text := prefix + rest;
    assert prefix + control + TitleSeparator + name == text;
    assert text[0] == prefix[0] && text[|text| - 1] == name[|name| - 1];
    TrimOfTrimmed(text);
    assert Mid(text, 16, |text| - 16) == rest by {
      assert text[16..] == rest;
    }
    SplitPair(control, name);
    var parts := Split(rest, TitleSeparator);
    assert TitleParts(text) == (parts[0], parts[|parts| - 1]);
  }

  /**
   * The control is the text before the first " - ", whatever follows it:
   * a name that itself starts with "- " or holds more separators does not
   * move the cut.
   */
  lemma TitlePartsFirst(prefix: string, control: string, tail: string)
    requires |prefix| == 16 && !IsSpace(prefix[0])
    requires |control| > 0 && control[|control| - 1] != ' ' && control[|control| - 1] != '-'
    requires !ContainsText(control, TitleSeparator)
    requires |tail| > 0 && !IsSpace(tail[|tail| - 1])
    ensures TitleParts(prefix + control + TitleSeparator + tail).0 == control
  {
    var rest := control + TitleSeparator + tail;
    assert prefix + control + TitleSeparator + tail == prefix + rest;
    TitleRest(prefix, rest);
    SeparatorAfterControl(control, tail);
    assert rest[..|control|] == control;
    ControlBeforeFirst(rest, TitleParts(prefix + rest).0, |control|);
  }

  /** A 16-character prefix without a leading space, before a rest without a trailing one, is what the title drops. */
  lemma TitleRest(prefix: string, rest: string)
    requires |prefix| == 16 && !IsSpace(prefix[0])
    requires |rest| > 0 && !IsSpace(rest[|rest| - 1])
    ensures Mid(Trim(prefix + rest), 16, |Trim(prefix + rest)| - 16) == rest
  {
    var text := prefix + rest;
    assert text[0] == prefix[0] && text[|text| - 1] == rest[|rest| - 1];
    TrimOfTrimmed(text);
    assert text[16..] == rest;
  }

  /** Overlapping separators: "a - - b" is cut at its first " - ". */
  lemma TitlePartsOverlap()
    ensures TitleParts("Control Catalog:" + "a" + TitleSeparator + "- b").0 == "a"
  {
    assert !ContainsText("a", TitleSeparator);
    TitlePartsFirst("Control Catalog:", "a", "- b");
  }

  /** A prefix ending at a separator with none before it is cut at the first one. */
  lemma ControlBeforeFirst(rest: string, control: string, first: nat)
    requires StartsWith(rest, control)
    requires OccursAt(rest, TitleSeparator, |control|) && FirstOccurrence(rest, TitleSeparator, |control|)
    requires OccursAt(rest, TitleSeparator, first) && FirstOccurrence(rest, TitleSeparator, first)
    ensures control == rest[..first]
  {
  }

  /** In "control - tail" the first separator is the one after the control. */
  lemma SeparatorAfterControl(control: string, tail: string)
    requires |control| > 0 && control[|control| - 1] != ' ' && control[|control| - 1] != '-'
    requires !ContainsText(control, TitleSeparator)
    ensures var s := control + TitleSeparator + tail;
            && OccursAt(s, TitleSeparator, |control|) && FirstOccurrence(s, TitleSeparator, |control|)
            && FindFrom(s, TitleSeparator, 0) == |control|
  {
    var s := control + TitleSeparator + tail;
    assert OccursAt(s, TitleSeparator, |control|) by {
      assert s[|control|..|control| + 3] == TitleSeparator;
    }
    forall p | 0 <= p < |control|
      ensures !OccursAt(s, TitleSeparator, p)
    {
      assert p + 3 <= |s|;
      if p + 3 <= |control| {
        assert control[p..p + 3] == s[p..p + 3];
        assert !OccursAt(control, TitleSeparator, p);
      } else if p == |control| - 1 {
        assert s[p..p + 3][0] == control[|control| - 1] != TitleSeparator[0];
      } else {
        assert s[p..p + 3][1] == control[|control| - 1] != TitleSeparator[1];
      }
    }
  }

  /** "control - name" splits into the control and the name. */
  lemma SplitPair(control: string, name: string)
    requires |control| > 0 && control[|control| - 1] != ' ' && control[|control| - 1] != '-'
    requires !ContainsText(control, TitleSeparator) && !ContainsText(name, TitleSeparator)
    ensures Split(control + TitleSeparator + name, TitleSeparator) == [control, name]
  {
    var s := control + TitleSeparator + name;
    SeparatorAfterControl(control, name);
    assert s[..|control|] == control;
    assert s[|control| + 3..] == name;
    SplitWhole(name, TitleSeparator);
  }

  /** The control a title names has at least four trimmed characters and a stored family. */
  predicate TitleAdds(db: Tables, e: Elem) {
    var control := TitleParts(e.text).0;
    |Trim(control)| >= 4 && GetFamily(db, ParseNewControl(control).value.family).id >= 0
  }

  /**
   * One start element of a control page (workercciadd.cpp:139-146): a
   * title adds the control it names. The two-argument AddControl of the
   * older API stores no description; it is taken as the empty one here.
   */
  function ControlPageStep(db: Tables, e: Elem): (r: Tables)
    ensures e.name != "title" ==> r == db
    ensures e.name == "title" && !TitleAdds(db, e) ==> r == db
    ensures e.name == "title" && TitleAdds(db, e) ==>
              var n := ParseNewControl(TitleParts(e.text).0).value;
              && r == db.(controls := r.controls, last := r.last)
              && r.controls == db.controls + [Control(db.last.control + 1, GetFamily(db, n.family).id,
                                                      n.number, n.enhancement, TitleParts(e.text).1, "")]
              && r.last == db.last.(control := db.last.control + 1)
  {
    if e.name == "title" then
      var (control, title) := TitleParts(e.text);
      AddControl(db, control, title, "").db
    else db
  }

  /** The reader loop over one control page. */
  function ReadControlPage(db: Tables, page: seq<Elem>): (r: Tables)
    decreases |page|
    ensures r == db.(controls := r.controls, last := r.last)
    ensures |r.controls| >= |db.controls| && r.controls[..|db.controls|] == db.controls
  {
    if |page| == 0 then db
    else
      var d := ControlPageStep(db, page[0]);
      var r := ReadControlPage(d, page[1..]);
      PrefixTrans(db.controls, d.controls, r.controls);
      r
  }

  /** Step 5: every control page in turn, under delayed commits. */
  function LegacyReadControls(db: Tables, pages: seq<seq<Elem>>): (r: Tables)
    ensures r.delayCommit == false
    ensures r == db.(controls := r.controls, last := r.last, delayCommit := false)
    ensures |r.controls| >= |db.controls| && r.controls[..|db.controls|] == db.controls
  {
    DelayCommit(ReadPages(DelayCommit(db, true), pages), false)
  }

  function ReadPages(db: Tables, pages: seq<seq<Elem>>): (r: Tables)
    decreases |pages|
    ensures r == db.(controls := r.controls, last := r.last)
    ensures |r.controls| >= |db.controls| && r.controls[..|db.controls|] == db.controls
  {
    if |pages| == 0 then db
    else
      var d := ReadControlPage(db, pages[0]);
      var r := ReadPages(d, pages[1..]);
      PrefixTrans(db.controls, d.controls, r.controls);
      r
  }

  /** Reading control pages keeps the store's invariants. */
  lemma LegacyReadControlsValid(db: Tables, pages: seq<seq<Elem>>)
    requires Valid(db)
    ensures Valid(LegacyReadControls(db, pages))
  {
    DelayCommitValid(db, true);
    ReadPagesValid(DelayCommit(db, true), pages);
    DelayCommitValid(ReadPages(DelayCommit(db, true), pages), false);
  }

  lemma {:induction false} ReadPagesValid(db: Tables, pages: seq<seq<Elem>>)
    requires Valid(db)
    ensures Valid(ReadPages(db, pages))
    decreases |pages|
  {
    if |pages| > 0 {
      ReadControlPageValid(db, pages[0]);
      ReadPagesValid(ReadControlPage(db, pages[0]), pages[1..]);
    }
  }

  lemma ReadControlPageValid(db: Tables, page: seq<Elem>)
    requires Valid(db)
    ensures Valid(ReadControlPage(db, page))
  {
    ReadControlPageEntries(db, page);
    AddControlsValid(db, PageEntries(page));
  }

  // ---------------------------------------------------------------------
  // What the control pages add
  // ---------------------------------------------------------------------

  /** The control a title element names, with the name after " - " and no description. */
  function TitleEntry(e: Elem): Entry {
    Entry(TitleParts(e.text).0, TitleParts(e.text).1, "")
  }

  /** The entries of one control page: one per title element, in page order. */
  function PageEntries(page: seq<Elem>): (r: seq<Entry>)
    decreases |page|
    ensures |r| <= |page|
  {
    if |page| == 0 then []
    else (if page[0].name == "title" then [TitleEntry(page[0])] else []) + PageEntries(page[1..])
  }

  /** The entries of every page, page after page. */
  function PagesEntries(pages: seq<seq<Elem>>): seq<Entry>
    decreases |pages|
  {
    if |pages| == 0 then [] else PageEntries(pages[0]) + PagesEntries(pages[1..])
  }

  /** Adding two lists of controls is adding the first and then the second. */
  lemma {:induction false} AddControlsAppend(db: Tables, a: seq<Entry>, b: seq<Entry>)
    ensures AddControls(db, a + b) == AddControls(AddControls(db, a), b)
    decreases |a|
  {
    if |a| == 0 {
      assert a + b == b;
    } else {
      assert (a + b)[0] == a[0] && (a + b)[1..] == a[1..] + b;
      AddControlsAppend(AddControl(db, a[0].number, a[0].title, a[0].description).db, a[1..], b);
    }
  }

  /** Reading a control page adds the control of each title element, in order, as AddControl does. */
  lemma {:induction false} ReadControlPageEntries(db: Tables, page: seq<Elem>)
    ensures ReadControlPage(db, page) == AddControls(db, PageEntries(page))
    decreases |page|
  {
    if |page| > 0 {
      var d := ControlPageStep(db, page[0]);
      ReadControlPageEntries(d, page[1..]);
      var rest := PageEntries(page[1..]);
      if page[0].name == "title" {
        var b := [TitleEntry(page[0])] + rest;
        assert b[0] == TitleEntry(page[0]) && b[1..] == rest;
        assert d == AddControl(db, b[0].number, b[0].title, b[0].description).db;
      } else {
        assert [] + rest == rest;
      }
    }
  }

  lemma {:induction false} ReadPagesEntries(db: Tables, pages: seq<seq<Elem>>)
    ensures ReadPages(db, pages) == AddControls(db, PagesEntries(pages))
    decreases |pages|
  {
    if |pages| > 0 {
      ReadControlPageEntries(db, pages[0]);
      ReadPagesEntries(ReadControlPage(db, pages[0]), pages[1..]);
      AddControlsAppend(db, PageEntries(pages[0]), PagesEntries(pages[1..]));
    } else {
      assert AddControls(db, []) == db;
    }
  }

  /**
   * Step 5 adds, under delayed commits, the control named by every title
   * element of every page, in page order: the same AddControls the newer
   * job applies to its feed entries.
   */
  lemma LegacyReadControlsOfTitles(db: Tables, pages: seq<seq<Elem>>)
    ensures LegacyReadControls(db, pages) == DelayCommit(AddControls(DelayCommit(db, true), PagesEntries(pages)), false)
  {
    ReadPagesEntries(DelayCommit(db, true), pages);
  }

  // ---------------------------------------------------------------------
  // CCI list (workercciadd.cpp:244-303)
  // ---------------------------------------------------------------------

  /**
   * The control string the older job builds from a reference index
   * (workercciadd.cpp:286-296): the base control, followed by the text from
   * '(' through ')' whenever the index holds a '('.
   */
  function LegacyReferenceControl(index: string): (r: string)
    ensures StartsWith(r, BaseControl(index))
    ensures !Contains(index, '(') ==> r == BaseControl(index)
    ensures Contains(index, '(') && IndexOf(index, ')') >= IndexOf(index, '(') ==>
              |r| > |BaseControl(index)| && r[|BaseControl(index)|] == '(' && r[|r| - 1] == ')'
  {
    var control := BaseControl(index);
    if Contains(index, '(') then control + EnhancementRef(index, IndexOf(index, '('), IndexOf(index, ')'))
    else control
  }

  /**
   * The older and the newer control strings agree exactly when the index
   * has no '(', or its '(' comes before any second space, or there is no
   * ')' at or after the '('.
   */
  lemma LegacyAgrees(index: string)
    ensures LegacyReferenceControl(index) == ReferenceControl(index)
        <==> !Contains(index, '(') || EnhancementWanted(index) || IndexOf(index, ')') < IndexOf(index, '(')
  {
    var base := BaseControl(index);
    if Contains(index, '(') && !EnhancementWanted(index) && IndexOf(index, ')') >= IndexOf(index, '(') {
      assert |LegacyReferenceControl(index)| > |base| == |ReferenceControl(index)|;
    }
  }

  /**
   * A parenthesised word after the second space is appended by the older
   * job: "AC-2 a (1)" gives "AC-2(1)" where the newer job gives "AC-2".
   */
  lemma LegacyStrayEnhancement()
    ensures LegacyReferenceControl("AC-2 a (1)") == "AC-2(1)"
    ensures ReferenceControl("AC-2 a (1)") == "AC-2"
  {
    StrayIndexFacts();
    assert "AC-2 a (1)"[7..10] == "(1)";
    assert "AC-2" + "(1)" == "AC-2(1)";
    ReferenceCutExamples();
  }

  lemma StrayIndexFacts()
    ensures BaseControl("AC-2 a (1)") == "AC-2"
    ensures IndexOf("AC-2 a (1)", '(') == 7 && IndexOf("AC-2 a (1)", ')') == 9
  {
    ExamplePiecesBare();
    assert "AC-2" + " " + "a" + " (" + "1" + ")" == "AC-2 a (1)";
    ReferenceCutItem("AC-2", "a", "1");
    ItemParens("AC-2", "a", "1");
  }

  /** A collected CCI: its number, its control string and its definition (the tuple list of step 7). */
  datatype ToAdd = ToAdd(cci: int, control: string, definition: string)

  /** One start element of the CCI list, as the older job reads it. */
  function LegacyScanStep(st: CciScan, e: Elem): (r: (CciScan, seq<ToAdd>))
    ensures |r.1| <= 1
    ensures |r.1| == 1 <==> Rev4Reference(e, st.cci)
    ensures forall db :: r.0 == ScanStep(db, st, e).0
    ensures |r.1| == 1 ==> r.1[0] == ToAdd(ToInt(Right(st.cci, 6)), LegacyReferenceControl(Attr(e, "index")), st.definition)
  {
    if e.name == "cci_item" then (if HasAttr(e, "id") then st.(cci := Attr(e, "id")) else st, [])
    else if e.name == "definition" then (st.(definition := e.text), [])
    else if Rev4Reference(e, st.cci) then
      (st, [ToAdd(ToInt(Right(st.cci, 6)), LegacyReferenceControl(Attr(e, "index")), st.definition)])
    else (st, [])
  }

  /** The CCIs collected from the list, in document order. */
  function LegacyScan(st: CciScan, events: seq<Elem>): (r: seq<ToAdd>)
    decreases |events|
    ensures |r| <= |events|
    ensures forall i :: 0 <= i < |r| ==>
              Explained(events, r[i], (e: Elem, t: ToAdd) => e.name == "reference" && Attr(e, "version") == "4"
                                                 && t.control == LegacyReferenceControl(Attr(e, "index")))
  {
    if |events| == 0 then []
    else
      var step := LegacyScanStep(st, events[0]);
      var rest := LegacyScan(step.0, events[1..]);
      ExplainedStep(events, step.1, rest, step.1 + rest,
                    (e: Elem, t: ToAdd) => e.name == "reference" && Attr(e, "version") == "4"
                                                 && t.control == LegacyReferenceControl(Attr(e, "index")));
      step.1 + rest
  }

  /** The CCI row the newer job builds for a collected tuple. */
  function Resolved(db: Tables, t: ToAdd): Cci {
    Cci(-1, GetControl(db, t.control).id, t.cci, t.definition, false, "", "", "", "")
  }

  function ResolveAll(db: Tables, ts: seq<ToAdd>): (r: seq<Cci>)
    ensures |r| == |ts| && forall i :: 0 <= i < |r| ==> r[i] == Resolved(db, ts[i])
  {
    seq(|ts|, i requires 0 <= i < |ts| => Resolved(db, ts[i]))
  }

  /**
   * Where every reference index gives the same control string under both
   * jobs, the newer job's CCIs are the older job's tuples resolved with
   * GetControl: the same numbers and definitions, in the same order.
   */
  lemma {:induction false} LegacyScanAgrees(db: Tables, st: CciScan, events: seq<Elem>)
    requires forall j :: 0 <= j < |events| ==>
               LegacyReferenceControl(Attr(events[j], "index")) == ReferenceControl(Attr(events[j], "index"))
    ensures ScanFile(db, st, events) == ResolveAll(db, LegacyScan(st, events))
    decreases |events|
  {
    if |events| > 0 {
      var e, rest := events[0], events[1..];
      assert [e] + rest == events;
      var step := LegacyScanStep(st, e);
      var tail := LegacyScan(step.0, rest);
      assert LegacyScan(st, events) == step.1 + tail;
      LegacyStepAgrees(db, st, e);
      LegacyScanAgrees(db, step.0, rest);
      ScanCons(db, st, e, rest);
      ResolveAppend(db, step.1, tail);
    }
  }

  /** One step of both scans: the same state, and the newer CCI is the older tuple resolved. */
  lemma LegacyStepAgrees(db: Tables, st: CciScan, e: Elem)
    requires LegacyReferenceControl(Attr(e, "index")) == ReferenceControl(Attr(e, "index"))
    ensures ScanStep(db, st, e) == (LegacyScanStep(st, e).0, ResolveAll(db, LegacyScanStep(st, e).1))
  {
    var l := LegacyScanStep(st, e);
    if Rev4Reference(e, st.cci) {
      var t := l.1[0];
      assert ResolveAll(db, l.1) == [Resolved(db, t)];
      assert Resolved(db, t) == ParsedCci(db, st.cci, st.definition, Attr(e, "index"));
    } else {
      assert l.1 == [] && ResolveAll(db, l.1) == [];
    }
  }

  lemma ResolveAppend(db: Tables, a: seq<ToAdd>, b: seq<ToAdd>)
    ensures ResolveAll(db, a + b) == ResolveAll(db, a) + ResolveAll(db, b)
  {
    MapAppend((t: ToAdd) => Resolved(db, t), a, b, ResolveAll(db, a + b), ResolveAll(db, a), ResolveAll(db, b));
  }

  /** Mapping `f` over `a + b` is mapping it over `a`, then over `b`. */
  lemma MapAppend<A, B>(f: A -> B, a: seq<A>, b: seq<A>, whole: seq<B>, front: seq<B>, back: seq<B>)
    requires |whole| == |a| + |b| && |front| == |a| && |back| == |b|
    requires forall i :: 0 <= i < |whole| ==> whole[i] == f((a + b)[i])
    requires forall i :: 0 <= i < |front| ==> front[i] == f(a[i])
    requires forall i :: 0 <= i < |back| ==> back[i] == f(b[i])
    ensures whole == front + back
  {
    forall i | 0 <= i < |whole|
      ensures whole[i] == (front + back)[i]
    {
      if i >= |a| {
        assert (a + b)[i] == b[i - |a|];
      }
    }
  }
}

=== FILE: qstring.dfy ===
/**
 * The parts of Qt 5's QString that the data layer and the import jobs rely on:
 * whitespace trimming, left/right/mid slicing, character and substring search,
 * splitting on a separator, and decimal conversion in both directions.
 *
 * Qt's slicing is total: `left(n)` and `right(n)` return the whole string when
 * `n` is negative or at least the length, and `indexOf` answers -1 when there
 * is no match. The parsers of this project depend on exactly those edge cases.
 */
module QtString {
  import opened Wrappers

  // ---------------------------------------------------------------------
  // Whitespace and trimming
  // ---------------------------------------------------------------------

  /** QChar::isSpace: tab through carriage return, space, NEL, NBSP and the Unicode space separators. */
  predicate IsSpace(c: char) {
    || c == ' '
    || ('\t' <= c <= '\r')
    || c == '\U{0085}' || c == '\U{00A0}' || c == '\U{1680}'
    || ('\U{2000}' <= c <= '\U{200A}')
    || c == '\U{2028}' || c == '\U{2029}' || c == '\U{202F}' || c == '\U{205F}' || c == '\U{3000}'
  }

  /** Drops leading whitespace: the result is a suffix of `s` and everything dropped was whitespace. */
  function TrimStart(s: string): (r: string)
    ensures |r| <= |s| && r == s[|s| - |r|..]
    ensures |r| > 0 ==> !IsSpace(r[0])
    ensures forall i :: 0 <= i < |s| - |r| ==> IsSpace(s[i])
  {
    if |s| > 0 && IsSpace(s[0]) then TrimStart(s[1..]) else s
  }

  /** Drops trailing whitespace: the result is a prefix of `s` and everything dropped was whitespace. */
  function TrimEnd(s: string): (r: string)
    ensures |r| <= |s| && r == s[..|r|]
    ensures |r| > 0 ==> !IsSpace(r[|r| - 1])
    ensures forall i :: |r| <= i < |s| ==> IsSpace(s[i])
  {
    if |s| > 0 && IsSpace(s[|s| - 1]) then TrimEnd(s[..|s| - 1]) else s
  }

  /** QString::trimmed: whitespace removed from both ends. */
  function Trim(s: string): (r: string)
    ensures |r| <= |s|
    ensures |r| > 0 ==> !IsSpace(r[0]) && !IsSpace(r[|r| - 1])
  {
    TrimEnd(TrimStart(s))
  }

  /** A string that neither starts nor ends with whitespace is its own trim. */
  lemma TrimOfTrimmed(s: string)
    requires |s| > 0 ==> !IsSpace(s[0]) && !IsSpace(s[|s| - 1])
    ensures Trim(s) == s
  {
  }

  /** Trimming is idempotent. */
  lemma TrimIdempotent(s: string)
    ensures Trim(Trim(s)) == Trim(s)
  {
    TrimOfTrimmed(Trim(s));
  }

  // ---------------------------------------------------------------------
  // Slicing
  // ---------------------------------------------------------------------

  /** QString::left: the first `n` characters, or the whole string when `n` is negative or too large. */
  function Left(s: string, n: int): string {
    if 0 <= n < |s| then s[..n] else s
  }

  /** QString::right: the last `n` characters, or the whole string when `n` is negative or too large. */
  function Right(s: string, n: int): string {
    if 0 <= n < |s| then s[|s| - n..] else s
  }

  /**
   * A QStringRef(&s, pos, len) that is read as text. Qt performs no bounds
   * checking here; a non-positive length or a start past the end yields no
   * characters in this model.
   */
  function Mid(s: string, pos: int, len: int): string {
    if len <= 0 || pos < 0 || pos >= |s| then ""
    else if pos + len <= |s| then s[pos..pos + len]
    else s[pos..]
  }

  // ---------------------------------------------------------------------
  // Searching
  // ---------------------------------------------------------------------

  /** QString::indexOf(c, from): the first position at or after `from` holding `c`, or -1. */
  function IndexOfFrom(s: string, c: char, from: nat): (r: int)
    decreases |s| - from
    ensures r == -1 || (from <= r < |s| && s[r] == c)
    ensures r == -1 ==> forall i :: from <= i < |s| ==> s[i] != c
    ensures r >= 0 ==> forall i :: from <= i < r ==> s[i] != c
  {
    if from >= |s| then -1
    else if s[from] == c then from
    else IndexOfFrom(s, c, from + 1)
  }

  /** QString::indexOf(c). */
  function IndexOf(s: string, c: char): int {
    IndexOfFrom(s, c, 0)
  }

  /** QString::contains(c). */
  predicate Contains(s: string, c: char) {
    IndexOf(s, c) >= 0
  }

  lemma ContainsIff(s: string, c: char)
    ensures Contains(s, c) <==> c in s
  {
  }

  /** `sub` occurs in `s` starting at position `i`. */
  predicate OccursAt(s: string, sub: string, i: int) {
    0 <= i && i + |sub| <= |s| && s[i..i + |sub|] == sub
  }

  /** QString::indexOf(sub, from): the first occurrence of `sub` at or after `from`, or -1. */
  function FindFrom(s: string, sub: string, from: nat): (r: int)
    decreases |s| - from
    ensures r == -1 || (from <= r && OccursAt(s, sub, r))
    ensures r == -1 ==> forall i :: from <= i ==> !OccursAt(s, sub, i)
    ensures r >= 0 ==> forall i :: from <= i < r ==> !OccursAt(s, sub, i)
  {
    if from + |sub| > |s| then -1
    else if s[from..from + |sub|] == sub then from
    else FindFrom(s, sub, from + 1)
  }

  /** QString::contains(sub). */
  predicate ContainsText(s: string, sub: string) {
    FindFrom(s, sub, 0) >= 0
  }

  /** QString::startsWith(prefix), case-sensitive. */
  predicate StartsWith(s: string, prefix: string) {
    |prefix| <= |s| && s[..|prefix|] == prefix
  }

  /** QString::endsWith(suffix), case-sensitive. */
  predicate EndsWith(s: string, suffix: string) {
    |suffix| <= |s| && s[|s| - |suffix|..] == suffix
  }

  /** Folds the ASCII capitals onto lower case and leaves every other character alone. */
  function LowerAscii(c: char): char {
    if 'A' <= c <= 'Z' then ((c as int) + 32) as char else c
  }

  /** QString::startsWith(prefix, Qt::CaseInsensitive), with ASCII case folding. */
  predicate StartsWithNoCase(s: string, prefix: string) {
    |prefix| <= |s| && forall i :: 0 <= i < |prefix| ==> LowerAscii(s[i]) == LowerAscii(prefix[i])
  }

  // ---------------------------------------------------------------------
  // Splitting
  // ---------------------------------------------------------------------

  /** Glues non-empty `parts` back together with `sep` between neighbours. */
  function Join(parts: seq<string>, sep: string): string
    requires |parts| >= 1
  {
    if |parts| == 1 then parts[0] else parts[0] + sep + Join(parts[1..], sep)
  }

  /**
   * QString::split(sep) keeping empty parts: the pieces between occurrences of
   * `sep`, found left to right. Gluing the pieces back with `sep` gives `s`, no
   * piece contains `sep`, and the first piece ends at the first occurrence.
   */
  function Split(s: string, sep: string): (r: seq<string>)
    requires |sep| > 0
    decreases |s|
    ensures |r| >= 1
    ensures Join(r, sep) == s
    ensures forall k :: 0 <= k < |r| ==> !ContainsText(r[k], sep)
    ensures FindFrom(s, sep, 0) >= 0 ==> r[0] == s[..FindFrom(s, sep, 0)]
  {
    var i := FindFrom(s, sep, 0);
    if i < 0 then [s]
    else
      var head := s[..i];
      var rest := Split(s[i + |sep|..], sep);
      assert forall p :: 0 <= p ==> OccursAt(head, sep, p) ==> OccursAt(s, sep, p) by {
        forall p | 0 <= p && OccursAt(head, sep, p)
          ensures OccursAt(s, sep, p)
        {
          assert head[p..p + |sep|] == s[p..p + |sep|];
        }
      }
      assert s == head + sep + s[i + |sep|..];
      [head] + rest
  }

  // ---------------------------------------------------------------------
  // Decimal conversion
  // ---------------------------------------------------------------------

  const IntMin: int := -0x8000_0000
  const IntMax: int := 0x7FFF_FFFF

  /** Fits a C++ `int`. */
  predicate IsInt32(n: int) {
    IntMin <= n <= IntMax
  }

  predicate IsDigit(c: char) {
    '0' <= c <= '9'
  }

  predicate AllDigits(s: string) {
    forall i :: 0 <= i < |s| ==> IsDigit(s[i])
  }

  function DigitValue(c: char): nat
    requires IsDigit(c)
  {
    (c as int) - ('0' as int)
  }

  function DigitChar(n: nat): (c: char)
    requires n < 10
    ensures IsDigit(c) && DigitValue(c) == n
  {
    (('0' as int) + n) as char
  }

  /** The value of a string of decimal digits, most significant first. */
  function DecimalValue(d: string): nat
    requires AllDigits(d)
    decreases |d|
  {
    if |d| == 0 then 0 else DecimalValue(d[..|d| - 1]) * 10 + DigitValue(d[|d| - 1])
  }

  function Pow10(k: nat): nat {
    if k == 0 then 1 else 10 * Pow10(k - 1)
  }

  /** The decimal digits of `n` without leading zeros. */
  function NatText(n: nat): (r: string)
    decreases n
    ensures |r| >= 1 && AllDigits(r)
    ensures DecimalValue(r) == n
    ensures |r| > 1 ==> r[0] != '0'
  {
    if n < 10 then [DigitChar(n)]
    else
      var r := NatText(n / 10) + [DigitChar(n % 10)];
      assert r[..|r| - 1] == NatText(n / 10);
      r
  }

  /** QString::number(n): decimal text, with a leading '-' for negatives. */
  function NumberText(n: int): string {
    if n < 0 then "-" + NatText(-n) else NatText(n)
  }

  /**
   * The number a QString::toInt call yields when it succeeds: surrounding
   * whitespace is ignored, one optional sign is accepted, then at least one
   * decimal digit and nothing else; the value must fit an `int`.
   */
  function ParseInt(s: string): (r: Option<int>)
    ensures r.Some? ==> IsInt32(r.value)
  {
    var t := Trim(s);
    var signed := |t| > 0 && (t[0] == '-' || t[0] == '+');
    var digits := if signed then t[1..] else t;
    if |digits| == 0 || !AllDigits(digits) then None
    else
      var v: int := if signed && t[0] == '-' then 0 - DecimalValue(digits) else DecimalValue(digits);
      if IsInt32(v) then Some(v) else None
  }

  /** QString::toInt: the parsed value, or 0 when the text is not an `int`. */
  function ToInt(s: string): int {
    ParseInt(s).GetOr(0)
  }

  /** Digits followed by more digits: the value shifts left by the appended length. */
  lemma {:induction false} DecimalValueAppend(a: string, b: string)
    requires AllDigits(a) && AllDigits(b)
    ensures AllDigits(a + b)
    ensures DecimalValue(a + b) == DecimalValue(a) * Pow10(|b|) + DecimalValue(b)
    decreases |b|
  {
    if |b| == 0 {
      assert a + b == a;
    } else {
      var b' := b[..|b| - 1];
      var d := DigitValue(b[|b| - 1]);
      assert (a + b)[..|a + b| - 1] == a + b';
      assert (a + b)[|a + b| - 1] == b[|b| - 1];
      DecimalValueAppend(a, b');
      assert DecimalValue(a + b) == DecimalValue(a + b') * 10 + d;
      assert DecimalValue(b) == DecimalValue(b') * 10 + d;
      ShiftLeft(DecimalValue(a), Pow10(|b'|), DecimalValue(b'), d);
    }
  }

  /** The arithmetic of one more digit: (x * p + y) * 10 + d == x * (10 * p) + (y * 10 + d). */
  lemma ShiftLeft(x: int, p: int, y: int, d: int)
    ensures (x * p + y) * 10 + d == x * (10 * p) + (y * 10 + d)
  {
  }

  /** `k` zero digits. */
  function Zeros(k: nat): (r: string)
    ensures |r| == k && AllDigits(r)
    ensures forall i :: 0 <= i < k ==> r[i] == '0'
  {
    if k == 0 then "" else "0" + Zeros(k - 1)
  }

  lemma {:induction false} ZerosValue(k: nat)
    ensures DecimalValue(Zeros(k)) == 0
  {
    if k > 0 {
      assert Zeros(k) == Zeros(k - 1) + "0";
      assert Zeros(k)[..k - 1] == Zeros(k - 1);
      ZerosValue(k - 1);
    }
  }

  /** Leading zeros do not change the value of a digit string. */
  lemma LeadingZerosValue(k: nat, d: string)
    requires AllDigits(d)
    ensures AllDigits(Zeros(k) + d)
    ensures DecimalValue(Zeros(k) + d) == DecimalValue(d)
  {
    DecimalValueAppend(Zeros(k), d);
    ZerosValue(k);
  }

  /** toInt reads back any digit string whose value fits an `int`. */
  lemma ToIntOfDigits(d: string)
    requires |d| >= 1 && AllDigits(d) && DecimalValue(d) <= IntMax
    ensures ToInt(d) == DecimalValue(d)
  {
    assert !IsSpace(d[0]) && !IsSpace(d[|d| - 1]);
    TrimOfTrimmed(d);
    assert !(d[0] == '-' || d[0] == '+');
  }

  /** toInt is the inverse of QString::number on the whole `int` range. */
  lemma ToIntOfNumberText(n: int)
    requires IsInt32(n)
    ensures ToInt(NumberText(n)) == n
  {
    if n >= 0 {
      ToIntOfDigits(NatText(n));
    } else {
      var t := NumberText(n);
      assert !IsSpace(t[0]) && !IsSpace(t[|t| - 1]);
      TrimOfTrimmed(t);
      assert t[1..] == NatText(-n);
    }
  }
}

=== FILE: schema.dfy ===
/**
 * Opening the database (dbmanager.cpp:89-116) and the schema migration
 * gate UpdateDatabaseFromVersion (dbmanager.cpp:1458-1588). A database file
 * may be missing, present without the schema, or present with it.
 */
module Schema {
  import opened Wrappers
  import opened QtString
  import opened Store

  /** The database file before the connection opens it. */
  datatype DbFile = Missing | Present(schema: Option<Tables>)

  /** What UpdateDatabaseFromVersion leaves behind and the boolean it returns. */
  datatype Migrated = Migrated(schema: Option<Tables>, result: bool)

  /** The row the initial migration writes into `variables`. */
  const VersionRow := Variable("version", "1")

  /** GetVariable on a database that may lack the schema: nothing is read from a missing table. */
  function ReadVariable(schema: Option<Tables>, name: string): string {
    match schema
    case None => ""
    case Some(t) => GetVariable(t, name)
  }

  /**
   * UpdateDatabaseFromVersion (dbmanager.cpp:1458-1588). Only a version of
   * 0 or less migrates: the CREATE TABLE statements build empty tables
   * (they fail when the tables exist) and one version row "1" is inserted
   * either way. The function returns EXIT_SUCCESS, which is false as a bool.
   */
  function UpdateDatabaseFromVersion(schema: Option<Tables>, version: int): (r: Migrated)
    ensures !r.result
    ensures version > 0 ==> r.schema == schema
    ensures version <= 0 ==> r.schema.Some?
    ensures version <= 0 && schema.None? ==> r.schema == Some(EmptyTables.(variables := [VersionRow]))
    ensures version <= 0 && schema.Some? ==>
              r.schema == Some(schema.value.(variables := schema.value.variables + [VersionRow]))
  {
    if version <= 0 then
      var tables := match schema
        case None => EmptyTables
        case Some(t) => t;
      assert EmptyTables.variables + [VersionRow] == [VersionRow];
      Migrated(Some(tables.(variables := tables.variables + [VersionRow])), false)
    else Migrated(schema, false)
  }

  /**
   * The DbManager constructor (dbmanager.cpp:89-116): a missing file is
   * initialised with version 0, then the stored version (toInt of the
   * `version` variable, 0 when absent) is migrated from.
   */
  function Open(f: DbFile): (r: Tables)
  {
    var schema := match f
      case Missing => UpdateDatabaseFromVersion(None, 0).schema
      case Present(s) => s;
    var version := ToInt(ReadVariable(schema, "version"));
    var after := UpdateDatabaseFromVersion(schema, version).schema;
    match after
    case Some(t) => t
    case None => assert false; EmptyTables
  }

  /** Digit text "1" reads as 1. */
  lemma ToIntOne()
    ensures ToInt("1") == 1
  {
    assert NumberText(1) == "1" by {
      assert NatText(1) == [DigitChar(1)];
    }
    ToIntOfNumberText(1);
  }

  /** A missing file, or one without the schema, opens as the empty schema at version 1. */
  lemma OpenFresh(f: DbFile)
    requires f.Missing? || f == Present(None)
    ensures Open(f) == EmptyTables.(variables := [VersionRow])
    ensures GetVariable(Open(f), "version") == "1"
  {
    ToIntOne();
    assert ToInt("") == 0;
  }

  /** A database whose version reads as a positive number is opened unchanged. */
  lemma OpenMigrated(t: Tables)
    requires ToInt(GetVariable(t, "version")) > 0
    ensures Open(Present(Some(t))) == t
  {
  }

  /**
   * Opening is idempotent once the version reads as positive: the
   * migration runs at most once. A fresh database reaches that state after
   * its first opening.
   */
  lemma OpenIdempotent(f: DbFile)
    requires f.Missing? || f == Present(None) || ToInt(GetVariable(Open(f), "version")) > 0
    ensures Open(Present(Some(Open(f)))) == Open(f)
  {
    if f.Missing? || f == Present(None) {
      OpenFresh(f);
      ToIntOne();
    }
    OpenMigrated(Open(f));
  }

  /**
   * A database with the schema whose version does not read as a positive
   * number (absent, "0", or not a number) gets one more version row at every
   * opening; the first row, which GetVariable reads, is kept.
   */
  lemma OpenUnmigrated(t: Tables)
    requires ToInt(GetVariable(t, "version")) <= 0
    ensures Open(Present(Some(t))).variables == t.variables + [VersionRow]
    ensures Open(Present(Some(t))) == t.(variables := t.variables + [VersionRow])
  {
  }
}

=== FILE: seqs.dfy ===
/**
 * Table primitives shared by the store: the first row a query returns,
 * deleting the rows a WHERE clause selects, and the ascending-id discipline
 * of an AUTOINCREMENT column.
 */
module Seqs {

  /** Index of the first element of `s` at or after `from` that satisfies `p`, or -1. */
  function FirstIndexFrom<T>(s: seq<T>, p: T -> bool, from: nat): (r: int)
    requires from <= |s|
    decreases |s| - from
    ensures -1 <= r < |s|
    ensures r >= 0 ==> from <= r && p(s[r]) && forall j :: from <= j < r ==> !p(s[j])
    ensures r < 0 ==> forall j :: from <= j < |s| ==> !p(s[j])
  {
    if from == |s| then -1
    else if p(s[from]) then from
    else FirstIndexFrom(s, p, from + 1)
  }

  /** Index of the first element of `s` satisfying `p` (the row `q.next()` yields first), or -1. */
  function FirstIndex<T>(s: seq<T>, p: T -> bool): (r: int)
    ensures -1 <= r < |s|
    ensures r >= 0 ==> p(s[r]) && forall j :: 0 <= j < r ==> !p(s[j])
    ensures r < 0 <==> forall j :: 0 <= j < |s| ==> !p(s[j])
  {
    FirstIndexFrom(s, p, 0)
  }

  /** The elements of `s` that satisfy `keep`, in their original order (a DELETE of the others). */
  function Filter<T>(s: seq<T>, keep: T -> bool): (r: seq<T>)
    ensures |r| <= |s|
    ensures forall i :: 0 <= i < |r| ==> r[i] in s && keep(r[i])
    ensures forall i :: 0 <= i < |s| && keep(s[i]) ==> s[i] in r
  {
    if |s| == 0 then []
    else if keep(s[0]) then [s[0]] + Filter(s[1..], keep)
    else Filter(s[1..], keep)
  }

  /** Filtering with a test every element passes changes nothing. */
  lemma {:induction false} FilterKeepsAll<T>(s: seq<T>, keep: T -> bool)
    requires forall i :: 0 <= i < |s| ==> keep(s[i])
    ensures Filter(s, keep) == s
  {
    if |s| > 0 {
      FilterKeepsAll(s[1..], keep);
    }
  }

  /** Filtering with a test no element passes leaves nothing. */
  lemma {:induction false} FilterKeepsNone<T>(s: seq<T>, keep: T -> bool)
    requires forall i :: 0 <= i < |s| ==> !keep(s[i])
    ensures Filter(s, keep) == []
  {
    if |s| > 0 {
      FilterKeepsNone(s[1..], keep);
    }
  }

  /** Filtering distributes over concatenation. */
  lemma {:induction false} FilterAppend<T>(a: seq<T>, b: seq<T>, keep: T -> bool)
    ensures Filter(a + b, keep) == Filter(a, keep) + Filter(b, keep)
  {
    if |a| > 0 {
      assert (a + b)[1..] == a[1..] + b;
      FilterAppend(a[1..], b, keep);
    } else {
      assert a + b == b;
    }
  }

  /** Keys strictly increase along `s`, are positive and do not exceed `last` (an AUTOINCREMENT column and its counter). */
  predicate Ascending<T>(s: seq<T>, key: T -> int, last: int) {
    && (forall i :: 0 <= i < |s| ==> 0 < key(s[i]) <= last)
    && (forall i, j :: 0 <= i < j < |s| ==> key(s[i]) < key(s[j]))
  }

  /** Deleting rows keeps the remaining keys ascending. */
  lemma {:induction false} FilterAscending<T>(s: seq<T>, keep: T -> bool, key: T -> int, last: int)
    requires Ascending(s, key, last)
    ensures Ascending(Filter(s, keep), key, last)
  {
    if |s| > 0 {
      var rest := Filter(s[1..], keep);
      FilterAscending(s[1..], keep, key, last);
      if keep(s[0]) {
        assert Filter(s, keep) == [s[0]] + rest;
        forall i | 0 <= i < |rest|
          ensures key(s[0]) < key(rest[i])
        {
          var k :| 0 <= k < |s[1..]| && s[1..][k] == rest[i];
          assert s[k + 1] == rest[i];
        }
        AscendingCons(s[0], rest, key, last);
      }
    }
  }

  /** An element with a positive key in range, below every key of an ascending sequence, can be put in front of it. */
  lemma AscendingCons<T>(x: T, t: seq<T>, key: T -> int, last: int)
    requires Ascending(t, key, last) && 0 < key(x) <= last
    requires forall i :: 0 <= i < |t| ==> key(x) < key(t[i])
    ensures Ascending([x] + t, key, last)
  {
    var r := [x] + t;
    forall i, j | 0 <= i < j < |r|
      ensures key(r[i]) < key(r[j])
    {
      assert r[j] == t[j - 1];
      if i > 0 {
        assert r[i] == t[i - 1];
      }
    }
    forall i | 0 <= i < |r|
      ensures 0 < key(r[i]) <= last
    {
      if i > 0 {
        assert r[i] == t[i - 1];
      }
    }
  }

  /** Appending rows numbered after the counter keeps the keys ascending under the advanced counter. */
  lemma AppendAscending<T>(s: seq<T>, added: seq<T>, key: T -> int, last: int)
    requires Ascending(s, key, last) && last >= 0
    requires forall i :: 0 <= i < |added| ==> key(added[i]) == last + 1 + i
    ensures Ascending(s + added, key, last + |added|)
  {
    var r := s + added;
    forall i, j | 0 <= i < j < |r|
      ensures key(r[i]) < key(r[j])
    {
      if j >= |s| && i < |s| {
        assert r[j] == added[j - |s|];
      } else if i >= |s| {
        assert r[i] == added[i - |s|] && r[j] == added[j - |s|];
      }
    }
  }

  /** With ascending keys, a key names at most one element. */
  lemma AscendingUnique<T>(s: seq<T>, key: T -> int, last: int, i: int, j: int)
    requires Ascending(s, key, last)
    requires 0 <= i < |s| && 0 <= j < |s| && key(s[i]) == key(s[j])
    ensures i == j
  {
  }

  /** Some element of `events` accounts for `c`. */
  predicate Explained<E, C>(events: seq<E>, c: C, why: (E, C) -> bool) {
    exists j :: 0 <= j < |events| && why(events[j], c)
  }

  /**
   * Provenance through one step of a scan: if the first event's output and
   * every later output are each explained by some event, so is the
   * concatenation.
   */
  lemma ExplainedStep<E, C>(events: seq<E>, out: seq<C>, rest: seq<C>, r: seq<C>, why: (E, C) -> bool)
    requires |events| > 0 && r == out + rest
    requires forall i :: 0 <= i < |out| ==> why(events[0], out[i])
    requires forall i :: 0 <= i < |rest| ==> Explained(events[1..], rest[i], why)
    ensures forall i :: 0 <= i < |r| ==> Explained(events, r[i], why)
  {
    forall i | 0 <= i < |r|
      ensures Explained(events, r[i], why)
    {
      if i < |out| {
        assert r[i] == out[i];
        assert why(events[0], r[i]);
      } else {
        assert r[i] == rest[i - |out|];
        var j :| 0 <= j < |events[1..]| && why(events[1..][j], rest[i - |out|]);
        assert events[1..][j] == events[j + 1];
        assert why(events[j + 1], r[i]);
      }
    }
  }

  /**
   * As ExplainedStep, where an output may instead be explained by the scan
   * state (`now` before the step, `next` after it) and the first event may
   * move the state from one to the other.
   */
  lemma ExplainedStateStep<E, C>(events: seq<E>, out: seq<C>, rest: seq<C>, r: seq<C>, why: (E, C) -> bool,
                                 now: C -> bool, next: C -> bool)
    requires |events| > 0 && r == out + rest
    requires forall i :: 0 <= i < |out| ==> now(out[i])
    requires forall c :: next(c) ==> now(c) || why(events[0], c)
    requires forall i :: 0 <= i < |rest| ==> next(rest[i]) || Explained(events[1..], rest[i], why)
    ensures forall i :: 0 <= i < |r| ==> now(r[i]) || Explained(events, r[i], why)
  {
    forall i | 0 <= i < |r|
      ensures now(r[i]) || Explained(events, r[i], why)
    {
      if i < |out| {
        assert r[i] == out[i];
      } else {
        var c := rest[i - |out|];
        assert r[i] == c;
        if !next(c) {
          var j :| 0 <= j < |events[1..]| && why(events[1..][j], c);
          assert events[1..][j] == events[j + 1];
          assert why(events[j + 1], c);
        } else if !now(c) {
          assert why(events[0], c);
        }
      }
    }
  }
}

=== FILE: stigparse.dfy ===
/**
 * ParseSTIG (workerstigadd.cpp:28-227): the reader loop that turns a STIG
 * benchmark document into one STIG header and its list of checks, then
 * hands both to AddSTIG. The loop keeps three flags: whether the rules have
 * started (the first Group), whether a Profile was seen (which stops the
 * header), and whether the reader is between a Group and its Rule.
 */
module StigParse {
  import opened QtString
  import opened XmlEvents
  import opened Wrappers
  import opened Store
  import opened StoreFlows

  /**
   * The helpers the loop calls that are not part of this model: the text
   * to CCI number conversion of common.cpp and the severity text to enum
   * conversion.
   */
  datatype Helpers = Helpers(cciNumber: string -> int, severity: string -> int)

  /** The blank check the loop starts from: id -1, every text empty, no CCI. */
  const BlankCheck := StigCheck(-1, -1, NoCci.id, "", "", "", "", 0, "", "", "", "", "", "", "",
                                false, "", "", "", "", "", "", "", "", "")

  /** The loop's variables: the header, the current check, the checks kept so far and the three flags. */
  datatype Reader = Reader(stig: Stig, current: StigCheck, checks: seq<StigCheck>,
                           inStigRules: bool, inProfile: bool, inGroup: bool)

  const Initial := Reader(NoStig, BlankCheck, [], false, false, false)

  // ---------------------------------------------------------------------
  // Header (workerstigadd.cpp:44-82)
  // ---------------------------------------------------------------------

  /** The release-info paragraph: a plain-text element whose trimmed id is "release-info". */
  predicate ReleaseInfo(e: Elem) {
    e.name == "plain-text" && HasAttr(e, "id") && Trim(Attr(e, "id")) == "release-info"
  }

  /** One header element read before the rules and before any Profile. */
  function HeaderField(s: Stig, e: Elem): (r: Stig)
    ensures r.id == s.id && r.benchmarkId == s.benchmarkId && r.fileName == s.fileName
    ensures e.name !in {"title", "description", "plain-text", "version"} ==> r == s
    ensures e.name == "plain-text" && !ReleaseInfo(e) ==> r == s
    ensures e.name == "title" ==> r == s.(title := Trim(e.text))
    ensures e.name == "description" ==> r == s.(description := Trim(e.text))
    ensures ReleaseInfo(e) ==> r == s.(release := Trim(e.text))
    ensures e.name == "version" ==> r == s.(version := ToInt(e.text))
  {
    if e.name == "title" then s.(title := Trim(e.text))
    else if e.name == "description" then s.(description := Trim(e.text))
    else if e.name == "plain-text" && HasAttr(e, "id") then
      if Trim(Attr(e, "id")) == "release-info" then s.(release := Trim(e.text)) else s
    else if e.name == "version" then s.(version := ToInt(e.text))
    else s
  }

  /** The header as a plain fold of HeaderField over the elements before the first Group or Profile. */
  function HeaderOf(events: seq<Elem>): Stig
    decreases |events|
  {
    if |events| == 0 then NoStig else HeaderField(HeaderOf(events[..|events| - 1]), events[|events| - 1])
  }

  /** The part of one step that runs before the rules start: header fields, then the mode switches. */
  function BeforeRules(st: Reader, e: Elem): (r: Reader)
    requires !st.inStigRules
    ensures r.current == st.current && r.checks == st.checks && r.inGroup == st.inGroup
    ensures r.inStigRules <==> e.name == "Group"
    ensures r.inProfile <==> st.inProfile || e.name == "Profile"
    ensures r.stig == (if st.inProfile then st.stig else HeaderField(st.stig, e))
  {
    var s := if st.inProfile then st.stig else HeaderField(st.stig, e);
    if e.name == "Group" then st.(stig := s, inStigRules := true)
    else if e.name == "Profile" then st.(stig := s, inProfile := true)
    else st.(stig := s)
  }

  // ---------------------------------------------------------------------
  // Rules (workerstigadd.cpp:84-214)
  // ---------------------------------------------------------------------

  /** A Rule element with all three attributes the loop requires. */
  predicate IsRule(e: Elem) {
    e.name == "Rule" && HasAttr(e, "id") && HasAttr(e, "severity") && HasAttr(e, "weight")
  }

  /** QString::startsWith("t", Qt::CaseInsensitive) on the trimmed Documentable text. */
  predicate IsDocumentable(text: string) {
    StartsWithNoCase(Trim(text), "t")
  }

  /** Two checks agree on every field the embedded description does not set. */
  predicate SameOutsideDescription(a: StigCheck, b: StigCheck) {
    && a.id == b.id && a.stigId == b.stigId && a.cciId == b.cciId && a.rule == b.rule
    && a.vulnNum == b.vulnNum && a.groupTitle == b.groupTitle && a.ruleVersion == b.ruleVersion
    && a.severity == b.severity && a.weight == b.weight && a.title == b.title && a.fix == b.fix
    && a.check == b.check && a.checkContentRef == b.checkContentRef && a.iaControls == b.iaControls
    && a.targetKey == b.targetKey
  }

  /** One element of the embedded vulnerability description. */
  function DescriptionField(c: StigCheck, f: Field): (r: StigCheck)
    ensures SameOutsideDescription(r, c)
    ensures r.vulnDiscussion == if f.name == "VulnDiscussion" then Trim(f.text) else c.vulnDiscussion
    ensures r.falsePositives == if f.name == "FalsePositives" then Trim(f.text) else c.falsePositives
    ensures r.falseNegatives == if f.name == "FalseNegatives" then Trim(f.text) else c.falseNegatives
    ensures r.mitigations == if f.name == "Mitigations" then Trim(f.text) else c.mitigations
    ensures r.severityOverrideGuidance == if f.name == "SeverityOverrideGuidance" then Trim(f.text) else c.severityOverrideGuidance
    ensures r.potentialImpact == if f.name == "PotentialImpacts" then Trim(f.text) else c.potentialImpact
    ensures r.thirdPartyTools == if f.name == "ThirdPartyTools" then Trim(f.text) else c.thirdPartyTools
    ensures r.mitigationControl == if f.name == "MitigationControl" then Trim(f.text) else c.mitigationControl
    ensures r.responsibility == if f.name == "Responsibility" then Trim(f.text) else c.responsibility
    ensures r.documentable == if f.name == "Documentable" then IsDocumentable(f.text) else c.documentable
  {
    var t := Trim(f.text);
    match f.name
    case "VulnDiscussion" => c.(vulnDiscussion := t)
    case "FalsePositives" => c.(falsePositives := t)
    case "FalseNegatives" => c.(falseNegatives := t)
    case "Documentable" => c.(documentable := IsDocumentable(f.text))
    case "Mitigations" => c.(mitigations := t)
    case "SeverityOverrideGuidance" => c.(severityOverrideGuidance := t)
    case "PotentialImpacts" => c.(potentialImpact := t)
    case "ThirdPartyTools" => c.(thirdPartyTools := t)
    case "MitigationControl" => c.(mitigationControl := t)
    case "Responsibility" => c.(responsibility := t)
    case _ => c
  }

  /** The embedded description, read element by element. */
  function Description(c: StigCheck, fields: seq<Field>): (r: StigCheck)
    decreases |fields|
    ensures SameOutsideDescription(r, c)
  {
    if |fields| == 0 then c else Description(DescriptionField(c, fields[0]), fields[1..])
  }

  /** The last element of the description with that name, if any. */
  function LastNamed(fields: seq<Field>, name: string): (r: Option<Field>)
    decreases |fields|
    ensures r.Some? ==> r.value in fields && r.value.name == name
  {
    if |fields| == 0 then None
    else if fields[|fields| - 1].name == name then Some(fields[|fields| - 1])
    else LastNamed(fields[..|fields| - 1], name)
  }

  /** The names of the description elements that set a text field. */
  predicate IsTextName(name: string) {
    name in {"VulnDiscussion", "FalsePositives", "FalseNegatives", "Mitigations", "SeverityOverrideGuidance",
             "PotentialImpacts", "ThirdPartyTools", "MitigationControl", "Responsibility"}
  }

  /** The text field of a check that the description element `name` sets. */
  function TextSlot(c: StigCheck, name: string): string {
    match name
    case "VulnDiscussion" => c.vulnDiscussion
    case "FalsePositives" => c.falsePositives
    case "FalseNegatives" => c.falseNegatives
    case "Mitigations" => c.mitigations
    case "SeverityOverrideGuidance" => c.severityOverrideGuidance
    case "PotentialImpacts" => c.potentialImpact
    case "ThirdPartyTools" => c.thirdPartyTools
    case "MitigationControl" => c.mitigationControl
    case "Responsibility" => c.responsibility
    case _ => ""
  }

  /** Looking at a list from the front: a later element with the name wins over the first. */
  lemma {:induction false} LastNamedCons(fields: seq<Field>, name: string)
    requires |fields| > 0
    ensures LastNamed(fields, name)
            == if LastNamed(fields[1..], name).Some? then LastNamed(fields[1..], name)
               else if fields[0].name == name then Some(fields[0]) else None
    decreases |fields|
  {
    if |fields| > 1 {
      var init := fields[..|fields| - 1];
      assert init[1..] == fields[1..][..|fields[1..]| - 1];
      assert fields[1..][|fields[1..]| - 1] == fields[|fields| - 1];
      LastNamedCons(init, name);
    }
  }

  /**
   * When reading one element sets the value `val` exactly for elements
   * named `name`, the value after the whole description is that of the
   * last such element, or the starting one when there is none.
   */
  lemma {:induction false} LastWins<T>(c: StigCheck, fields: seq<Field>, name: string,
                                       proj: StigCheck -> T, val: Field -> T)
    requires forall d: StigCheck, f: Field :: proj(DescriptionField(d, f)) == (if f.name == name then val(f) else proj(d))
    ensures proj(Description(c, fields)) == match LastNamed(fields, name) case None => proj(c) case Some(f) => val(f)
    decreases |fields|
  {
    if |fields| > 0 {
      LastWins(DescriptionField(c, fields[0]), fields[1..], name, proj, val);
      LastNamedCons(fields, name);
    }
  }

  /** One description element sets the text field of its own name and no other. */
  lemma SlotOfField(c: StigCheck, f: Field, name: string)
    requires IsTextName(name)
    ensures TextSlot(DescriptionField(c, f), name) == if f.name == name then Trim(f.text) else TextSlot(c, name)
  {
    match name
    case "VulnDiscussion" => {}
    case "FalsePositives" => {}
    case "FalseNegatives" => {}
    case "Mitigations" => {}
    case "SeverityOverrideGuidance" => {}
    case "PotentialImpacts" => {}
    case "ThirdPartyTools" => {}
    case "MitigationControl" => {}
    case "Responsibility" => {}
  }

  /** Only a Documentable element sets the documentable flag. */
  lemma DocumentableOfField(c: StigCheck, f: Field)
    ensures DescriptionField(c, f).documentable == if f.name == "Documentable" then IsDocumentable(f.text) else c.documentable
  {
  }

  /** Each text field of the description holds the trimmed text of the last element with its name. */
  lemma DescriptionLastWins(c: StigCheck, fields: seq<Field>, name: string)
    requires IsTextName(name)
    ensures TextSlot(Description(c, fields), name)
            == match LastNamed(fields, name) case None => TextSlot(c, name) case Some(f) => Trim(f.text)
  {
    var proj := (d: StigCheck) => TextSlot(d, name);
    var val := (f: Field) => Trim(f.text);
    forall d: StigCheck, f: Field
      ensures proj(DescriptionField(d, f)) == (if f.name == name then val(f) else proj(d))
    {
      SlotOfField(d, f, name);
    }
    LastWins(c, fields, name, proj, val);
  }

  /** The documentable flag is decided by the last Documentable element, and kept when there is none. */
  lemma DocumentableLastWins(c: StigCheck, fields: seq<Field>)
    ensures Description(c, fields).documentable
            == match LastNamed(fields, "Documentable") case None => c.documentable case Some(f) => IsDocumentable(f.text)
  {
    var proj := (d: StigCheck) => d.documentable;
    var val := (f: Field) => IsDocumentable(f.text);
    forall d: StigCheck, f: Field
      ensures proj(DescriptionField(d, f)) == (if f.name == "Documentable" then val(f) else proj(d))
    {
      DocumentableOfField(d, f);
    }
    LastWins(c, fields, "Documentable", proj, val);
  }

  /**
   * The CCI an ident element names: the row whose CCI number is the one the
   * text names, falling back as GetCCIByCCI does.
   */
  function IdentCci(db: Tables, h: Helpers, text: string): (r: int)
    ensures (exists i :: 0 <= i < |db.ccis| && db.ccis[i].cci == h.cciNumber(Trim(text))) ==>
              exists i :: 0 <= i < |db.ccis| && db.ccis[i].cci == h.cciNumber(Trim(text)) && db.ccis[i].id == r
  {
    GetCciByNumber(db, h.cciNumber(Trim(text))).id
  }

  /** The rule block for one element once the rules have started. */
  function InRules(db: Tables, h: Helpers, st: Reader, e: Elem): (r: Reader)
    ensures r.stig == st.stig && r.inStigRules == st.inStigRules && r.inProfile == st.inProfile
    ensures IsRule(e) ==> r.checks == st.checks + (if st.current.id == 0 then [st.current] else [])
    ensures !IsRule(e) ==> r.checks == st.checks && r.current.id == st.current.id
    ensures IsRule(e) ==> r.current.id == 0 && !r.inGroup
    ensures e.name == "Group" && HasAttr(e, "id") ==> r.inGroup && r.current.vulnNum == Trim(Attr(e, "id"))
    ensures e.name == "title" && st.inGroup ==>
              r.current == st.current.(groupTitle := Trim(e.text)) && r.inGroup
    ensures e.name == "title" && !st.inGroup ==> r.current == st.current.(title := Trim(e.text)) && !r.inGroup
    ensures e.name == "ident" && !StartsWithNoCase(Trim(e.text), "CCI") ==> r == st
    ensures e.name == "ident" && StartsWithNoCase(Trim(e.text), "CCI") ==>
              r == st.(current := st.current.(cciId := IdentCci(db, h, e.text)))
    ensures !(e.name == "Group" && HasAttr(e, "id")) && !IsRule(e) ==> r.inGroup == st.inGroup
  {
    var st1 := if e.name == "Group" && HasAttr(e, "id")
               then st.(inGroup := true, current := st.current.(vulnNum := Trim(Attr(e, "id"))))
               else st;
    if IsRule(e) then RuleOpened(st1, h, e) else FieldRead(db, h, st1, e)
  }

  /** A qualifying Rule keeps the check being filled when it has not been stored yet and starts the next one. */
  function RuleOpened(st: Reader, h: Helpers, e: Elem): (r: Reader)
    requires IsRule(e)
    ensures r.stig == st.stig && r.inStigRules == st.inStigRules && r.inProfile == st.inProfile
    ensures r.checks == st.checks + (if st.current.id == 0 then [st.current] else [])
    ensures r.current.id == 0 && !r.inGroup
  {
    var c := st.current;
    var kept := if c.id == 0 then st.checks + [c] else st.checks;
    st.(inGroup := false, checks := kept,
        current := c.(id := 0, rule := Trim(Attr(e, "id")),
                      severity := h.severity(Trim(Attr(e, "severity"))), weight := Attr(e, "weight")))
  }

  /** Any other element inside the rules fills one field of the check being read. */
  function FieldRead(db: Tables, h: Helpers, st: Reader, e: Elem): (r: Reader)
    requires !IsRule(e)
    ensures r.stig == st.stig && r.inStigRules == st.inStigRules && r.inProfile == st.inProfile
    ensures r.checks == st.checks && r.current.id == st.current.id && r.inGroup == st.inGroup
    ensures e.name == "title" && st.inGroup ==> r.current == st.current.(groupTitle := Trim(e.text))
    ensures e.name == "title" && !st.inGroup ==> r.current == st.current.(title := Trim(e.text))
    ensures e.name == "ident" && !StartsWithNoCase(Trim(e.text), "CCI") ==> r == st
    ensures e.name == "ident" && StartsWithNoCase(Trim(e.text), "CCI") ==>
              r == st.(current := st.current.(cciId := IdentCci(db, h, e.text)))
    ensures e.name == "description" && st.inGroup ==> r == st
    ensures e.name == "description" && !st.inGroup ==> r == st.(current := Description(st.current, e.inner))
    ensures e.name !in {"title", "description", "ident"} ==> r == st.(current := CheckField(st.current, e))
  {
    var c := st.current;
    if e.name == "title" then
      if st.inGroup then st.(current := c.(groupTitle := Trim(e.text)))
      else st.(current := c.(title := Trim(e.text)))
    else if e.name == "description" then
      if st.inGroup then st else st.(current := Description(c, e.inner))
    else if e.name == "ident" then
      if StartsWithNoCase(Trim(e.text), "CCI") then st.(current := c.(cciId := IdentCci(db, h, e.text)))
      else st
    else st.(current := CheckField(c, e))
  }

  /** The fix text, the check reference and the check text, each trimmed. */
  function CheckField(c: StigCheck, e: Elem): (r: StigCheck)
    ensures e.name == "fixtext" ==> r == c.(fix := Trim(e.text))
    ensures e.name == "check-content-ref" && HasAttr(e, "name") ==> r == c.(checkContentRef := Trim(Attr(e, "name")))
    ensures e.name == "check-content" ==> r == c.(check := Trim(e.text))
    ensures e.name !in {"fixtext", "check-content-ref", "check-content"} ==> r == c
    ensures e.name == "check-content-ref" && !HasAttr(e, "name") ==> r == c
  {
    if e.name == "fixtext" then c.(fix := Trim(e.text))
    else if e.name == "check-content-ref" && HasAttr(e, "name") then c.(checkContentRef := Trim(Attr(e, "name")))
    else if e.name == "check-content" then c.(check := Trim(e.text))
    else c
  }

  /** One pass of the loop: the header block, then, if the rules have started (possibly just now), the rule block. */
  function Step(db: Tables, h: Helpers, st: Reader, e: Elem): (r: Reader)
    ensures st.inStigRules ==> r.inStigRules && r.stig == st.stig
    ensures st.inProfile ==> r.inProfile && r.stig == st.stig
  {
    var st1 := if st.inStigRules then st else BeforeRules(st, e);
    if st1.inStigRules then InRules(db, h, st1, e) else st1
  }

  /** The loop over the whole document. */
  function Run(db: Tables, h: Helpers, st: Reader, events: seq<Elem>): (r: Reader)
    decreases |events|
  {
    if |events| == 0 then st else Run(db, h, Step(db, h, st, events[0]), events[1..])
  }

  /** After the loop: the check being filled is kept when the rules started. */
  function Finish(st: Reader): (r: seq<StigCheck>)
    ensures |r| == |st.checks| + (if st.inStigRules then 1 else 0)
    ensures r[..|st.checks|] == st.checks
    ensures st.inStigRules ==> r[|r| - 1] == st.current
  {
    if st.inStigRules then st.checks + [st.current] else st.checks
  }

  /** ParseSTIG up to the AddSTIG call: the STIG header and its checks. */
  function ParseStig(db: Tables, h: Helpers, events: seq<Elem>): (Stig, seq<StigCheck>) {
    var st := Run(db, h, Initial, events);
    (st.stig, Finish(st))
  }

  /**
   * ParseSTIG: the parsed STIG is added under the next STIG id with its
   * checks, and refused, changing nothing, when its release is already
   * stored.
   */
  function ImportStig(db: Tables, h: Helpers, events: seq<Elem>): (r: Outcome)
    ensures var (stig, checks) := ParseStig(db, h, events);
            GetStigByKey(db, stig.title, stig.version, stig.release).id > 0 ==> !r.ok && r.db == db
    ensures var (stig, checks) := ParseStig(db, h, events);
            var id := db.last.stig + 1;
            GetStigByKey(db, stig.title, stig.version, stig.release).id <= 0 ==>
              && r.ok
              && r.db.stigs == db.stigs + [stig.(id := id)]
              && r.db.stigChecks == db.stigChecks + NumberChecks(checks, id, db.last.stigCheck)
  {
    var (stig, checks) := ParseStig(db, h, events);
    RunKeepsStigId(db, h, Initial, events);
    AddStig(db, stig, checks, false)
  }

  /** The loop never sets the STIG's id: the parsed header has none. */
  lemma {:induction false} RunKeepsStigId(db: Tables, h: Helpers, st: Reader, events: seq<Elem>)
    ensures Run(db, h, st, events).stig.id == st.stig.id
    decreases |events|
  {
    if |events| > 0 {
      RunKeepsStigId(db, h, Step(db, h, st, events[0]), events[1..]);
    }
  }

  /**
   * When the parsed release is new and no stored check is filed under the
   * next STIG id, reading the new STIG's checks back gives the parsed
   * checks in document order, numbered from the check counter.
   */
  lemma ImportStigReadBack(db: Tables, h: Helpers, events: seq<Elem>)
    requires var stig := ParseStig(db, h, events).0;
             GetStigByKey(db, stig.title, stig.version, stig.release).id <= 0
    requires forall k :: 0 <= k < |db.stigChecks| ==> db.stigChecks[k].stigId != db.last.stig + 1
    ensures ImportStig(db, h, events).ok
    ensures ReadsBackAs(GetStigChecksCorrected(ImportStig(db, h, events).db, db.last.stig + 1),
                        ParseStig(db, h, events).1, db.last.stig + 1, db.last.stigCheck)
  {
    var (stig, checks) := ParseStig(db, h, events);
    RunKeepsStigId(db, h, Initial, events);
    assert AttachedStigId(db, stig) == db.last.stig + 1;
    AddStigReadBack(db, stig, checks, false);
  }

  /**
   * A new STIG whose rules start at a Group reads back with one check per
   * qualifying Rule, or a single check when there is no Rule.
   */
  lemma ImportStigCount(db: Tables, h: Helpers, pre: seq<Elem>, group: Elem, post: seq<Elem>)
    requires NoGroup(pre) && group.name == "Group"
    requires var stig := ParseStig(db, h, pre + [group] + post).0;
             GetStigByKey(db, stig.title, stig.version, stig.release).id <= 0
    requires forall k :: 0 <= k < |db.stigChecks| ==> db.stigChecks[k].stigId != db.last.stig + 1
    ensures |GetStigChecksCorrected(ImportStig(db, h, pre + [group] + post).db, db.last.stig + 1)|
            == (if CountRules(post) == 0 then 1 else CountRules(post))
  {
    ImportStigReadBack(db, h, pre + [group] + post);
    CheckCount(db, h, pre, group, post);
    assert CountRules([group] + post) == CountRules(post) by {
      assert !IsRule(group);
      assert ([group] + post)[1..] == post;
    }
  }

  // ---------------------------------------------------------------------
  // Properties of the loop
  // ---------------------------------------------------------------------

  predicate NoGroup(events: seq<Elem>) {
    forall i :: 0 <= i < |events| ==> events[i].name != "Group"
  }

  /** Once the rules have started or a Profile was seen, the header never changes again. */
  lemma {:induction false} HeaderFrozen(db: Tables, h: Helpers, st: Reader, events: seq<Elem>)
    requires st.inStigRules || st.inProfile
    ensures Run(db, h, st, events).stig == st.stig
    ensures st.inStigRules ==> Run(db, h, st, events).inStigRules
    decreases |events|
  {
    if |events| > 0 {
      HeaderFrozen(db, h, Step(db, h, st, events[0]), events[1..]);
    }
  }

  /** Before the first Group and any Profile, the loop only reads the header. */
  lemma {:induction false} HeaderPrefix(db: Tables, h: Helpers, pre: seq<Elem>)
    requires forall i :: 0 <= i < |pre| ==> pre[i].name != "Group" && pre[i].name != "Profile"
    ensures Run(db, h, Initial, pre) == Initial.(stig := HeaderOf(pre))
    decreases |pre|
  {
    if |pre| > 0 {
      var init := pre[..|pre| - 1];
      var last := pre[|pre| - 1];
      assert pre == init + [last];
      assert forall i :: 0 <= i < |init| ==> init[i] == pre[i];
      HeaderPrefix(db, h, init);
      var prev := Run(db, h, Initial, init);
      RunSnoc(db, h, Initial, init, last);
      HeaderStep(db, h, prev, last);
      assert HeaderOf(pre) == HeaderField(HeaderOf(init), last);
    }
  }

  /** Before the rules and any Profile, an element other than Group or Profile only updates the header. */
  lemma HeaderStep(db: Tables, h: Helpers, st: Reader, e: Elem)
    requires !st.inStigRules && !st.inProfile && e.name != "Group" && e.name != "Profile"
    ensures Step(db, h, st, e) == st.(stig := HeaderField(st.stig, e))
  {
    assert !BeforeRules(st, e).inStigRules;
  }

  /** Running over one more element is one more step. */
  lemma {:induction false} RunSnoc(db: Tables, h: Helpers, st: Reader, events: seq<Elem>, e: Elem)
    ensures Run(db, h, st, events + [e]) == Step(db, h, Run(db, h, st, events), e)
    decreases |events|
  {
    if |events| > 0 {
      assert (events + [e])[1..] == events[1..] + [e];
      RunSnoc(db, h, Step(db, h, st, events[0]), events[1..], e);
    }
  }

  lemma {:induction false} RunAppend(db: Tables, h: Helpers, st: Reader, a: seq<Elem>, b: seq<Elem>)
    ensures Run(db, h, st, a + b) == Run(db, h, Run(db, h, st, a), b)
    decreases |a|
  {
    if |a| > 0 {
      assert (a + b)[1..] == a[1..] + b;
      RunAppend(db, h, Step(db, h, st, a[0]), a[1..], b);
    } else {
      assert a + b == b;
    }
  }

  /**
   * The STIG header is what the elements before the first Group or Profile
   * say: a title, description, release-info or version element after that
   * point is ignored.
   */
  lemma ParsedHeader(db: Tables, h: Helpers, pre: seq<Elem>, stop: Elem, post: seq<Elem>)
    requires forall i :: 0 <= i < |pre| ==> pre[i].name != "Group" && pre[i].name != "Profile"
    requires stop.name == "Group" || stop.name == "Profile"
    ensures ParseStig(db, h, pre + [stop] + post).0 == HeaderOf(pre)
  {
    HeaderPrefix(db, h, pre);
    RunAppend(db, h, Initial, pre + [stop], post);
    RunSnoc(db, h, Initial, pre, stop);
    StopStep(db, h, Initial.(stig := HeaderOf(pre)), stop);
    HeaderFrozen(db, h, Run(db, h, Initial, pre + [stop]), post);
  }

  /** The first Group or Profile leaves the header as it is and closes it. */
  lemma StopStep(db: Tables, h: Helpers, st: Reader, stop: Elem)
    requires !st.inStigRules && !st.inProfile
    requires stop.name == "Group" || stop.name == "Profile"
    ensures Step(db, h, st, stop).stig == st.stig
    ensures Step(db, h, st, stop).inStigRules || Step(db, h, st, stop).inProfile
  {
    assert stop.name !in {"title", "description", "plain-text", "version"};
    var st1 := BeforeRules(st, stop);
    assert st1.stig == st.stig;
    assert st1.inStigRules || st1.inProfile;
  }

  /** Without a Group the rules never start. */
  lemma {:induction false} NoGroupNoRules(db: Tables, h: Helpers, st: Reader, events: seq<Elem>)
    requires !st.inStigRules && NoGroup(events)
    ensures !Run(db, h, st, events).inStigRules
    ensures Run(db, h, st, events).checks == st.checks && Run(db, h, st, events).current == st.current
    decreases |events|
  {
    if |events| > 0 {
      NoGroupNoRules(db, h, Step(db, h, st, events[0]), events[1..]);
    }
  }

  /** A document without a Group yields no checks at all. */
  lemma NoGroupNoChecks(db: Tables, h: Helpers, events: seq<Elem>)
    requires NoGroup(events)
    ensures ParseStig(db, h, events).1 == []
  {
    NoGroupNoRules(db, h, Initial, events);
  }

  /** The number of qualifying Rule elements. */
  function CountRules(events: seq<Elem>): (r: nat)
    decreases |events|
    ensures r <= |events|
  {
    if |events| == 0 then 0 else (if IsRule(events[0]) then 1 else 0) + CountRules(events[1..])
  }

  /** 1 when the current check has a rule and will be kept at the next Rule or at the end. */
  function Pending(c: StigCheck): nat {
    if c.id == 0 then 1 else 0
  }

  /** In the rule block every qualifying Rule accounts for exactly one check, kept or pending. */
  lemma {:induction false} RuleCount(db: Tables, h: Helpers, st: Reader, events: seq<Elem>)
    requires st.inStigRules && (st.current.id == 0 || st.current.id == -1)
    ensures var r := Run(db, h, st, events);
            && r.inStigRules
            && (r.current.id == 0 || r.current.id == -1)
            && |r.checks| + Pending(r.current) == |st.checks| + Pending(st.current) + CountRules(events)
            && (CountRules(events) > 0 ==> r.current.id == 0)
            && (CountRules(events) == 0 ==> r.current.id == st.current.id)
    decreases |events|
  {
    if |events| > 0 {
      RuleCount(db, h, Step(db, h, st, events[0]), events[1..]);
    }
  }

  /**
   * A document whose rules start at a Group yields one check per
   * qualifying Rule after it, and a single check when there is none.
   */
  lemma CheckCount(db: Tables, h: Helpers, pre: seq<Elem>, group: Elem, post: seq<Elem>)
    requires NoGroup(pre) && group.name == "Group"
    ensures |ParseStig(db, h, pre + [group] + post).1| == (if CountRules([group] + post) == 0 then 1 else CountRules(post))
  {
    NoGroupNoRules(db, h, Initial, pre);
    var st0 := Run(db, h, Initial, pre);
    RunAppend(db, h, Initial, pre, [group] + post);
    assert pre + [group] + post == pre + ([group] + post);
    assert st0.current == BlankCheck;
    // The Group step switches the rules on; then every element goes through the rule block.
    var st1 := BeforeRules(st0, group);
    assert Step(db, h, st0, group) == InRules(db, h, st1, group);
    assert ([group] + post)[1..] == post;
    assert !IsRule(group);
    RuleCount(db, h, InRules(db, h, st1, group), post);
  }

  /**
   * The check being filled is never cleared: a Rule keeps the previous
   * check as it stands and carries every field it does not set itself into
   * the next one.
   */
  lemma FieldsCarried(db: Tables, h: Helpers, st: Reader, e: Elem)
    requires st.inStigRules && IsRule(e)
    ensures var r := Step(db, h, st, e);
            && r.current.(id := st.current.id, rule := st.current.rule, severity := st.current.severity,
                          weight := st.current.weight) == st.current
            && r.current.rule == Trim(Attr(e, "id")) && r.current.weight == Attr(e, "weight")
            && (st.current.id == 0 ==> r.checks == st.checks + [st.current])
  {
  }

  /**
   * A title between a Group and its Rule is the group title, a title after
   * the Rule is the rule title, and the Group's id is the vulnerability
   * number.
   */
  lemma TitleRouting(db: Tables, h: Helpers, st: Reader, g: Elem, t1: Elem, rule: Elem, t2: Elem)
    requires st.inStigRules
    requires g.name == "Group" && HasAttr(g, "id") && t1.name == "title" && IsRule(rule) && t2.name == "title"
    ensures var c := Run(db, h, st, [g, t1, rule, t2]).current;
            c.vulnNum == Trim(Attr(g, "id")) && c.groupTitle == Trim(t1.text) && c.title == Trim(t2.text)
  {
    var s1 := Step(db, h, st, g);
    var s2 := Step(db, h, s1, t1);
    var s3 := Step(db, h, s2, rule);
    var s4 := Step(db, h, s3, t2);
    assert s1.inGroup && s1.current.vulnNum == Trim(Attr(g, "id"));
    assert s2.current.groupTitle == Trim(t1.text) && s2.current.vulnNum == s1.current.vulnNum;
    assert !s3.inGroup;
    RunCons4(db, h, st, g, t1, rule, t2);
  }

  lemma RunCons4(db: Tables, h: Helpers, st: Reader, a: Elem, b: Elem, c: Elem, d: Elem)
    ensures Run(db, h, st, [a, b, c, d])
            == Step(db, h, Step(db, h, Step(db, h, Step(db, h, st, a), b), c), d)
  {
    var s1 := Step(db, h, st, a);
    var s2 := Step(db, h, s1, b);
    var s3 := Step(db, h, s2, c);
    assert [a, b, c, d][1..] == [b, c, d] && [b, c, d][1..] == [c, d] && [c, d][1..] == [d];
    assert [d][1..] == [];
    assert Run(db, h, s3, [d]) == Step(db, h, s3, d);
    assert Run(db, h, s2, [c, d]) == Run(db, h, s3, [d]);
    assert Run(db, h, s1, [b, c, d]) == Run(db, h, s2, [c, d]);
  }

  /** Documentable is set exactly when the trimmed text starts with 't' or 'T'. */
  lemma DocumentableIff(text: string)
    ensures IsDocumentable(text) <==> |Trim(text)| >= 1 && (Trim(text)[0] == 't' || Trim(text)[0] == 'T')
  {
    var t := Trim(text);
    if |t| >= 1 {
      assert LowerAscii('t') == 't';
      if t[0] == 'T' {
        assert LowerAscii(t[0]) == 't';
      }
      if LowerAscii(t[0]) == 't' {
        assert t[0] == 't' || t[0] == 'T';
      }
    }
  }

  /** The Documentable element of a description sets exactly the documentable flag. */
  lemma DocumentableField(c: StigCheck, text: string)
    ensures DescriptionField(c, Field("Documentable", text))
              == c.(documentable := |Trim(text)| >= 1 && (Trim(text)[0] == 't' || Trim(text)[0] == 'T'))
  {
    DocumentableIff(text);
  }

  // ---------------------------------------------------------------------
  // The ident lookup as written (workerstigadd.cpp:189-194)
  // ---------------------------------------------------------------------

  /** The loop as written looks the CCI number up with GetCCI, which matches the row id. */
  function IdentCciAsWritten(db: Tables, h: Helpers, text: string): int {
    GetCci(db, h.cciNumber(Trim(text))).id
  }

  /** The one-row CCI table of the counterexample: row id 1 holds CCI-000366. */
  const ExampleCcis := EmptyTables.(ccis := [Cci(1, 1, 366, "", false, "", "", "", "")])

  lemma ExampleIdentTrimmed()
    ensures Trim("CCI-000366") == "CCI-000366"
  {
    TrimOfTrimmed("CCI-000366");
  }

  /**
   * With CCI-000366 stored as row 1, an ident naming CCI-000366 finds no
   * CCI as written: the lookup asks for row 366.
   */
  lemma IdentCciAsWrittenMisses(h: Helpers)
    requires h.cciNumber("CCI-000366") == 366
    ensures IdentCciAsWritten(ExampleCcis, h, "CCI-000366") == -1
  {
    ExampleIdentTrimmed();
    RowIdMisses(ExampleCcis, 366);
  }

  /** GetCCI finds nothing when no row has the id asked for. */
  lemma RowIdMisses(db: Tables, id: int)
    requires forall i :: 0 <= i < |db.ccis| ==> db.ccis[i].id != id
    ensures GetCci(db, id) == NoCci
  {
  }

  /** On the same table the lookup by number finds row 1. */
  lemma IdentCciFinds(h: Helpers)
    requires h.cciNumber("CCI-000366") == 366
    ensures IdentCci(ExampleCcis, h, "CCI-000366") == 1
  {
    ExampleIdentTrimmed();
    assert ExampleCcis.ccis[0].cci == 366;
  }
}

=== FILE: store.dfy ===
/**
 * The STIGQter database (dbmanager.cpp) as an in-memory state machine. Each
 * SQLite table is a sequence of rows in rowid order, so "the first row a
 * query returns" is the first matching element. Every table has its own
 * AUTOINCREMENT counter: a new row gets the counter plus one and ids are
 * never reused. Each DbManager operation is a pure function from the tables
 * before to the tables after, together with the boolean it returns.
 */
module Store {
  import opened Wrappers
  import opened QtString
  import opened ControlId
  import opened Seqs

  // ---------------------------------------------------------------------
  // Rows
  // ---------------------------------------------------------------------

  /** A row of Family: an 800-53 family acronym ("AC") and its name. */
  datatype Family = Family(id: int, acronym: string, description: string)

  /** A row of Control. The enhancement column is nullable. */
  datatype Control = Control(id: int, familyId: int, number: int, enhancement: Option<int>,
                             title: string, description: string)

  /** A row of CCI, with the columns an eMASS import fills in. */
  datatype Cci = Cci(id: int, controlId: int, cci: int, definition: string,
                     isImport: bool, importCompliance: string, importDateTested: string,
                     importTestedBy: string, importTestResults: string)

  /** A row of STIG. (title, version, release) identifies a benchmark release. */
  datatype Stig = Stig(id: int, title: string, description: string, release: string,
                       version: int, benchmarkId: string, fileName: string)

  /**
   * A row of STIGCheck: one rule of a STIG. The floating-point weight is kept
   * as the attribute text it came from; severity is the Severity enum value.
   */
  datatype StigCheck = StigCheck(
    id: int, stigId: int, cciId: int, rule: string, vulnNum: string, groupTitle: string,
    ruleVersion: string, severity: int, weight: string, title: string, vulnDiscussion: string,
    falsePositives: string, falseNegatives: string, fix: string, check: string,
    documentable: bool, mitigations: string, severityOverrideGuidance: string,
    checkContentRef: string, potentialImpact: string, thirdPartyTools: string,
    mitigationControl: string, responsibility: string, iaControls: string, targetKey: string)

  /** A row of Asset: a host a checklist is kept for. hostName is unique. */
  datatype Asset = Asset(id: int, assetType: string, hostName: string, hostIP: string,
                         hostMAC: string, hostFQDN: string, techArea: string, targetKey: string,
                         webOrDb: bool, webDbSite: string, webDbInstance: string)

  /** A row of AssetSTIG: the asset has the STIG selected. */
  datatype AssetStig = AssetStig(id: int, assetId: int, stigId: int)

  /** Review status of a checklist entry. */
  datatype Status = NotReviewed | Open | NotAFinding | NotApplicable

  /** A row of CKLCheck: one asset's review of one STIGCheck. */
  datatype CklCheck = CklCheck(id: int, assetId: int, stigCheckId: int, status: Status,
                               findingDetails: string, comments: string, severityOverride: int,
                               severityJustification: string)

  /** A row of the `variables` table. */
  datatype Variable = Variable(name: string, value: string)

  /** The AUTOINCREMENT counter of each table: the largest id it has handed out. */
  datatype Counters = Counters(family: nat, control: nat, cci: nat, stig: nat, stigCheck: nat,
                               asset: nat, assetStig: nat, cklCheck: nat)

  /** The contents of a database whose schema exists, and the connection's delayed-commit flag. */
  datatype Tables = Tables(
    families: seq<Family>, controls: seq<Control>, ccis: seq<Cci>, stigs: seq<Stig>,
    stigChecks: seq<StigCheck>, assets: seq<Asset>, assetStigs: seq<AssetStig>,
    cklChecks: seq<CklCheck>, variables: seq<Variable>, last: Counters, delayCommit: bool)

  /** What a mutating operation leaves behind and the boolean it returns. */
  datatype Outcome = Outcome(db: Tables, ok: bool)

  // Default-constructed objects: what a lookup returns when nothing matches.
  const NoFamily := Family(-1, "", "")
  const NoCci := Cci(-1, -1, -1, "", false, "", "", "", "")
  const NoStig := Stig(-1, "", "", "", -1, "", "")
  const NoAsset := Asset(-1, "", "", "", "", "", "", "", false, "", "")

  /** The schema just created: every table empty, no id handed out yet. */
  const EmptyTables := Tables([], [], [], [], [], [], [], [], [], Counters(0, 0, 0, 0, 0, 0, 0, 0), false)

  // ---------------------------------------------------------------------
  // Lookups
  // ---------------------------------------------------------------------

  /** GetFamily(acronym) (dbmanager.cpp:1292-1311): the first family with that acronym, else id -1. */
  function GetFamily(db: Tables, acronym: string): (r: Family)
    ensures r == NoFamily || (r in db.families && r.acronym == acronym)
    ensures (exists i :: 0 <= i < |db.families| && db.families[i].acronym == acronym) ==> r in db.families
  {
    var i := FirstIndex(db.families, (f: Family) => f.acronym == acronym);
    if i >= 0 then db.families[i] else NoFamily
  }

  /** GetAsset(int) (dbmanager.cpp:771-779). */
  function GetAssetById(db: Tables, id: int): (r: Asset)
    ensures r == NoAsset || (r in db.assets && r.id == id)
    ensures (exists i :: 0 <= i < |db.assets| && db.assets[i].id == id) ==> r in db.assets
  {
    var i := FirstIndex(db.assets, (a: Asset) => a.id == id);
    if i >= 0 then db.assets[i] else NoAsset
  }

  /** GetAsset(hostName) (dbmanager.cpp:732-740). */
  function GetAssetByHostName(db: Tables, hostName: string): (r: Asset)
    ensures r == NoAsset || (r in db.assets && r.hostName == hostName)
    ensures (exists i :: 0 <= i < |db.assets| && db.assets[i].hostName == hostName) ==> r in db.assets
  {
    var i := FirstIndex(db.assets, (a: Asset) => a.hostName == hostName);
    if i >= 0 then db.assets[i] else NoAsset
  }

  /**
   * GetAsset(Asset) (dbmanager.cpp:751-762): by id when the id is positive
   * and found, otherwise by host name, otherwise the default asset.
   */
  function GetAsset(db: Tables, asset: Asset): (r: Asset)
    ensures r == NoAsset || (r in db.assets && (r.id == asset.id || r.hostName == asset.hostName))
    ensures asset.id > 0 && (exists i :: 0 <= i < |db.assets| && db.assets[i].id == asset.id) ==>
              r in db.assets && r.id == asset.id
    ensures !(exists i :: 0 <= i < |db.assets| && db.assets[i].id == asset.id && asset.id > 0) ==>
              r == GetAssetByHostName(db, asset.hostName)
  {
    if asset.id > 0 && GetAssetById(db, asset.id).id > 0 then GetAssetById(db, asset.id)
    else GetAssetByHostName(db, asset.hostName)
  }

  /** GetSTIG(int) (dbmanager.cpp:1334-1342). */
  function GetStigById(db: Tables, id: int): (r: Stig)
    ensures r == NoStig || (r in db.stigs && r.id == id)
    ensures (exists i :: 0 <= i < |db.stigs| && db.stigs[i].id == id) ==> r in db.stigs
  {
    var i := FirstIndex(db.stigs, (s: Stig) => s.id == id);
    if i >= 0 then db.stigs[i] else NoStig
  }

  /** The key that identifies a STIG release. */
  predicate SameRelease(s: Stig, title: string, version: int, release: string) {
    s.title == title && s.version == version && s.release == release
  }

  /** GetSTIG(title, version, release) (dbmanager.cpp:1344-1356). */
  function GetStigByKey(db: Tables, title: string, version: int, release: string): (r: Stig)
    ensures r == NoStig || (r in db.stigs && SameRelease(r, title, version, release))
    ensures (exists i :: 0 <= i < |db.stigs| && SameRelease(db.stigs[i], title, version, release)) ==> r in db.stigs
  {
    var i := FirstIndex(db.stigs, (s: Stig) => SameRelease(s, title, version, release));
    if i >= 0 then db.stigs[i] else NoStig
  }

  /** GetSTIG(STIG) (dbmanager.cpp:1358-1369): by id when positive and found, otherwise by release key. */
  function GetStig(db: Tables, stig: Stig): (r: Stig)
    ensures r == NoStig || (r in db.stigs && (r.id == stig.id || SameRelease(r, stig.title, stig.version, stig.release)))
    ensures stig.id > 0 && (exists i :: 0 <= i < |db.stigs| && db.stigs[i].id == stig.id) ==>
              r in db.stigs && r.id == stig.id
    ensures !(exists i :: 0 <= i < |db.stigs| && db.stigs[i].id == stig.id && stig.id > 0) ==>
              r == GetStigByKey(db, stig.title, stig.version, stig.release)
  {
    if stig.id > 0 && GetStigById(db, stig.id).id > 0 then GetStigById(db, stig.id)
    else GetStigByKey(db, stig.title, stig.version, stig.release)
  }

  /** GetCCI(int) (dbmanager.cpp:880-887). */
  function GetCci(db: Tables, id: int): (r: Cci)
    ensures r == NoCci || (r in db.ccis && r.id == id)
    ensures (exists i :: 0 <= i < |db.ccis| && db.ccis[i].id == id) ==> r in db.ccis
  {
    var i := FirstIndex(db.ccis, (c: Cci) => c.id == id);
    if i >= 0 then db.ccis[i] else NoCci
  }

  /** The first CCI row with number `cci`, if any. */
  function FindCciNumber(db: Tables, cci: int): (r: Option<Cci>)
    ensures r.Some? ==> r.value in db.ccis && r.value.cci == cci
    ensures r.None? <==> forall i :: 0 <= i < |db.ccis| ==> db.ccis[i].cci != cci
  {
    var i := FirstIndex(db.ccis, (c: Cci) => c.cci == cci);
    if i >= 0 then Some(db.ccis[i]) else None
  }

  /** The CCI that broken STIG mappings fall back to. */
  const FallbackCci := 366

  /**
   * GetCCIByCCI(int) (dbmanager.cpp:912-929): the CCI with that number; when
   * there is none, CCI-000366; when that is missing too, the default CCI.
   */
  function GetCciByNumber(db: Tables, cci: int): (r: Cci)
    ensures (exists i :: 0 <= i < |db.ccis| && db.ccis[i].cci == cci) ==> r in db.ccis && r.cci == cci
    ensures (forall i :: 0 <= i < |db.ccis| ==> db.ccis[i].cci != cci)
            && (exists i :: 0 <= i < |db.ccis| && db.ccis[i].cci == FallbackCci) ==>
              r in db.ccis && r.cci == FallbackCci
    ensures (forall i :: 0 <= i < |db.ccis| ==> db.ccis[i].cci != cci && db.ccis[i].cci != FallbackCci) ==>
              r == NoCci
  {
    match FindCciNumber(db, cci)
    case Some(c) => c
    case None => FindCciNumber(db, FallbackCci).GetOr(NoCci)
  }

  /** GetCCIByCCI(CCI) (dbmanager.cpp:940-947): by number when the id is negative, else by id. */
  function GetCciByCci(db: Tables, cci: Cci): (r: Cci)
    ensures cci.id >= 0 ==> r == NoCci || (r in db.ccis && r.id == cci.id)
    ensures cci.id >= 0 && (exists i :: 0 <= i < |db.ccis| && db.ccis[i].id == cci.id) ==>
              r in db.ccis && r.id == cci.id
    ensures cci.id < 0 ==> r == GetCciByNumber(db, cci.cci)
  {
    if cci.id < 0 then GetCciByNumber(db, cci.cci) else GetCci(db, cci.id)
  }

  /** What GetControl(QString) returns: the enhancement is an int, -1 when the text has no '('. */
  datatype ControlLookup = ControlLookup(id: int, familyId: int, number: int, enhancement: int,
                                         title: string, description: string)

  /** The rows GetControl's SELECT matches: number and family always, the enhancement only when it is positive. */
  predicate LookupMatches(c: Control, familyId: int, r: ControlRef) {
    c.number == r.number && c.familyId == familyId && (r.enhancement > 0 ==> c.enhancement == Some(r.enhancement))
  }

  /**
   * GetControl(QString) (dbmanager.cpp:1216-1269). The parsed number and
   * enhancement and the family's id (-1 when unknown) are always reported;
   * id, title and description come from the first matching row, and id is
   * -1 when no row matches.
   */
  function GetControl(db: Tables, control: string): (r: ControlLookup)
    ensures var p := ParseControlRef(control);
            r.number == p.number && r.enhancement == p.enhancement
            && r.familyId == GetFamily(db, p.family).id
    ensures (forall i :: 0 <= i < |db.controls| ==> !LookupMatches(db.controls[i], r.familyId, ParseControlRef(control)))
              ==> r.id == -1
    ensures (exists i :: 0 <= i < |db.controls| && LookupMatches(db.controls[i], r.familyId, ParseControlRef(control)))
              ==> exists i :: 0 <= i < |db.controls| && db.controls[i].id == r.id
                    && LookupMatches(db.controls[i], r.familyId, ParseControlRef(control))
  {
    var p := ParseControlRef(control);
    var familyId := GetFamily(db, p.family).id;
    var i := FirstIndex(db.controls, (c: Control) => LookupMatches(c, familyId, p));
    if i >= 0 then
      var c := db.controls[i];
      ControlLookup(c.id, familyId, p.number, p.enhancement, c.title, c.description)
    else
      ControlLookup(-1, familyId, p.number, p.enhancement, "", "")
  }

  /** GetVariable(name) (dbmanager.cpp:1371-1387): the first value stored under `name`, else the empty string. */
  function GetVariable(db: Tables, name: string): (r: string)
    ensures (forall i :: 0 <= i < |db.variables| ==> db.variables[i].name != name) ==> r == ""
    ensures (exists i :: 0 <= i < |db.variables| && db.variables[i].name == name) ==>
              exists i :: 0 <= i < |db.variables| && db.variables[i] == Variable(name, r)
  {
    var i := FirstIndex(db.variables, (v: Variable) => v.name == name);
    if i >= 0 then db.variables[i].value else ""
  }

  /** The STIGs an asset has selected: asset.STIGs(), the join of AssetSTIG with STIG (dbmanager.cpp:1152-1155). */
  predicate HasMappedStig(db: Tables, assetId: int) {
    exists i, j :: 0 <= i < |db.assetStigs| && 0 <= j < |db.stigs|
      && db.assetStigs[i].assetId == assetId && db.stigs[j].id == db.assetStigs[i].stigId
  }

  /** The assets using a STIG: stig.Assets(), the join of Asset with AssetSTIG (dbmanager.cpp:875-878). */
  predicate HasUsingAsset(db: Tables, stigId: int) {
    exists i, j :: 0 <= i < |db.assetStigs| && 0 <= j < |db.assets|
      && db.assetStigs[i].stigId == stigId && db.assets[j].id == db.assetStigs[i].assetId
  }

  // ---------------------------------------------------------------------
  // Inserts
  // ---------------------------------------------------------------------

  /** DelayCommit(delay) (dbmanager.cpp:150-172): only the flag is modelled; commit durability is not. */
  function DelayCommit(db: Tables, delay: bool): (r: Tables)
    ensures r.delayCommit == delay
    ensures r.(delayCommit := db.delayCommit) == db
  {
    db.(delayCommit := delay)
  }

  /**
   * AddAsset (dbmanager.cpp:199-235): rejected when an asset with the same
   * host name exists; otherwise the asset is appended under the next id.
   */
  function AddAsset(db: Tables, asset: Asset): (r: Outcome)
    ensures r.ok <==> forall i :: 0 <= i < |db.assets| ==> db.assets[i].hostName != asset.hostName
    ensures !r.ok ==> r.db == db
    ensures r.ok ==> r.db == db.(assets := db.assets + [asset.(id := db.last.asset + 1)],
                                 last := db.last.(asset := db.last.asset + 1))
  {
    if exists i :: 0 <= i < |db.assets| && db.assets[i].hostName == asset.hostName then Outcome(db, false)
    else
      var id := db.last.asset + 1;
      Outcome(db.(assets := db.assets + [asset.(id := id)], last := db.last.(asset := id)), true)
  }

  /**
   * AddCCI (dbmanager.cpp:251-284): rejected when the CCI number exists;
   * otherwise ControlId, cci and definition are stored and the import
   * columns take their defaults (not imported, empty).
   */
  function AddCci(db: Tables, cci: Cci): (r: Outcome)
    ensures r.ok <==> forall i :: 0 <= i < |db.ccis| ==> db.ccis[i].cci != cci.cci
    ensures !r.ok ==> r.db == db
    ensures r.ok ==> r.db == db.(ccis := db.ccis + [Cci(db.last.cci + 1, cci.controlId, cci.cci, cci.definition,
                                                        false, "", "", "", "")],
                                 last := db.last.(cci := db.last.cci + 1))
  {
    if FindCciNumber(db, cci.cci).Some? then Outcome(db, false)
    else
      var id := db.last.cci + 1;
      var row := Cci(id, cci.controlId, cci.cci, cci.definition, false, "", "", "", "");
      Outcome(db.(ccis := db.ccis + [row], last := db.last.(cci := id)), true)
  }

  /**
   * AddControl (dbmanager.cpp:301-367): rejected when the trimmed text is
   * shorter than four characters or its family acronym is unknown; otherwise
   * the parsed control is appended under that family.
   */
  function AddControl(db: Tables, control: string, title: string, description: string): (r: Outcome)
    ensures |Trim(control)| < 4 ==> !r.ok
    ensures r.ok <==> |Trim(control)| >= 4 && GetFamily(db, ParseNewControl(control).value.family).id >= 0
    ensures !r.ok ==> r.db == db
    ensures r.ok ==> var n := ParseNewControl(control).value;
                     r.db == db.(controls := db.controls + [Control(db.last.control + 1, GetFamily(db, n.family).id,
                                                                    n.number, n.enhancement, title, description)],
                                 last := db.last.(control := db.last.control + 1))
  {
    match ParseNewControl(control)
    case None => Outcome(db, false)
    case Some(n) =>
      var f := GetFamily(db, n.family);
      if f.id >= 0 then
        var id := db.last.control + 1;
        var row := Control(id, f.id, n.number, n.enhancement, title, description);
        Outcome(db.(controls := db.controls + [row], last := db.last.(control := id)), true)
      else Outcome(db, false)
  }

  /**
   * AddFamily (dbmanager.cpp:402-417) with the UNIQUE Acronym and
   * Description columns (dbmanager.cpp:1468-1472): the insert fails when
   * either value is taken. The description is stored through `sanitize`
   * (DbManager::Sanitize, not part of this model).
   */
  function AddFamily(db: Tables, sanitize: string -> string, acronym: string, description: string): (r: Outcome)
    ensures r.ok <==> forall i :: 0 <= i < |db.families| ==>
                        db.families[i].acronym != acronym && db.families[i].description != sanitize(description)
    ensures !r.ok ==> r.db == db
    ensures r.ok ==> r.db == db.(families := db.families + [Family(db.last.family + 1, acronym, sanitize(description))],
                                 last := db.last.(family := db.last.family + 1))
  {
    var d := sanitize(description);
    if exists i :: 0 <= i < |db.families| && (db.families[i].acronym == acronym || db.families[i].description == d) then
      Outcome(db, false)
    else
      var id := db.last.family + 1;
      Outcome(db.(families := db.families + [Family(id, acronym, d)], last := db.last.(family := id)), true)
  }

  /** The STIGCheck rows an AddSTIG call inserts: the given checks, numbered after `last`, under STIG `stigId`. */
  function NumberChecks(checks: seq<StigCheck>, stigId: int, last: nat): (r: seq<StigCheck>)
    ensures |r| == |checks|
    ensures forall i :: 0 <= i < |r| ==> r[i] == checks[i].(id := last + 1 + i, stigId := stigId)
  {
    seq(|checks|, i requires 0 <= i < |checks| => checks[i].(id := last + 1 + i, stigId := stigId))
  }

  /** Appends the checks under STIG `stigId`, with delayed commits forced on while they are written and restored after. */
  function InsertChecks(db: Tables, stigId: int, checks: seq<StigCheck>): (r: Tables)
    ensures r.delayCommit == db.delayCommit
  {
    var delayed := db.delayCommit;
    var during := if !delayed then DelayCommit(db, true) else db;
    var written := during.(stigChecks := during.stigChecks + NumberChecks(checks, stigId, during.last.stigCheck),
                           last := during.last.(stigCheck := during.last.stigCheck + |checks|));
    if !delayed then DelayCommit(written, false) else written
  }

  /**
   * The STIG id AddSTIG attaches the checks to (dbmanager.cpp:439-471): a
   * positive id as given; otherwise the stored release with the same key
   * when `stigExists`, or a new row. None when the release exists and
   * `stigExists` is false. The tables are those after the STIG insert.
   */
  function ResolveStig(db: Tables, stig: Stig, stigExists: bool): (r: Option<(Tables, int)>)
    ensures r.Some? ==> r.value.1 > 0
    ensures stig.id > 0 ==> r == Some((db, stig.id))
    ensures stig.id <= 0 && GetStigByKey(db, stig.title, stig.version, stig.release).id > 0 ==>
              var found := GetStigByKey(db, stig.title, stig.version, stig.release);
              && found in db.stigs
              && (stigExists ==> r == Some((db, found.id)))
              && (!stigExists ==> r.None?)
    ensures stig.id <= 0 && GetStigByKey(db, stig.title, stig.version, stig.release).id <= 0 ==>
              var id := db.last.stig + 1;
              r == Some((db.(stigs := db.stigs + [stig.(id := id)], last := db.last.(stig := id)), id))
  {
    if stig.id > 0 then Some((db, stig.id))
    else
      var found := GetStigByKey(db, stig.title, stig.version, stig.release);
      if found.id > 0 then
        if stigExists then Some((db, found.id)) else None
      else
        var id := db.last.stig + 1;
        Some((db.(stigs := db.stigs + [stig.(id := id)], last := db.last.(stig := id)), id))
  }

  /**
   * AddSTIG (dbmanager.cpp:431-526). A STIG without a positive id whose
   * release is already stored is rejected unless `stigExists`, in which case
   * the checks join the stored STIG. Otherwise the STIG is inserted first.
   * Every check is then appended under the resolved id. The id > 0 test at
   * dbmanager.cpp:472 cannot fail in the model (a new row always has a
   * positive id), and the check inserts have no constraint that can fail.
   */
  function AddStig(db: Tables, stig: Stig, checks: seq<StigCheck>, stigExists: bool): (r: Outcome)
    ensures var found := GetStigByKey(db, stig.title, stig.version, stig.release);
            r.ok <==> stig.id > 0 || stigExists || found.id <= 0
    ensures !r.ok ==> r.db == db
    ensures r.ok ==>
              var found := GetStigByKey(db, stig.title, stig.version, stig.release);
              var inserted := stig.id <= 0 && found.id <= 0;
              var id := if stig.id > 0 then stig.id else if found.id > 0 then found.id else db.last.stig + 1;
              && r.db.stigChecks == db.stigChecks + NumberChecks(checks, id, db.last.stigCheck)
              && r.db.stigs == (if inserted then db.stigs + [stig.(id := id)] else db.stigs)
              && r.db.last == db.last.(stig := if inserted then id else db.last.stig,
                                       stigCheck := db.last.stigCheck + |checks|)
              && r.db.(stigs := db.stigs, stigChecks := db.stigChecks, last := db.last) == db
    ensures r.db.delayCommit == db.delayCommit
  {
    match ResolveStig(db, stig, stigExists)
    case None => Outcome(db, false)
    case Some((db1, id)) => Outcome(InsertChecks(db1, id, checks), true)
  }

  /** The STIGCheck rows of STIG `stigId`, in rowid order (SELECT ... FROM STIGCheck WHERE STIGId). */
  function ChecksOf(db: Tables, stigId: int): (r: seq<StigCheck>)
    ensures forall i :: 0 <= i < |r| ==> r[i] in db.stigChecks && r[i].stigId == stigId
    ensures forall i :: 0 <= i < |db.stigChecks| && db.stigChecks[i].stigId == stigId ==> db.stigChecks[i] in r
  {
    Filter(db.stigChecks, (c: StigCheck) => c.stigId == stigId)
  }

  /** A fresh checklist entry: not reviewed, empty texts; the '' stored as severityOverride reads back as 0. */
  function NewCklCheck(id: int, assetId: int, check: StigCheck): CklCheck {
    CklCheck(id, assetId, check.id, NotReviewed, "", "", 0, "")
  }

  /** An entry nobody has reviewed yet: status Not Reviewed, empty texts, no severity override. */
  predicate Unreviewed(c: CklCheck) {
    && c.status == NotReviewed && c.findingDetails == "" && c.comments == ""
    && c.severityOverride == 0 && c.severityJustification == ""
  }

  /** The checklist rows AddSTIGToAsset creates: one per check, numbered after `last`. */
  function NewCklChecks(assetId: int, checks: seq<StigCheck>, last: nat): (r: seq<CklCheck>)
    ensures |r| == |checks|
    ensures forall i :: 0 <= i < |r| ==>
              && r[i].id == last + 1 + i
              && r[i].assetId == assetId && r[i].stigCheckId == checks[i].id
              && Unreviewed(r[i])
  {
    seq(|checks|, i requires 0 <= i < |checks| => NewCklCheck(last + 1 + i, assetId, checks[i]))
  }

  /**
   * AddSTIGToAsset (dbmanager.cpp:540-570): when both the asset and the STIG
   * are found, one AssetSTIG row is added and one not-reviewed CKLCheck per
   * STIGCheck of the STIG; otherwise nothing changes.
   */
  function AddStigToAsset(db: Tables, stig: Stig, asset: Asset): (r: Outcome)
    ensures r.ok <==> GetAsset(db, asset).id > 0 && GetStig(db, stig).id > 0
    ensures !r.ok ==> r.db == db
    ensures r.ok ==> var a := GetAsset(db, asset).id;
                     var s := GetStig(db, stig).id;
                     var checks := ChecksOf(db, s);
                     && r.db.assetStigs == db.assetStigs + [AssetStig(db.last.assetStig + 1, a, s)]
                     && r.db.cklChecks == db.cklChecks + NewCklChecks(a, checks, db.last.cklCheck)
                     && r.db.last == db.last.(assetStig := db.last.assetStig + 1,
                                              cklCheck := db.last.cklCheck + |checks|)
                     && r.db.(assetStigs := db.assetStigs, cklChecks := db.cklChecks, last := db.last) == db
  {
    var a := GetAsset(db, asset);
    var s := GetStig(db, stig);
    if a.id > 0 && s.id > 0 then
      var checks := ChecksOf(db, s.id);
      var link := AssetStig(db.last.assetStig + 1, a.id, s.id);
      Outcome(db.(assetStigs := db.assetStigs + [link],
                  cklChecks := db.cklChecks + NewCklChecks(a.id, checks, db.last.cklCheck),
                  last := db.last.(assetStig := db.last.assetStig + 1,
                                   cklCheck := db.last.cklCheck + |checks|)), true)
    else Outcome(db, false)
  }

  // ---------------------------------------------------------------------
  // Deletes and updates
  // ---------------------------------------------------------------------

  /**
   * DeleteAsset(Asset) (dbmanager.cpp:590-609): refused while the asset has
   * STIGs selected; otherwise the rows with its id are deleted (none, when
   * the id is unknown, which still reports success).
   */
  function DeleteAsset(db: Tables, asset: Asset): (r: Outcome)
    ensures r.ok <==> !HasMappedStig(db, asset.id)
    ensures !r.ok ==> r.db == db
    ensures r.ok ==> && r.db == db.(assets := r.db.assets)
                     && (forall i :: 0 <= i < |r.db.assets| ==> r.db.assets[i] in db.assets && r.db.assets[i].id != asset.id)
                     && (forall i :: 0 <= i < |db.assets| && db.assets[i].id != asset.id ==> db.assets[i] in r.db.assets)
  {
    if HasMappedStig(db, asset.id) then Outcome(db, false)
    else Outcome(db.(assets := Filter(db.assets, (a: Asset) => a.id != asset.id)), true)
  }

  /**
   * DeleteAsset(int) (dbmanager.cpp:579-582): deletes what GetAsset(id)
   * finds; when nothing is found the default asset (id -1) is deleted, which
   * removes nothing.
   */
  function DeleteAssetById(db: Tables, id: int): (r: Outcome)
    ensures (exists i :: 0 <= i < |db.assets| && db.assets[i].id == id) ==> (r.ok <==> !HasMappedStig(db, id))
    ensures (forall i :: 0 <= i < |db.assets| ==> db.assets[i].id != id) ==> (r.ok <==> !HasMappedStig(db, NoAsset.id))
    ensures !r.ok ==> r.db == db
    ensures r.ok ==> r.db == db.(assets := r.db.assets)
                     && (forall i :: 0 <= i < |r.db.assets| ==> r.db.assets[i] in db.assets && r.db.assets[i].id != id)
                     && (forall i :: 0 <= i < |db.assets| && db.assets[i].id != id && db.assets[i].id != NoAsset.id ==>
                           db.assets[i] in r.db.assets)
  {
    DeleteAsset(db, GetAssetById(db, id))
  }

  /** DeleteCCIs (dbmanager.cpp:618-636): empties Family, Control and CCI. */
  function DeleteCcis(db: Tables): (r: Outcome)
    ensures r.ok
    ensures r.db.families == [] && r.db.controls == [] && r.db.ccis == []
    ensures r.db.(families := db.families, controls := db.controls, ccis := db.ccis) == db
  {
    Outcome(db.(families := [], controls := [], ccis := []), true)
  }

  /**
   * DeleteSTIG(int) (dbmanager.cpp:644-676): refused while an asset uses the
   * STIG that GetSTIG(id) finds; otherwise the STIGCheck rows under `id` and
   * the STIG row with `id` are deleted.
   */
  function DeleteStig(db: Tables, id: int): (r: Outcome)
    ensures r.ok <==> !HasUsingAsset(db, GetStigById(db, id).id)
    ensures !r.ok ==> r.db == db
    ensures r.ok ==> && r.db == db.(stigs := r.db.stigs, stigChecks := r.db.stigChecks)
                     && (forall i :: 0 <= i < |r.db.stigs| ==> r.db.stigs[i] in db.stigs && r.db.stigs[i].id != id)
                     && (forall i :: 0 <= i < |db.stigs| && db.stigs[i].id != id ==> db.stigs[i] in r.db.stigs)
                     && (forall i :: 0 <= i < |r.db.stigChecks| ==>
                           r.db.stigChecks[i] in db.stigChecks && r.db.stigChecks[i].stigId != id)
                     && (forall i :: 0 <= i < |db.stigChecks| && db.stigChecks[i].stigId != id ==>
                           db.stigChecks[i] in r.db.stigChecks)
  {
    if HasUsingAsset(db, GetStigById(db, id).id) then Outcome(db, false)
    else Outcome(db.(stigChecks := Filter(db.stigChecks, (c: StigCheck) => c.stigId != id),
                     stigs := Filter(db.stigs, (s: Stig) => s.id != id)), true)
  }

  /** Whether a checklist entry belongs to asset `assetId` and reviews a check of STIG `stigId`. */
  predicate InChecklist(db: Tables, row: CklCheck, assetId: int, stigId: int) {
    row.assetId == assetId && exists k :: 0 <= k < |db.stigChecks| && db.stigChecks[k].id == row.stigCheckId
                                           && db.stigChecks[k].stigId == stigId
  }

  /**
   * DeleteSTIGFromAsset (dbmanager.cpp:697-723): when both are found, removes
   * the AssetSTIG rows of the pair and that asset's checklist entries for the
   * STIG's checks; every other row stays.
   */
  function DeleteStigFromAsset(db: Tables, stig: Stig, asset: Asset): (r: Outcome)
    ensures r.ok <==> GetStig(db, stig).id > 0 && GetAsset(db, asset).id > 0
    ensures !r.ok ==> r.db == db
    ensures r.ok ==> var s := GetStig(db, stig).id;
                     var a := GetAsset(db, asset).id;
                     && r.db == db.(assetStigs := r.db.assetStigs, cklChecks := r.db.cklChecks)
                     && (forall i :: 0 <= i < |r.db.assetStigs| ==>
                           r.db.assetStigs[i] in db.assetStigs
                           && !(r.db.assetStigs[i].assetId == a && r.db.assetStigs[i].stigId == s))
                     && (forall i :: (0 <= i < |db.assetStigs|
                                      && !(db.assetStigs[i].assetId == a && db.assetStigs[i].stigId == s)) ==>
                           db.assetStigs[i] in r.db.assetStigs)
                     && (forall i :: 0 <= i < |r.db.cklChecks| ==>
                           r.db.cklChecks[i] in db.cklChecks && !InChecklist(db, r.db.cklChecks[i], a, s))
                     && (forall i :: 0 <= i < |db.cklChecks| && !InChecklist(db, db.cklChecks[i], a, s) ==>
                           db.cklChecks[i] in r.db.cklChecks)
  {
    var s := GetStig(db, stig);
    var a := GetAsset(db, asset);
    if s.id > 0 && a.id > 0 then
      Outcome(db.(assetStigs := Filter(db.assetStigs, (x: AssetStig) => !(x.assetId == a.id && x.stigId == s.id)),
                  cklChecks := Filter(db.cklChecks, (c: CklCheck) => !InChecklist(db, c, a.id, s.id))), true)
    else Outcome(db, false)
  }

  /** The rows UpdateCKLCheck's WHERE clause selects: by id when positive, else by (asset, STIGCheck). */
  predicate UpdateTargets(check: CklCheck, row: CklCheck) {
    if check.id > 0 then row.id == check.id
    else row.assetId == check.assetId && row.stigCheckId == check.stigCheckId
  }

  /** The five reviewer-editable columns of `row` replaced by those of `check`. */
  function Reviewed(row: CklCheck, check: CklCheck): CklCheck {
    row.(status := check.status, findingDetails := check.findingDetails, comments := check.comments,
         severityOverride := check.severityOverride, severityJustification := check.severityJustification)
  }

  /**
   * UpdateCKLCheck (dbmanager.cpp:1405-1433): every targeted row takes the
   * five reviewed columns of `check`; ids, asset and STIGCheck never change,
   * nor does any other row or table.
   */
  function UpdateCklCheck(db: Tables, check: CklCheck): (r: Tables)
    ensures r == db.(cklChecks := r.cklChecks)
    ensures |r.cklChecks| == |db.cklChecks|
    ensures forall i :: 0 <= i < |r.cklChecks| ==>
              && r.cklChecks[i].id == db.cklChecks[i].id
              && r.cklChecks[i].assetId == db.cklChecks[i].assetId
              && r.cklChecks[i].stigCheckId == db.cklChecks[i].stigCheckId
              && (UpdateTargets(check, db.cklChecks[i]) ==>
                    r.cklChecks[i].status == check.status && r.cklChecks[i].findingDetails == check.findingDetails
                    && r.cklChecks[i].comments == check.comments
                    && r.cklChecks[i].severityOverride == check.severityOverride
                    && r.cklChecks[i].severityJustification == check.severityJustification)
              && (!UpdateTargets(check, db.cklChecks[i]) ==> r.cklChecks[i] == db.cklChecks[i])
  {
    var rows := db.cklChecks;
    db.(cklChecks := seq(|rows|, i requires 0 <= i < |rows| =>
                           if UpdateTargets(check, rows[i]) then Reviewed(rows[i], check) else rows[i]))
  }

  /** `row` with its import columns taken from `cci`. */
  function WithImport(row: Cci, cci: Cci): Cci {
    row.(isImport := cci.isImport, importCompliance := cci.importCompliance,
         importDateTested := cci.importDateTested, importTestedBy := cci.importTestedBy,
         importTestResults := cci.importTestResults)
  }

  /** `a` and `b` differ at most in their import columns. */
  predicate SameOutsideImport(a: Cci, b: Cci) {
    a.(isImport := false, importCompliance := "", importDateTested := "", importTestedBy := "", importTestResults := "")
    == b.(isImport := false, importCompliance := "", importDateTested := "", importTestedBy := "", importTestResults := "")
  }

  /** `a` carries the import columns of `cci`. */
  predicate HasImportOf(a: Cci, cci: Cci) {
    && a.isImport == cci.isImport && a.importCompliance == cci.importCompliance
    && a.importDateTested == cci.importDateTested && a.importTestedBy == cci.importTestedBy
    && a.importTestResults == cci.importTestResults
  }

  /**
   * ImportCCI as written (dbmanager.cpp:1389-1403). The UPDATE has no WHERE
   * clause, so every CCI row takes the import columns of `cci`, not only the
   * row of that CCI.
   */
  function ImportCciAsWritten(db: Tables, cci: Cci): (r: Tables)
    ensures r == db.(ccis := r.ccis)
    ensures |r.ccis| == |db.ccis|
    ensures forall i :: 0 <= i < |r.ccis| ==> SameOutsideImport(r.ccis[i], db.ccis[i]) && HasImportOf(r.ccis[i], cci)
  {
    var rows := db.ccis;
    db.(ccis := seq(|rows|, i requires 0 <= i < |rows| => WithImport(rows[i], cci)))
  }

  /** Two CCIs, neither imported. */
  const TwoCcis := EmptyTables.(ccis := [Cci(1, 1, 366, "", false, "", "", "", ""), Cci(2, 2, 367, "", false, "", "", "", "")])

  /** An eMASS result for CCI-000366. */
  const ImportOf366 := Cci(-1, -1, 366, "", true, "Compliant", "2020-01-01", "tester", "passed")

  /** As written, importing the result of CCI-000366 marks CCI-000367 as imported too. */
  lemma ImportCciAsWrittenSpreads()
    ensures !TwoCcis.ccis[1].isImport
    ensures ImportCciAsWritten(TwoCcis, ImportOf366).ccis[1].isImport
    ensures ImportCciAsWritten(TwoCcis, ImportOf366).ccis[1].importCompliance == "Compliant"
  {
  }

  /**
   * ImportCCI as evidently intended: only the rows with the imported CCI's
   * number take its import columns; every other row and table is unchanged.
   */
  function ImportCci(db: Tables, cci: Cci): (r: Tables)
    ensures r == db.(ccis := r.ccis)
    ensures |r.ccis| == |db.ccis|
    ensures forall i :: 0 <= i < |r.ccis| ==>
              && SameOutsideImport(r.ccis[i], db.ccis[i])
              && (db.ccis[i].cci == cci.cci ==> HasImportOf(r.ccis[i], cci))
              && (db.ccis[i].cci != cci.cci ==> r.ccis[i] == db.ccis[i])
  {
    var rows := db.ccis;
    db.(ccis := seq(|rows|, i requires 0 <= i < |rows| => if rows[i].cci == cci.cci then WithImport(rows[i], cci) else rows[i]))
  }

  /** The corrected import records the result of CCI-000366 and leaves CCI-000367 untouched. */
  lemma ImportCciOnlyItsRow()
    ensures ImportCci(TwoCcis, ImportOf366).ccis[0].isImport
    ensures ImportCci(TwoCcis, ImportOf366).ccis[0].importCompliance == "Compliant"
    ensures ImportCci(TwoCcis, ImportOf366).ccis[1] == TwoCcis.ccis[1]
  {
  }

  // ---------------------------------------------------------------------
  // Reading STIGChecks back
  // ---------------------------------------------------------------------

  /**
   * The row GetSTIGChecks builds from a stored STIGCheck, as written
   * (dbmanager.cpp:1120-1146): column 22 (responsibility) is assigned to
   * thirdPartyTools a second time, so the stored thirdPartyTools is lost and
   * responsibility keeps the default empty value.
   */
  function ReadStigCheckAsWritten(row: StigCheck): (r: StigCheck)
    ensures r.thirdPartyTools == row.responsibility && r.responsibility == ""
    ensures r.(thirdPartyTools := row.thirdPartyTools, responsibility := row.responsibility) == row
  {
    row.(thirdPartyTools := row.responsibility, responsibility := "")
  }

  /** A stored check whose two columns differ reads back changed. */
  lemma ReadStigCheckAsWrittenLoses()
    ensures var row := StigCheck(1, 1, 1, "", "", "", "", 0, "", "", "", "", "", "", "", false, "", "", "", "",
                                 "tools", "", "owner", "", "");
            && ReadStigCheckAsWritten(row) != row
            && ReadStigCheckAsWritten(row).thirdPartyTools == "owner"
            && ReadStigCheckAsWritten(row).responsibility == ""
  {
  }

  /** The row GetSTIGChecks evidently means to build: column 20 to thirdPartyTools, column 22 to responsibility. */
  function ReadStigCheck(row: StigCheck): (r: StigCheck)
    ensures r.thirdPartyTools == row.thirdPartyTools && r.responsibility == row.responsibility
  {
    row
  }

  /** `back` is `rows` read as written: responsibility moved into third-party tools, the rest kept. */
  predicate ReadsAsWritten(back: seq<StigCheck>, rows: seq<StigCheck>) {
    && |back| == |rows|
    && forall i :: 0 <= i < |back| ==>
         && back[i].thirdPartyTools == rows[i].responsibility
         && back[i].responsibility == ""
         && back[i].(thirdPartyTools := rows[i].thirdPartyTools, responsibility := rows[i].responsibility) == rows[i]
  }

  /**
   * GetSTIGChecks(STIG) (dbmanager.cpp:1094-1150) as written: the STIG's
   * stored checks in order, each losing its third-party tools text to the
   * responsibility column.
   */
  function GetStigChecks(db: Tables, stigId: int): (r: seq<StigCheck>)
    ensures ReadsAsWritten(r, ChecksOf(db, stigId))
    ensures forall i :: 0 <= i < |r| ==> r[i].stigId == stigId
  {
    var rows := ChecksOf(db, stigId);
    seq(|rows|, i requires 0 <= i < |rows| => ReadStigCheckAsWritten(rows[i]))
  }

  /** GetSTIGChecks with the corrected read: exactly the stored checks of the STIG, in order. */
  function GetStigChecksCorrected(db: Tables, stigId: int): (r: seq<StigCheck>)
    ensures r == ChecksOf(db, stigId)
  {
    var rows := ChecksOf(db, stigId);
    seq(|rows|, i requires 0 <= i < |rows| => ReadStigCheck(rows[i]))
  }
}

=== FILE: storeflows.dfy ===
/**
 * What sequences of DbManager operations do: attaching a STIG to an asset
 * creates exactly one checklist entry per check and detaching undoes it;
 * detaching every STIG lets an asset be deleted (the order src/main.cpp:199-206
 * uses); a control added by name is found again by name; a STIG's checks
 * read back as they were stored.
 */
module StoreFlows {
  import opened Wrappers
  import opened QtString
  import opened ControlId
  import opened Seqs
  import opened Store
  import opened StoreProps

  // ---------------------------------------------------------------------
  // Attaching and detaching
  // ---------------------------------------------------------------------

  /** GetAsset reads only the Asset table. */
  lemma SameAssets(db: Tables, db2: Tables, asset: Asset)
    requires db2.assets == db.assets
    ensures GetAsset(db2, asset) == GetAsset(db, asset)
  {
    assert GetAssetById(db2, asset.id) == GetAssetById(db, asset.id);
    assert GetAssetByHostName(db2, asset.hostName) == GetAssetByHostName(db, asset.hostName);
  }

  /** GetSTIG reads only the STIG table. */
  lemma SameStigs(db: Tables, db2: Tables, stig: Stig)
    requires db2.stigs == db.stigs
    ensures GetStig(db2, stig) == GetStig(db, stig)
  {
    assert GetStigById(db2, stig.id) == GetStigById(db, stig.id);
    assert GetStigByKey(db2, stig.title, stig.version, stig.release)
        == GetStigByKey(db, stig.title, stig.version, stig.release);
  }

  /** Checks with distinct ids get exactly one new entry each. */
  lemma OneEntryPerCheck(checks: seq<StigCheck>, assetId: int, last: nat, lastCheck: int, check: StigCheck)
    requires Ascending(checks, StigCheckKey, lastCheck)
    requires check in checks
    ensures NewEntriesFor(NewCklChecks(assetId, checks, last), check, assetId)
  {
    var added := NewCklChecks(assetId, checks, last);
    var p :| 0 <= p < |checks| && checks[p] == check;
    assert added[p].stigCheckId == check.id;
    forall p, p2 | 0 <= p < |added| && 0 <= p2 < |added| && added[p].stigCheckId == check.id
                   && added[p2].stigCheckId == check.id
      ensures p == p2
    {
      assert StigCheckKey(checks[p]) == StigCheckKey(checks[p2]);
      AscendingUnique(checks, StigCheckKey, lastCheck, p, p2);
    }
  }

  /**
   * The checklist entries `added` hold exactly one entry for `check`, and
   * every one of them belongs to asset `a`, is not reviewed and has empty texts.
   */
  predicate NewEntriesFor(added: seq<CklCheck>, check: StigCheck, a: int) {
    && (exists p :: 0 <= p < |added| && added[p].stigCheckId == check.id)
    && (forall p, p2 :: (0 <= p < |added| && 0 <= p2 < |added| && added[p].stigCheckId == check.id
                         && added[p2].stigCheckId == check.id) ==> p == p2)
    && (forall p :: 0 <= p < |added| ==>
          && added[p].assetId == a && added[p].status == NotReviewed
          && added[p].findingDetails == "" && added[p].comments == ""
          && added[p].severityOverride == 0 && added[p].severityJustification == "")
  }

  /**
   * After AddSTIGToAsset, each STIGCheck of the STIG has exactly one new
   * checklist entry; every new entry belongs to the asset, is not reviewed
   * and has empty texts.
   */
  lemma AttachOneEntryPerCheck(db: Tables, stig: Stig, asset: Asset, k: int)
    requires IdsFresh(db)
    requires AddStigToAsset(db, stig, asset).ok
    requires 0 <= k < |db.stigChecks| && db.stigChecks[k].stigId == GetStig(db, stig).id
    ensures NewEntriesFor(AddStigToAsset(db, stig, asset).db.cklChecks[|db.cklChecks|..], db.stigChecks[k],
                          GetAsset(db, asset).id)
  {
    var r := AddStigToAsset(db, stig, asset).db;
    var a := GetAsset(db, asset).id;
    var s := GetStig(db, stig).id;
    AttachedPair(db, stig, asset);
    AttachedOneEntry(db, a, s, k);
  }

  /** AttachOneEntryPerCheck on the tables AddSTIGToAsset leaves for a stored pair. */
  lemma AttachedOneEntry(db: Tables, a: int, s: int, k: int)
    requires IdsFresh(db)
    requires 0 <= k < |db.stigChecks| && db.stigChecks[k].stigId == s
    ensures NewEntriesFor(Attached(db, a, s).cklChecks[|db.cklChecks|..], db.stigChecks[k], a)
  {
    var checks := ChecksOf(db, s);
    assert checks == Filter(db.stigChecks, (c: StigCheck) => c.stigId == s);
    FilterAscending(db.stigChecks, (c: StigCheck) => c.stigId == s, StigCheckKey, db.last.stigCheck);
    assert Attached(db, a, s).cklChecks[|db.cklChecks|..] == NewCklChecks(a, checks, db.last.cklCheck);
    OneEntryPerCheck(checks, a, db.last.cklCheck, db.last.stigCheck, db.stigChecks[k]);
  }

  /**
   * DeleteSTIGFromAsset keeps every checklist entry of other assets and
   * every entry of the asset for checks of other STIGs.
   */
  lemma DetachKeepsOtherEntries(db: Tables, stig: Stig, asset: Asset, i: int)
    requires Valid(db)
    requires DeleteStigFromAsset(db, stig, asset).ok
    requires 0 <= i < |db.cklChecks|
    requires var c := db.cklChecks[i];
             c.assetId != GetAsset(db, asset).id
             || exists k :: 0 <= k < |db.stigChecks| && db.stigChecks[k].id == c.stigCheckId
                            && db.stigChecks[k].stigId != GetStig(db, stig).id
    ensures db.cklChecks[i] in DeleteStigFromAsset(db, stig, asset).db.cklChecks
  {
    var c := db.cklChecks[i];
    var a := GetAsset(db, asset).id;
    var s := GetStig(db, stig).id;
    if c.assetId == a {
      var k :| 0 <= k < |db.stigChecks| && db.stigChecks[k].id == c.stigCheckId && db.stigChecks[k].stigId != s;
      if InChecklist(db, c, a, s) {
        var k2 :| 0 <= k2 < |db.stigChecks| && db.stigChecks[k2].id == c.stigCheckId && db.stigChecks[k2].stigId == s;
        CheckStigUnique(db, k, k2);
      }
    }
  }

  /** No checklist entry of `assetId` reviews a check of STIG `stigId`. */
  predicate NoEntriesFor(db: Tables, assetId: int, stigId: int) {
    forall i :: 0 <= i < |db.cklChecks| ==> !InChecklist(db, db.cklChecks[i], assetId, stigId)
  }

  /** An unmapped pair has no checklist entries. */
  lemma UnmappedHasNoEntries(db: Tables, a: int, s: int)
    requires Valid(db) && !Mapped(db, a, s)
    ensures NoEntriesFor(db, a, s)
  {
    forall i | 0 <= i < |db.cklChecks|
      ensures !InChecklist(db, db.cklChecks[i], a, s)
    {
      var c := db.cklChecks[i];
      if InChecklist(db, c, a, s) {
        var k :| 0 <= k < |db.stigChecks| && db.stigChecks[k].id == c.stigCheckId
                 && Mapped(db, c.assetId, db.stigChecks[k].stigId);
        var k2 :| 0 <= k2 < |db.stigChecks| && db.stigChecks[k2].id == c.stigCheckId && db.stigChecks[k2].stigId == s;
        CheckStigUnique(db, k, k2);
      }
    }
  }

  /** Removing a pair's AssetSTIG rows after appending one for a pair that had none gives back the table. */
  lemma DetachAppendedLink(links: seq<AssetStig>, a: int, s: int, link: AssetStig)
    requires forall j :: 0 <= j < |links| ==> !(links[j].assetId == a && links[j].stigId == s)
    requires link.assetId == a && link.stigId == s
    ensures Filter(links + [link], (x: AssetStig) => !(x.assetId == a && x.stigId == s)) == links
  {
    var keep := (x: AssetStig) => !(x.assetId == a && x.stigId == s);
    FilterAppend(links, [link], keep);
    assert forall j :: 0 <= j < |links| ==> keep(links[j]);
    FilterKeepsAll(links, keep);
    assert !keep([link][0]);
    FilterKeepsNone([link], keep);
  }

  /** Removing a pair's entries after appending some to a pair that had none gives back the table. */
  lemma DetachAppendedEntries(db: Tables, db1: Tables, a: int, s: int, added: seq<CklCheck>)
    requires NoEntriesFor(db, a, s)
    requires db1.stigChecks == db.stigChecks && db1.cklChecks == db.cklChecks + added
    requires forall p :: 0 <= p < |added| ==> InChecklist(db, added[p], a, s)
    ensures Filter(db1.cklChecks, (c: CklCheck) => !InChecklist(db1, c, a, s)) == db.cklChecks
  {
    var keep := (c: CklCheck) => !InChecklist(db1, c, a, s);
    FilterAppend(db.cklChecks, added, keep);
    assert forall i :: 0 <= i < |db.cklChecks| ==> keep(db.cklChecks[i]);
    FilterKeepsAll(db.cklChecks, keep);
    assert forall p :: 0 <= p < |added| ==> !keep(added[p]);
    FilterKeepsNone(added, keep);
  }

  /** The entries AddSTIGToAsset creates are the asset's entries for the STIG. */
  lemma NewEntriesInChecklist(db: Tables, a: int, s: int, last: nat)
    ensures var added := NewCklChecks(a, ChecksOf(db, s), last);
            forall p :: 0 <= p < |added| ==> InChecklist(db, added[p], a, s)
  {
    var checks := ChecksOf(db, s);
    var added := NewCklChecks(a, checks, last);
    forall p | 0 <= p < |added|
      ensures InChecklist(db, added[p], a, s)
    {
      assert checks[p] in db.stigChecks;
      var k :| 0 <= k < |db.stigChecks| && db.stigChecks[k] == checks[p];
    }
  }

  /**
   * Attaching a STIG to an asset that did not have it and detaching it again
   * restores every table; only the id counters have moved on.
   */
  lemma AttachDetachRoundTrip(db: Tables, stig: Stig, asset: Asset)
    requires Valid(db)
    requires AddStigToAsset(db, stig, asset).ok
    requires !Mapped(db, GetAsset(db, asset).id, GetStig(db, stig).id)
    ensures var r1 := AddStigToAsset(db, stig, asset);
            var r2 := DeleteStigFromAsset(r1.db, stig, asset);
            r2.ok && r2.db == db.(last := r1.db.last)
  {
    var db1 := AddStigToAsset(db, stig, asset).db;
    var a := GetAsset(db, asset).id;
    var s := GetStig(db, stig).id;
    SameAssets(db, db1, asset);
    SameStigs(db, db1, stig);
    NewEntriesInChecklist(db, a, s, db.last.cklCheck);
    UnmappedHasNoEntries(db, a, s);
    DetachAppendedEntries(db, db1, a, s, NewCklChecks(a, ChecksOf(db, s), db.last.cklCheck));
    DetachAppendedLink(db.assetStigs, a, s, AssetStig(db.last.assetStig + 1, a, s));
  }

  // ---------------------------------------------------------------------
  // Retiring an asset: detach every STIG, then delete
  // ---------------------------------------------------------------------

  /** GetSTIGs(Asset) (dbmanager.cpp:1152-1155): the STIG rows some AssetSTIG row pairs with the asset. */
  function StigsOfAsset(db: Tables, assetId: int): (r: seq<Stig>)
    ensures forall i :: 0 <= i < |r| ==> r[i] in db.stigs && Mapped(db, assetId, r[i].id)
    ensures forall j :: 0 <= j < |db.stigs| && Mapped(db, assetId, db.stigs[j].id) ==> db.stigs[j] in r
  {
    Filter(db.stigs, (s: Stig) => Mapped(db, assetId, s.id))
  }

  /** DeleteSTIGFromAsset for each STIG of `stigs` in turn (src/main.cpp:199-206). */
  function DetachAll(db: Tables, stigs: seq<Stig>, asset: Asset): Tables
    decreases |stigs|
  {
    if |stigs| == 0 then db
    else DetachAll(DeleteStigFromAsset(db, stigs[0], asset).db, stigs[1..], asset)
  }

  /** One DeleteSTIGFromAsset of an existing pair removes that pair and nothing but link and checklist rows. */
  lemma DetachOne(db: Tables, stig: Stig, asset: Asset)
    requires asset in db.assets && asset.id > 0
    requires stig in db.stigs && stig.id > 0
    ensures var r := DeleteStigFromAsset(db, stig, asset).db;
            && r.assets == db.assets && r.stigs == db.stigs && r.stigChecks == db.stigChecks
            && (forall j :: 0 <= j < |r.assetStigs| ==>
                  (r.assetStigs[j] in db.assetStigs
                   && !(r.assetStigs[j].assetId == asset.id && r.assetStigs[j].stigId == stig.id)))
  {
    assert GetAsset(db, asset).id == asset.id;
    assert GetStig(db, stig).id == stig.id;
  }

  /** Detaching touches no other table than AssetSTIG and CKLCheck, and only removes AssetSTIG rows. */
  lemma {:induction false} DetachAllFrame(db: Tables, stigs: seq<Stig>, asset: Asset)
    ensures var r := DetachAll(db, stigs, asset);
            && r.assets == db.assets && r.stigs == db.stigs && r.stigChecks == db.stigChecks
            && (forall j :: 0 <= j < |r.assetStigs| ==> r.assetStigs[j] in db.assetStigs)
    decreases |stigs|
  {
    if |stigs| > 0 {
      var db1 := DeleteStigFromAsset(db, stigs[0], asset).db;
      DetachAllFrame(db1, stigs[1..], asset);
      var r := DetachAll(db1, stigs[1..], asset);
      forall j | 0 <= j < |r.assetStigs|
        ensures r.assetStigs[j] in db.assetStigs
      {
        assert r.assetStigs[j] in db1.assetStigs;
        assert exists k :: 0 <= k < |db1.assetStigs| && db1.assetStigs[k] == r.assetStigs[j];
        var k :| 0 <= k < |db1.assetStigs| && db1.assetStigs[k] == r.assetStigs[j];
      }
    }
  }

  /**
   * Detaching a list of existing STIGs from an existing asset leaves no
   * AssetSTIG row pairing the asset with any of them.
   */
  lemma {:induction false} DetachAllUnmaps(db: Tables, stigs: seq<Stig>, asset: Asset)
    requires asset in db.assets && asset.id > 0
    requires forall i :: 0 <= i < |stigs| ==> stigs[i] in db.stigs && stigs[i].id > 0
    ensures var r := DetachAll(db, stigs, asset);
            forall j, i :: 0 <= j < |r.assetStigs| && 0 <= i < |stigs| && r.assetStigs[j].assetId == asset.id ==>
              r.assetStigs[j].stigId != stigs[i].id
    decreases |stigs|, 1
  {
    if |stigs| > 0 {
      var db1 := DeleteStigFromAsset(db, stigs[0], asset).db;
      assert DetachAll(db, stigs, asset) == DetachAll(db1, stigs[1..], asset);
      DetachOne(db, stigs[0], asset);
      UnmapsStep(db, db1, stigs, asset);
    }
  }

  /** DetachAllUnmaps after its first DeleteSTIGFromAsset, given what that call removed. */
  lemma {:induction false} UnmapsStep(db: Tables, db1: Tables, stigs: seq<Stig>, asset: Asset)
    requires asset in db.assets && asset.id > 0
    requires forall i :: 0 <= i < |stigs| ==> stigs[i] in db.stigs && stigs[i].id > 0
    requires |stigs| > 0 && db1.assets == db.assets && db1.stigs == db.stigs
    requires forall j :: 0 <= j < |db1.assetStigs| ==>
               db1.assetStigs[j] in db.assetStigs && !(db1.assetStigs[j].assetId == asset.id && db1.assetStigs[j].stigId == stigs[0].id)
    ensures var r := DetachAll(db1, stigs[1..], asset);
            forall j, i :: 0 <= j < |r.assetStigs| && 0 <= i < |stigs| && r.assetStigs[j].assetId == asset.id ==>
              r.assetStigs[j].stigId != stigs[i].id
    decreases |stigs|, 0
  {
    var rest := stigs[1..];
    assert forall i :: 0 <= i < |rest| ==> rest[i] in db1.stigs && rest[i].id > 0;
    DetachAllUnmaps(db1, rest, asset);
    DetachAllFrame(db1, rest, asset);
    var r := DetachAll(db1, rest, asset);
    DetachStep(db.assetStigs, db1.assetStigs, r.assetStigs, asset.id, stigs);
  }

  /** The induction step of DetachAllUnmaps, on the AssetSTIG table alone. */
  lemma DetachStep(links: seq<AssetStig>, links1: seq<AssetStig>, r: seq<AssetStig>, a: int, stigs: seq<Stig>)
    requires |stigs| > 0
    requires forall j :: 0 <= j < |links1| ==> links1[j] in links && !(links1[j].assetId == a && links1[j].stigId == stigs[0].id)
    requires forall j :: 0 <= j < |r| ==> r[j] in links1
    requires forall j, i :: 0 <= j < |r| && 0 <= i < |stigs[1..]| && r[j].assetId == a ==> r[j].stigId != stigs[1..][i].id
    ensures forall j :: 0 <= j < |r| ==> r[j] in links
    ensures forall j, i :: 0 <= j < |r| && 0 <= i < |stigs| && r[j].assetId == a ==> r[j].stigId != stigs[i].id
  {
    forall j | 0 <= j < |r|
      ensures r[j] in links && (r[j].assetId == a ==> r[j].stigId != stigs[0].id)
    {
      var k :| 0 <= k < |links1| && links1[k] == r[j];
    }
    forall j, i | 0 <= j < |r| && 0 <= i < |stigs| && r[j].assetId == a
      ensures r[j].stigId != stigs[i].id
    {
      if i > 0 {
        assert stigs[i] == stigs[1..][i - 1];
      }
    }
  }

  /** Detaching keeps the store consistent at every step. */
  lemma {:induction false} DetachAllValid(db: Tables, stigs: seq<Stig>, asset: Asset)
    requires Valid(db)
    ensures Valid(DetachAll(db, stigs, asset))
    decreases |stigs|
  {
    if |stigs| > 0 {
      DeleteStigFromAssetValid(db, stigs[0], asset);
      DetachAllValid(DeleteStigFromAsset(db, stigs[0], asset).db, stigs[1..], asset);
    }
  }

  /** After the detaching, no AssetSTIG row pairs the asset with an existing STIG. */
  lemma NothingMappedLeft(db: Tables, d: Tables, stigs: seq<Stig>, assetId: int)
    requires d.stigs == db.stigs
    requires forall j :: 0 <= j < |d.assetStigs| ==> d.assetStigs[j] in db.assetStigs
    requires forall j, i :: 0 <= j < |d.assetStigs| && 0 <= i < |stigs| && d.assetStigs[j].assetId == assetId ==>
               d.assetStigs[j].stigId != stigs[i].id
    requires forall j :: 0 <= j < |db.stigs| && Mapped(db, assetId, db.stigs[j].id) ==> db.stigs[j] in stigs
    ensures !HasMappedStig(d, assetId)
  {
  }

  /**
   * Once every STIG an asset has selected is detached, DeleteAsset is no
   * longer refused: the asset row is gone and the store stays consistent.
   */
  lemma DetachAllThenDelete(db: Tables, stigs: seq<Stig>, asset: Asset)
    requires Valid(db) && asset in db.assets
    requires forall i :: 0 <= i < |stigs| ==> stigs[i] in db.stigs
    requires forall j :: 0 <= j < |db.stigs| && Mapped(db, asset.id, db.stigs[j].id) ==> db.stigs[j] in stigs
    ensures var r := DeleteAsset(DetachAll(db, stigs, asset), asset);
            && r.ok && Valid(r.db)
            && (forall i :: 0 <= i < |r.db.assets| ==> r.db.assets[i].id != asset.id)
  {
    PositiveIds(db, stigs, asset);
    DetachAllFrame(db, stigs, asset);
    DetachAllUnmaps(db, stigs, asset);
    DetachAllValid(db, stigs, asset);
    var d := DetachAll(db, stigs, asset);
    DeleteAssetValid(d, asset);
    NothingMappedLeft(db, d, stigs, asset.id);
  }

  /** Rows of a consistent store carry positive ids. */
  lemma PositiveIds(db: Tables, stigs: seq<Stig>, asset: Asset)
    requires IdsFresh(db) && asset in db.assets
    requires forall i :: 0 <= i < |stigs| ==> stigs[i] in db.stigs
    ensures asset.id > 0
    ensures forall i :: 0 <= i < |stigs| ==> stigs[i].id > 0
  {
    var j :| 0 <= j < |db.assets| && db.assets[j] == asset;
    assert AssetKey(db.assets[j]) > 0;
    forall i | 0 <= i < |stigs|
      ensures stigs[i].id > 0
    {
      var k :| 0 <= k < |db.stigs| && db.stigs[k] == stigs[i];
      assert StigKey(db.stigs[k]) > 0;
    }
  }

  /** The workflow of src/main.cpp:199-206: detach asset.GetSTIGs(), then DeleteAsset succeeds. */
  lemma RetireAsset(db: Tables, asset: Asset)
    requires Valid(db) && asset in db.assets
    ensures var r := DeleteAsset(DetachAll(db, StigsOfAsset(db, asset.id), asset), asset);
            r.ok && Valid(r.db) && forall i :: 0 <= i < |r.db.assets| ==> r.db.assets[i].id != asset.id
  {
    DetachAllThenDelete(db, StigsOfAsset(db, asset.id), asset);
  }

  // ---------------------------------------------------------------------
  // Controls: what AddControl stores, GetControl finds
  // ---------------------------------------------------------------------

  /**
   * A control string AddControl accepts is found again by GetControl under
   * the same family and number: the row just inserted matches, so the
   * lookup returns a stored row (the new one, or an earlier match).
   */
  lemma AddThenGetControl(db: Tables, control: string, title: string, description: string)
    requires IdsFresh(db)
    requires AddControl(db, control, title, description).ok
    ensures var r := AddControl(db, control, title, description).db;
            var found := GetControl(r, control);
            && found.id > 0
            && (exists i :: 0 <= i < |r.controls| && r.controls[i].id == found.id
                  && LookupMatches(r.controls[i], found.familyId, ParseControlRef(control)))
            && ((forall i :: 0 <= i < |db.controls| ==>
                   !LookupMatches(db.controls[i], found.familyId, ParseControlRef(control))) ==>
                  found.id == db.last.control + 1)
  {
    var r := AddControl(db, control, title, description).db;
    AddedControlMatches(db, control, title, description);
    FoundAfterAppend(db.controls, r, control, db.last.control);
  }

  /** The row AddControl appends matches the lookup of the same string. */
  lemma AddedControlMatches(db: Tables, control: string, title: string, description: string)
    requires IdsFresh(db)
    requires AddControl(db, control, title, description).ok
    ensures var r := AddControl(db, control, title, description).db;
            var p := ParseControlRef(control);
            && |r.controls| == |db.controls| + 1
            && r.controls[..|db.controls|] == db.controls
            && r.controls[|db.controls|].id == db.last.control + 1
            && LookupMatches(r.controls[|db.controls|], GetFamily(r, p.family).id, p)
            && Ascending(r.controls, ControlKey, r.last.control)
  {
    var r := AddControl(db, control, title, description).db;
    var n := ParseNewControl(control).value;
    var row := Control(db.last.control + 1, GetFamily(db, n.family).id, n.number, n.enhancement, title, description);
    assert r == db.(controls := db.controls + [row], last := db.last.(control := db.last.control + 1));
    NewRowMatches(control, GetFamily(db, n.family).id, db.last.control + 1, title, description);
    AppendedControl(db, r, row, ParseControlRef(control));
  }

  /** The row built from ParseNewControl matches the lookup ParseControlRef makes of the same string. */
  lemma NewRowMatches(control: string, familyId: int, id: int, title: string, description: string)
    requires |Trim(control)| >= 4
    ensures var n := ParseNewControl(control).value;
            var p := ParseControlRef(control);
            && n.family == p.family
            && LookupMatches(Control(id, familyId, n.number, n.enhancement, title, description), familyId, p)
  {
    InsertAgreesWithLookup(control);
  }

  /** Appending a row numbered after the last keeps the Control table ascending. */
  lemma AppendedControl(db: Tables, r: Tables, row: Control, p: ControlRef)
    requires IdsFresh(db)
    requires r == db.(controls := db.controls + [row], last := db.last.(control := db.last.control + 1))
    requires row.id == db.last.control + 1
    requires LookupMatches(row, GetFamily(db, p.family).id, p)
    ensures && |r.controls| == |db.controls| + 1
            && r.controls[..|db.controls|] == db.controls
            && r.controls[|db.controls|] == row
            && LookupMatches(r.controls[|db.controls|], GetFamily(r, p.family).id, p)
            && Ascending(r.controls, ControlKey, r.last.control)
  {
    assert r.families == db.families;
    AppendAscending(db.controls, [row], ControlKey, db.last.control);
  }

  /** GetControl on tables whose last row matches: a positive id, the last row's when nothing earlier matches. */
  lemma FoundAfterAppend(before: seq<Control>, r: Tables, control: string, last: int)
    requires Ascending(r.controls, ControlKey, r.last.control)
    requires |r.controls| == |before| + 1 && r.controls[..|before|] == before
    requires r.controls[|before|].id == last + 1
    requires LookupMatches(r.controls[|before|], GetFamily(r, ParseControlRef(control).family).id, ParseControlRef(control))
    ensures var found := GetControl(r, control);
            && found.id > 0
            && (exists i :: 0 <= i < |r.controls| && r.controls[i].id == found.id
                  && LookupMatches(r.controls[i], found.familyId, ParseControlRef(control)))
            && ((forall i :: 0 <= i < |before| ==> !LookupMatches(before[i], found.familyId, ParseControlRef(control))) ==>
                  found.id == last + 1)
  {
    var p := ParseControlRef(control);
    var found := GetControl(r, control);
    var i :| 0 <= i < |r.controls| && r.controls[i].id == found.id && LookupMatches(r.controls[i], found.familyId, p);
    assert ControlKey(r.controls[i]) > 0;
    if forall j :: 0 <= j < |before| ==> !LookupMatches(before[j], found.familyId, p) {
      OnlyLastMatches(r.controls, before, found.familyId, p, i);
    }
  }

  /** When no earlier row matches, a matching row of `cs` is the appended one. */
  lemma OnlyLastMatches(cs: seq<Control>, before: seq<Control>, familyId: int, p: ControlRef, i: int)
    requires |cs| == |before| + 1 && cs[..|before|] == before
    requires 0 <= i < |cs| && LookupMatches(cs[i], familyId, p)
    requires forall j :: 0 <= j < |before| ==> !LookupMatches(before[j], familyId, p)
    ensures i == |before|
  {
    assert forall j :: 0 <= j < |before| ==> cs[j] == before[j];
  }

  /**
   * GetControl filters on the enhancement only when it is positive: when the
   * only stored control is an enhancement of AC-2, such as AC-2(1), asking for
   * the base control "AC-2" returns that enhancement.
   */
  lemma BaseLookupFindsEnhancement(db: Tables, c: Control)
    requires db.controls == [c] && c.enhancement.Some?
    requires c.number == 2 && c.familyId == GetFamily(db, "AC").id
    ensures GetControl(db, "AC-2").id == c.id
  {
    ParseBaseExample();
    OnlyMatch(db, "AC-2", c);
  }

  /** When the only stored control matches the reference, GetControl returns it. */
  lemma OnlyMatch(db: Tables, control: string, c: Control)
    requires db.controls == [c]
    requires LookupMatches(c, GetFamily(db, ParseControlRef(control).family).id, ParseControlRef(control))
    ensures GetControl(db, control).id == c.id
  {
    assert LookupMatches(db.controls[0], GetControl(db, control).familyId, ParseControlRef(control));
  }

  // ---------------------------------------------------------------------
  // Reviewing a checklist entry
  // ---------------------------------------------------------------------

  /**
   * UpdateCKLCheck with the positive id of a stored entry changes exactly
   * that entry, and only its five reviewer columns.
   */
  lemma UpdateOneEntry(db: Tables, check: CklCheck, i: int)
    requires IdsFresh(db)
    requires check.id > 0 && 0 <= i < |db.cklChecks| && db.cklChecks[i].id == check.id
    ensures var r := UpdateCklCheck(db, check);
            && r.cklChecks[i] == Reviewed(db.cklChecks[i], check)
            && forall j :: 0 <= j < |db.cklChecks| && j != i ==> r.cklChecks[j] == db.cklChecks[j]
  {
    var r := UpdateCklCheck(db, check);
    forall j | 0 <= j < |db.cklChecks| && j != i
      ensures r.cklChecks[j] == db.cklChecks[j]
    {
      if UpdateTargets(check, db.cklChecks[j]) {
        AscendingUnique(db.cklChecks, CklCheckKey, db.last.cklCheck, i, j);
      }
    }
  }

  // ---------------------------------------------------------------------
  // A STIG's checks read back
  // ---------------------------------------------------------------------

  /** The STIG id AddSTIG files the checks under when it succeeds (dbmanager.cpp:439-471). */
  function AttachedStigId(db: Tables, stig: Stig): int {
    var found := GetStigByKey(db, stig.title, stig.version, stig.release);
    if stig.id > 0 then stig.id else if found.id > 0 then found.id else db.last.stig + 1
  }

  /** Selecting the checks of a STIG that had none, after appending its checks, gives exactly those. */
  lemma ChecksOfAppended(before: seq<StigCheck>, added: seq<StigCheck>, id: int)
    requires forall k :: 0 <= k < |before| ==> before[k].stigId != id
    requires forall k :: 0 <= k < |added| ==> added[k].stigId == id
    ensures Filter(before + added, (c: StigCheck) => c.stigId == id) == added
  {
    var keep := (c: StigCheck) => c.stigId == id;
    FilterAppend(before, added, keep);
    FilterKeepsNone(before, keep);
    FilterKeepsAll(added, keep);
  }

  /** `back` holds the given checks in order, numbered after `last` and filed under STIG `id`, every other column kept. */
  predicate ReadsBackAs(back: seq<StigCheck>, checks: seq<StigCheck>, id: int, last: int) {
    && |back| == |checks|
    && forall i :: 0 <= i < |back| ==> back[i] == checks[i].(id := last + 1 + i, stigId := id)
  }

  /**
   * When the STIG had no checks, GetSTIGChecks after AddSTIG returns the
   * given checks in order, each numbered and filed under the STIG, with
   * every column as given (with the corrected read-back).
   */
  lemma AddStigReadBack(db: Tables, stig: Stig, checks: seq<StigCheck>, stigExists: bool)
    requires AddStig(db, stig, checks, stigExists).ok
    requires forall k :: 0 <= k < |db.stigChecks| ==> db.stigChecks[k].stigId != AttachedStigId(db, stig)
    ensures var id := AttachedStigId(db, stig);
            ReadsBackAs(GetStigChecksCorrected(AddStig(db, stig, checks, stigExists).db, id), checks, id, db.last.stigCheck)
  {
    StigChecksAfterAdd(db, stig, checks, stigExists);
    ReadBackAppended(AddStig(db, stig, checks, stigExists).db, db.stigChecks, checks, AttachedStigId(db, stig),
                     db.last.stigCheck);
  }

  /**
   * GetSTIGChecks as written after AddSTIG: the same numbered checks, but
   * each with its responsibility text in place of its third-party tools.
   */
  lemma AddStigReadBackAsWritten(db: Tables, stig: Stig, checks: seq<StigCheck>, stigExists: bool)
    requires AddStig(db, stig, checks, stigExists).ok
    requires forall k :: 0 <= k < |db.stigChecks| ==> db.stigChecks[k].stigId != AttachedStigId(db, stig)
    ensures var id := AttachedStigId(db, stig);
            ReadsAsWritten(GetStigChecks(AddStig(db, stig, checks, stigExists).db, id),
                           NumberChecks(checks, id, db.last.stigCheck))
  {
    var id := AttachedStigId(db, stig);
    StigChecksAfterAdd(db, stig, checks, stigExists);
    ChecksOfAppended(db.stigChecks, NumberChecks(checks, id, db.last.stigCheck), id);
  }

  /** The STIGCheck table after a successful AddSTIG. */
  lemma StigChecksAfterAdd(db: Tables, stig: Stig, checks: seq<StigCheck>, stigExists: bool)
    requires AddStig(db, stig, checks, stigExists).ok
    ensures AddStig(db, stig, checks, stigExists).db.stigChecks
            == db.stigChecks + NumberChecks(checks, AttachedStigId(db, stig), db.last.stigCheck)
  {
  }

  /** The corrected GetSTIGChecks on tables whose only checks of STIG `id` are the numbered `checks` appended last. */
  lemma ReadBackAppended(r: Tables, before: seq<StigCheck>, checks: seq<StigCheck>, id: int, last: nat)
    requires r.stigChecks == before + NumberChecks(checks, id, last)
    requires forall k :: 0 <= k < |before| ==> before[k].stigId != id
    ensures ReadsBackAs(GetStigChecksCorrected(r, id), checks, id, last)
  {
    var added := NumberChecks(checks, id, last);
    ChecksOfAppended(before, added, id);
    assert ChecksOf(r, id) == added;
  }
}

=== FILE: storeprops.dfy ===
/**
 * The consistency the DbManager operations keep between them: ids handed
 * out by each AUTOINCREMENT counter, the uniqueness the guards and UNIQUE
 * columns enforce, and the links from AssetSTIG and CKLCheck rows to the
 * rows they refer to. Every operation of the store preserves it.
 */
module StoreProps {
  import opened Wrappers
  import opened Seqs
  import opened Store

  // ---------------------------------------------------------------------
  // The invariant
  // ---------------------------------------------------------------------

  function FamilyKey(f: Family): int { f.id }
  function ControlKey(c: Control): int { c.id }
  function CciKey(c: Cci): int { c.id }
  function StigKey(s: Stig): int { s.id }
  function StigCheckKey(c: StigCheck): int { c.id }
  function AssetKey(a: Asset): int { a.id }
  function AssetStigKey(x: AssetStig): int { x.id }
  function CklCheckKey(c: CklCheck): int { c.id }

  /** Every table's ids are positive, ascending and within its counter. */
  predicate IdsFresh(db: Tables) {
    && Ascending(db.families, FamilyKey, db.last.family)
    && Ascending(db.controls, ControlKey, db.last.control)
    && Ascending(db.ccis, CciKey, db.last.cci)
    && Ascending(db.stigs, StigKey, db.last.stig)
    && Ascending(db.stigChecks, StigCheckKey, db.last.stigCheck)
    && Ascending(db.assets, AssetKey, db.last.asset)
    && Ascending(db.assetStigs, AssetStigKey, db.last.assetStig)
    && Ascending(db.cklChecks, CklCheckKey, db.last.cklCheck)
  }

  /** Host names, CCI numbers, family acronyms and names, and STIG releases each occur once. */
  predicate UniqueKeys(db: Tables) {
    && (forall i, j :: 0 <= i < j < |db.assets| ==> db.assets[i].hostName != db.assets[j].hostName)
    && (forall i, j :: 0 <= i < j < |db.ccis| ==> db.ccis[i].cci != db.ccis[j].cci)
    && (forall i, j :: 0 <= i < j < |db.families| ==>
          db.families[i].acronym != db.families[j].acronym
          && db.families[i].description != db.families[j].description)
    && (forall i, j :: 0 <= i < j < |db.stigs| ==>
          !SameRelease(db.stigs[j], db.stigs[i].title, db.stigs[i].version, db.stigs[i].release))
  }

  predicate AssetExists(db: Tables, id: int) {
    exists j :: 0 <= j < |db.assets| && db.assets[j].id == id
  }

  predicate StigExists(db: Tables, id: int) {
    exists j :: 0 <= j < |db.stigs| && db.stigs[j].id == id
  }

  /** Some AssetSTIG row pairs the asset with the STIG. */
  predicate Mapped(db: Tables, assetId: int, stigId: int) {
    exists j :: 0 <= j < |db.assetStigs| && db.assetStigs[j].assetId == assetId && db.assetStigs[j].stigId == stigId
  }

  /** A checklist entry reviews an existing STIGCheck of a STIG its asset has selected. */
  predicate CklLinked(db: Tables, c: CklCheck) {
    AssetExists(db, c.assetId)
    && exists k :: 0 <= k < |db.stigChecks| && db.stigChecks[k].id == c.stigCheckId
                   && Mapped(db, c.assetId, db.stigChecks[k].stigId)
  }

  /** AssetSTIG rows name existing assets and STIGs; checklist entries are linked. */
  predicate Links(db: Tables) {
    && (forall i :: 0 <= i < |db.assetStigs| ==>
          AssetExists(db, db.assetStigs[i].assetId) && StigExists(db, db.assetStigs[i].stigId))
    && (forall i :: 0 <= i < |db.cklChecks| ==> CklLinked(db, db.cklChecks[i]))
  }

  predicate Valid(db: Tables) {
    IdsFresh(db) && UniqueKeys(db) && Links(db)
  }

  /** A freshly created schema is consistent. */
  lemma EmptyValid(vars: seq<Variable>)
    ensures Valid(EmptyTables.(variables := vars))
  {
  }

  // ---------------------------------------------------------------------
  // Growing tables keep links
  // ---------------------------------------------------------------------

  /** Rows were only appended to the tables links point into. */
  predicate Grows(db: Tables, db2: Tables) {
    db.assets <= db2.assets && db.stigs <= db2.stigs && db.stigChecks <= db2.stigChecks
    && db.assetStigs <= db2.assetStigs
  }

  lemma LinksGrow(db: Tables, db2: Tables)
    requires Links(db) && Grows(db, db2) && db.cklChecks <= db2.cklChecks
    requires forall i :: |db.assetStigs| <= i < |db2.assetStigs| ==>
               AssetExists(db2, db2.assetStigs[i].assetId) && StigExists(db2, db2.assetStigs[i].stigId)
    requires forall i :: |db.cklChecks| <= i < |db2.cklChecks| ==> CklLinked(db2, db2.cklChecks[i])
    ensures Links(db2)
  {
    forall i | 0 <= i < |db.assetStigs|
      ensures AssetExists(db2, db2.assetStigs[i].assetId) && StigExists(db2, db2.assetStigs[i].stigId)
    {
      assert db2.assetStigs[i] == db.assetStigs[i];
      var x := db.assetStigs[i];
      var ja :| 0 <= ja < |db.assets| && db.assets[ja].id == x.assetId;
      assert db2.assets[ja] == db.assets[ja];
      var js :| 0 <= js < |db.stigs| && db.stigs[js].id == x.stigId;
      assert db2.stigs[js] == db.stigs[js];
    }
    forall i | 0 <= i < |db.cklChecks|
      ensures CklLinked(db2, db2.cklChecks[i])
    {
      assert db2.cklChecks[i] == db.cklChecks[i];
      CklLinkedGrows(db, db2, db.cklChecks[i]);
    }
  }

  lemma CklLinkedGrows(db: Tables, db2: Tables, c: CklCheck)
    requires Grows(db, db2) && CklLinked(db, c)
    ensures CklLinked(db2, c)
  {
    var ja :| 0 <= ja < |db.assets| && db.assets[ja].id == c.assetId;
    assert db2.assets[ja] == db.assets[ja];
    var k :| 0 <= k < |db.stigChecks| && db.stigChecks[k].id == c.stigCheckId
             && Mapped(db, c.assetId, db.stigChecks[k].stigId);
    assert db2.stigChecks[k] == db.stigChecks[k];
    var j :| 0 <= j < |db.assetStigs| && db.assetStigs[j].assetId == c.assetId
             && db.assetStigs[j].stigId == db.stigChecks[k].stigId;
    assert db2.assetStigs[j] == db.assetStigs[j];
  }

  // ---------------------------------------------------------------------
  // Every operation keeps the invariant
  // ---------------------------------------------------------------------

  lemma DelayCommitValid(db: Tables, delay: bool)
    requires Valid(db)
    ensures Valid(DelayCommit(db, delay))
  {
  }

  lemma AddAssetValid(db: Tables, asset: Asset)
    requires Valid(db)
    ensures Valid(AddAsset(db, asset).db)
  {
    var r := AddAsset(db, asset);
    if r.ok {
      AppendAscending(db.assets, [asset.(id := db.last.asset + 1)], AssetKey, db.last.asset);
      LinksGrow(db, r.db);
    }
  }

  lemma AddCciValid(db: Tables, cci: Cci)
    requires Valid(db)
    ensures Valid(AddCci(db, cci).db)
  {
    if AddCci(db, cci).ok {
      CciAppendedValid(db, Cci(db.last.cci + 1, cci.controlId, cci.cci, cci.definition, false, "", "", "", ""));
    }
  }

  /** Appending a CCI numbered after the counter, with a number not yet stored, keeps the store consistent. */
  lemma CciAppendedValid(db: Tables, row: Cci)
    requires Valid(db) && row.id == db.last.cci + 1
    requires forall i :: 0 <= i < |db.ccis| ==> db.ccis[i].cci != row.cci
    ensures Valid(db.(ccis := db.ccis + [row], last := db.last.(cci := db.last.cci + 1)))
  {
    AppendAscending(db.ccis, [row], CciKey, db.last.cci);
  }

  lemma AddControlValid(db: Tables, control: string, title: string, description: string)
    requires Valid(db)
    ensures Valid(AddControl(db, control, title, description).db)
  {
    var r := AddControl(db, control, title, description).db;
    if AddControl(db, control, title, description).ok {
      var row := r.controls[|db.controls|];
      assert r == db.(controls := db.controls + [row], last := db.last.(control := db.last.control + 1));
      ControlAppendedValid(db, row);
    }
  }

  /** Appending a control numbered after the counter keeps the store consistent. */
  lemma ControlAppendedValid(db: Tables, row: Control)
    requires Valid(db) && row.id == db.last.control + 1
    ensures Valid(db.(controls := db.controls + [row], last := db.last.(control := db.last.control + 1)))
  {
    AppendAscending(db.controls, [row], ControlKey, db.last.control);
    LinksSameRows(db, db.(controls := db.controls + [row], last := db.last.(control := db.last.control + 1)));
  }

  /** Links only look at assets, STIGs, STIG checks, mappings and checklist entries. */
  lemma LinksSameRows(db: Tables, d2: Tables)
    requires Links(db)
    requires d2.assets == db.assets && d2.stigs == db.stigs && d2.stigChecks == db.stigChecks
    requires d2.assetStigs == db.assetStigs && d2.cklChecks == db.cklChecks
    ensures Links(d2)
  {
    forall i | 0 <= i < |d2.cklChecks|
      ensures CklLinked(d2, d2.cklChecks[i])
    {
      assert CklLinked(db, db.cklChecks[i]);
    }
  }

  lemma AddFamilyValid(db: Tables, sanitize: string -> string, acronym: string, description: string)
    requires Valid(db)
    ensures Valid(AddFamily(db, sanitize, acronym, description).db)
  {
    var r := AddFamily(db, sanitize, acronym, description);
    if r.ok {
      AppendAscending(db.families, [r.db.families[|db.families|]], FamilyKey, db.last.family);
    }
  }

  lemma DeleteCcisValid(db: Tables)
    requires Valid(db)
    ensures Valid(DeleteCcis(db).db)
  {
  }

  lemma ImportCciValid(db: Tables, cci: Cci)
    requires Valid(db)
    ensures Valid(ImportCci(db, cci))
  {
    var r := ImportCci(db, cci);
    assert forall i :: 0 <= i < |r.ccis| ==> r.ccis[i].id == db.ccis[i].id && r.ccis[i].cci == db.ccis[i].cci;
  }

  /**
   * The import as the program writes it, an UPDATE with no WHERE clause,
   * still keeps the store consistent: it rewrites only the import columns.
   */
  lemma ImportCciAsWrittenValid(db: Tables, cci: Cci)
    requires Valid(db)
    ensures Valid(ImportCciAsWritten(db, cci))
  {
    var r := ImportCciAsWritten(db, cci);
    forall i | 0 <= i < |r.ccis|
      ensures r.ccis[i].id == db.ccis[i].id && r.ccis[i].cci == db.ccis[i].cci
    {
      assert SameOutsideImport(r.ccis[i], db.ccis[i]);
    }
  }

  lemma UpdateCklCheckValid(db: Tables, check: CklCheck)
    requires Valid(db)
    ensures Valid(UpdateCklCheck(db, check))
  {
    var r := UpdateCklCheck(db, check);
    forall i | 0 <= i < |r.cklChecks|
      ensures CklLinked(r, r.cklChecks[i])
    {
      assert CklLinked(db, db.cklChecks[i]);
      CklLinkedGrows(db, r, db.cklChecks[i]);
    }
  }

  lemma AddStigValid(db: Tables, stig: Stig, checks: seq<StigCheck>, stigExists: bool)
    requires Valid(db)
    ensures Valid(AddStig(db, stig, checks, stigExists).db)
  {
    var r := AddStig(db, stig, checks, stigExists);
    if r.ok {
      var found := GetStigByKey(db, stig.title, stig.version, stig.release);
      var inserted := stig.id <= 0 && found.id <= 0;
      var id := if stig.id > 0 then stig.id else if found.id > 0 then found.id else db.last.stig + 1;
      var added := NumberChecks(checks, id, db.last.stigCheck);
      var stigs := if inserted then db.stigs + [stig.(id := id)] else db.stigs;
      assert r.db == db.(stigs := stigs, stigChecks := db.stigChecks + added,
                         last := db.last.(stig := if inserted then id else db.last.stig,
                                          stigCheck := db.last.stigCheck + |checks|));
      AppendStigValid(db, r.db, stig.(id := id), inserted, added);
    }
  }

  /** The tables AddSTIG leaves: possibly one new STIG row, and check rows numbered after the counter. */
  lemma AppendStigValid(db: Tables, db2: Tables, stig: Stig, inserted: bool, added: seq<StigCheck>)
    requires Valid(db)
    requires inserted ==> stig.id == db.last.stig + 1
                          && GetStigByKey(db, stig.title, stig.version, stig.release).id <= 0
    requires forall i :: 0 <= i < |added| ==> added[i].id == db.last.stigCheck + 1 + i
    requires db2 == db.(stigs := if inserted then db.stigs + [stig] else db.stigs,
                        stigChecks := db.stigChecks + added,
                        last := db.last.(stig := if inserted then stig.id else db.last.stig,
                                         stigCheck := db.last.stigCheck + |added|))
    ensures Valid(db2)
  {
    assert IdsFresh(db2) by {
      AppendAscending(db.stigChecks, added, StigCheckKey, db.last.stigCheck);
      if inserted {
        AppendAscending(db.stigs, [stig], StigKey, db.last.stig);
      }
    }
    assert UniqueKeys(db2) by {
      if inserted {
        NewReleaseUnique(db, stig);
      }
    }
    assert Links(db2) by {
      LinksGrow(db, db2);
    }
  }

  /** Appending a STIG whose release is not stored keeps releases unique. */
  lemma NewReleaseUnique(db: Tables, stig: Stig)
    requires UniqueKeys(db) && IdsFresh(db)
    requires GetStigByKey(db, stig.title, stig.version, stig.release).id <= 0
    ensures UniqueKeys(db.(stigs := db.stigs + [stig]))
  {
    var ss := db.stigs + [stig];
    forall i, j | 0 <= i < j < |ss|
      ensures !SameRelease(ss[j], ss[i].title, ss[i].version, ss[i].release)
    {
      if j == |db.stigs| {
        assert ss[i] == db.stigs[i];
        assert !SameRelease(db.stigs[i], stig.title, stig.version, stig.release);
      } else {
        assert ss[i] == db.stigs[i] && ss[j] == db.stigs[j];
      }
    }
  }

  lemma AddStigToAssetValid(db: Tables, stig: Stig, asset: Asset)
    requires Valid(db)
    ensures Valid(AddStigToAsset(db, stig, asset).db)
  {
    if AddStigToAsset(db, stig, asset).ok {
      var a := GetAsset(db, asset).id;
      var s := GetStig(db, stig).id;
      AttachedPair(db, stig, asset);
      AttachedValid(db, a, s);
    }
  }

  /** A successful AddSTIGToAsset is Attached for the stored asset and STIG it found. */
  lemma AttachedPair(db: Tables, stig: Stig, asset: Asset)
    requires AddStigToAsset(db, stig, asset).ok
    ensures AssetExists(db, GetAsset(db, asset).id) && StigExists(db, GetStig(db, stig).id)
    ensures AddStigToAsset(db, stig, asset).db == Attached(db, GetAsset(db, asset).id, GetStig(db, stig).id)
  {
    assert GetAsset(db, asset) in db.assets && GetStig(db, stig) in db.stigs;
  }

  /** The tables AddSTIGToAsset leaves for a stored asset and STIG. */
  function Attached(db: Tables, a: int, s: int): Tables {
    var checks := ChecksOf(db, s);
    db.(assetStigs := db.assetStigs + [AssetStig(db.last.assetStig + 1, a, s)],
        cklChecks := db.cklChecks + NewCklChecks(a, checks, db.last.cklCheck),
        last := db.last.(assetStig := db.last.assetStig + 1, cklCheck := db.last.cklCheck + |checks|))
  }

  /** Mapping a stored asset to a stored STIG keeps the store consistent. */
  lemma AttachedValid(db: Tables, a: int, s: int)
    requires Valid(db) && AssetExists(db, a) && StigExists(db, s)
    ensures Valid(Attached(db, a, s))
  {
    var checks := ChecksOf(db, s);
    var added := NewCklChecks(a, checks, db.last.cklCheck);
    var link := AssetStig(db.last.assetStig + 1, a, s);
    var r := Attached(db, a, s);
    AttachedIdsFresh(db, a, s);
    AttachLinks(db, r, a, s, link, checks, added);
  }

  lemma AttachedIdsFresh(db: Tables, a: int, s: int)
    requires IdsFresh(db)
    ensures IdsFresh(Attached(db, a, s))
  {
    var added := NewCklChecks(a, ChecksOf(db, s), db.last.cklCheck);
    AppendAscending(db.assetStigs, [AssetStig(db.last.assetStig + 1, a, s)], AssetStigKey, db.last.assetStig);
    AppendAscending(db.cklChecks, added, CklCheckKey, db.last.cklCheck);
  }

  /** The rows AddSTIGToAsset appends are linked. */
  lemma AttachLinks(db: Tables, db2: Tables, a: int, s: int, link: AssetStig, checks: seq<StigCheck>,
                    added: seq<CklCheck>)
    requires Links(db)
    requires AssetExists(db, a) && StigExists(db, s)
    requires link.assetId == a && link.stigId == s
    requires forall i :: 0 <= i < |checks| ==> checks[i] in db.stigChecks && checks[i].stigId == s
    requires added == NewCklChecks(a, checks, db.last.cklCheck)
    requires db2 == db.(assetStigs := db.assetStigs + [link], cklChecks := db.cklChecks + added,
                        last := db2.last)
    ensures Links(db2)
  {
    assert Mapped(db2, a, s) by {
      assert db2.assetStigs[|db.assetStigs|] == link;
    }
    forall i | |db.cklChecks| <= i < |db2.cklChecks|
      ensures CklLinked(db2, db2.cklChecks[i])
    {
      var c := db2.cklChecks[i];
      assert c == added[i - |db.cklChecks|];
      var check := checks[i - |db.cklChecks|];
      var k :| 0 <= k < |db.stigChecks| && db.stigChecks[k] == check;
      assert db2.stigChecks[k].id == c.stigCheckId && db2.stigChecks[k].stigId == s;
    }
    LinksGrow(db, db2);
  }

  /** Rows kept from a table with unique host names and ascending ids still have unique host names. */
  lemma KeptHostsUnique(s: seq<Asset>, r: seq<Asset>, last: int)
    requires Ascending(r, AssetKey, last)
    requires forall i :: 0 <= i < |r| ==> r[i] in s
    requires forall i, j :: 0 <= i < j < |s| ==> s[i].hostName != s[j].hostName
    ensures forall i, j :: 0 <= i < j < |r| ==> r[i].hostName != r[j].hostName
  {
    forall i, j | 0 <= i < j < |r|
      ensures r[i].hostName != r[j].hostName
    {
      var i' :| 0 <= i' < |s| && s[i'] == r[i];
      var j' :| 0 <= j' < |s| && s[j'] == r[j];
      assert AssetKey(r[i]) < AssetKey(r[j]);
    }
  }

  /** Rows kept from a table of distinct releases with ascending ids are still distinct releases. */
  lemma KeptReleasesUnique(s: seq<Stig>, r: seq<Stig>, last: int)
    requires Ascending(r, StigKey, last)
    requires forall i :: 0 <= i < |r| ==> r[i] in s
    requires forall i, j :: 0 <= i < j < |s| ==> !SameRelease(s[j], s[i].title, s[i].version, s[i].release)
    ensures forall i, j :: 0 <= i < j < |r| ==> !SameRelease(r[j], r[i].title, r[i].version, r[i].release)
  {
    forall i, j | 0 <= i < j < |r|
      ensures !SameRelease(r[j], r[i].title, r[i].version, r[i].release)
    {
      var i' :| 0 <= i' < |s| && s[i'] == r[i];
      var j' :| 0 <= j' < |s| && s[j'] == r[j];
      assert StigKey(r[i]) < StigKey(r[j]);
    }
  }

  lemma DeleteAssetValid(db: Tables, asset: Asset)
    requires Valid(db)
    ensures Valid(DeleteAsset(db, asset).db)
  {
    var r := DeleteAsset(db, asset);
    if r.ok {
      var keep := (a: Asset) => a.id != asset.id;
      assert r.db == db.(assets := Filter(db.assets, keep));
      FilterAscending(db.assets, keep, AssetKey, db.last.asset);
      KeptHostsUnique(db.assets, r.db.assets, db.last.asset);
      assert Links(r.db) by {
        UnmappedAssetLinks(db, r.db, asset.id);
      }
    }
  }

  /** Removing an asset that no AssetSTIG row names keeps every link. */
  lemma UnmappedAssetLinks(db: Tables, db2: Tables, gone: int)
    requires Links(db)
    requires !HasMappedStig(db, gone)
    requires db2 == db.(assets := db2.assets)
    requires forall i :: 0 <= i < |db.assets| && db.assets[i].id != gone ==> db.assets[i] in db2.assets
    ensures Links(db2)
  {
    forall id | AssetExists(db, id) && id != gone
      ensures AssetExists(db2, id)
    {
      var j :| 0 <= j < |db.assets| && db.assets[j].id == id;
      assert db.assets[j] in db2.assets;
    }
    forall i | 0 <= i < |db.assetStigs|
      ensures db.assetStigs[i].assetId != gone
    {
      var x := db.assetStigs[i];
      var js :| 0 <= js < |db.stigs| && db.stigs[js].id == x.stigId;
    }
    forall i | 0 <= i < |db.cklChecks|
      ensures CklLinked(db2, db2.cklChecks[i])
    {
      var c := db.cklChecks[i];
      var k :| 0 <= k < |db.stigChecks| && db.stigChecks[k].id == c.stigCheckId
               && Mapped(db, c.assetId, db.stigChecks[k].stigId);
      var j :| 0 <= j < |db.assetStigs| && db.assetStigs[j].assetId == c.assetId
               && db.assetStigs[j].stigId == db.stigChecks[k].stigId;
      assert c.assetId != gone;
    }
  }

  lemma DeleteStigValid(db: Tables, id: int)
    requires Valid(db)
    ensures Valid(DeleteStig(db, id).db)
  {
    var r := DeleteStig(db, id);
    if r.ok {
      var keepCheck := (c: StigCheck) => c.stigId != id;
      var keepStig := (s: Stig) => s.id != id;
      assert r.db == db.(stigChecks := Filter(db.stigChecks, keepCheck), stigs := Filter(db.stigs, keepStig));
      assert IdsFresh(r.db) by {
        FilterAscending(db.stigChecks, keepCheck, StigCheckKey, db.last.stigCheck);
        FilterAscending(db.stigs, keepStig, StigKey, db.last.stig);
      }
      assert UniqueKeys(r.db) by {
        FilterAscending(db.stigs, keepStig, StigKey, db.last.stig);
        KeptReleasesUnique(db.stigs, r.db.stigs, db.last.stig);
      }
      assert Links(r.db) by {
        UnusedStigLinks(db, r.db, id);
      }
    }
  }

  /** Removing a STIG that no asset uses, and its checks, keeps every link. */
  lemma UnusedStigLinks(db: Tables, db2: Tables, gone: int)
    requires Links(db)
    requires !HasUsingAsset(db, GetStigById(db, gone).id)
    requires db2 == db.(stigs := db2.stigs, stigChecks := db2.stigChecks)
    requires forall i :: 0 <= i < |db.stigs| && db.stigs[i].id != gone ==> db.stigs[i] in db2.stigs
    requires forall i :: 0 <= i < |db.stigChecks| && db.stigChecks[i].stigId != gone ==>
               db.stigChecks[i] in db2.stigChecks
    ensures Links(db2)
  {
    UnusedStigUnlinked(db, gone);
    forall i | 0 <= i < |db.assetStigs|
      ensures StigExists(db2, db.assetStigs[i].stigId)
    {
      assert StigExists(db, db.assetStigs[i].stigId);
      assert exists js :: 0 <= js < |db.stigs| && db.stigs[js].id == db.assetStigs[i].stigId;
      var js :| 0 <= js < |db.stigs| && db.stigs[js].id == db.assetStigs[i].stigId;
      assert db.stigs[js] in db2.stigs;
    }
    forall i | 0 <= i < |db.cklChecks|
      ensures CklLinked(db2, db2.cklChecks[i])
    {
      CklKept(db, db2, gone, db.cklChecks[i]);
    }
  }

  /** No AssetSTIG row names a STIG that no asset uses. */
  lemma UnusedStigUnlinked(db: Tables, gone: int)
    requires Links(db)
    requires !HasUsingAsset(db, GetStigById(db, gone).id)
    ensures forall i :: 0 <= i < |db.assetStigs| ==> db.assetStigs[i].stigId != gone
  {
    forall i | 0 <= i < |db.assetStigs|
      ensures db.assetStigs[i].stigId != gone
    {
      var x := db.assetStigs[i];
      var ja :| 0 <= ja < |db.assets| && db.assets[ja].id == x.assetId;
    }
  }

  /** A checklist entry stays linked when only the unused STIG's rows go. */
  lemma CklKept(db: Tables, db2: Tables, gone: int, c: CklCheck)
    requires CklLinked(db, c)
    requires forall i :: 0 <= i < |db.assetStigs| ==> db.assetStigs[i].stigId != gone
    requires db2.assets == db.assets && db2.assetStigs == db.assetStigs
    requires forall i :: 0 <= i < |db.stigChecks| && db.stigChecks[i].stigId != gone ==>
               db.stigChecks[i] in db2.stigChecks
    ensures CklLinked(db2, c)
  {
    var k :| 0 <= k < |db.stigChecks| && db.stigChecks[k].id == c.stigCheckId
             && Mapped(db, c.assetId, db.stigChecks[k].stigId);
    var j :| 0 <= j < |db.assetStigs| && db.assetStigs[j].assetId == c.assetId
             && db.assetStigs[j].stigId == db.stigChecks[k].stigId;
    assert db.stigChecks[k] in db2.stigChecks;
    var k2 :| 0 <= k2 < |db2.stigChecks| && db2.stigChecks[k2] == db.stigChecks[k];
  }

  lemma DeleteStigFromAssetValid(db: Tables, stig: Stig, asset: Asset)
    requires Valid(db)
    ensures Valid(DeleteStigFromAsset(db, stig, asset).db)
  {
    var r := DeleteStigFromAsset(db, stig, asset);
    if r.ok {
      var s := GetStig(db, stig).id;
      var a := GetAsset(db, asset).id;
      var keepLink := (x: AssetStig) => !(x.assetId == a && x.stigId == s);
      var keepCkl := (c: CklCheck) => !InChecklist(db, c, a, s);
      assert r.db == db.(assetStigs := Filter(db.assetStigs, keepLink), cklChecks := Filter(db.cklChecks, keepCkl));
      assert IdsFresh(r.db) by {
        FilterAscending(db.assetStigs, keepLink, AssetStigKey, db.last.assetStig);
        FilterAscending(db.cklChecks, keepCkl, CklCheckKey, db.last.cklCheck);
      }
      assert Links(r.db) by {
        DetachLinks(db, r.db, a, s);
      }
    }
  }

  /** With ascending STIGCheck ids, an id names one check, so its STIG is determined. */
  lemma CheckStigUnique(db: Tables, k: int, k2: int)
    requires IdsFresh(db)
    requires 0 <= k < |db.stigChecks| && 0 <= k2 < |db.stigChecks|
    requires db.stigChecks[k].id == db.stigChecks[k2].id
    ensures db.stigChecks[k].stigId == db.stigChecks[k2].stigId
  {
    AscendingUnique(db.stigChecks, StigCheckKey, db.last.stigCheck, k, k2);
  }

  /** Removing a pair's AssetSTIG rows together with the asset's entries for that STIG keeps every link. */
  lemma DetachLinks(db: Tables, db2: Tables, a: int, s: int)
    requires Links(db)
    requires db2 == db.(assetStigs := db2.assetStigs, cklChecks := db2.cklChecks)
    requires forall i :: 0 <= i < |db2.assetStigs| ==> db2.assetStigs[i] in db.assetStigs
    requires forall i :: 0 <= i < |db.assetStigs| && !(db.assetStigs[i].assetId == a && db.assetStigs[i].stigId == s) ==>
               db.assetStigs[i] in db2.assetStigs
    requires forall i :: 0 <= i < |db2.cklChecks| ==> db2.cklChecks[i] in db.cklChecks && !InChecklist(db, db2.cklChecks[i], a, s)
    ensures Links(db2)
  {
    forall i | 0 <= i < |db2.assetStigs|
      ensures AssetExists(db2, db2.assetStigs[i].assetId) && StigExists(db2, db2.assetStigs[i].stigId)
    {
      assert db2.assetStigs[i] in db.assetStigs;
      assert exists i' :: 0 <= i' < |db.assetStigs| && db.assetStigs[i'] == db2.assetStigs[i];
      var i' :| 0 <= i' < |db.assetStigs| && db.assetStigs[i'] == db2.assetStigs[i];
    }
    forall i | 0 <= i < |db2.cklChecks|
      ensures CklLinked(db2, db2.cklChecks[i])
    {
      var c := db2.cklChecks[i];
      var i' :| 0 <= i' < |db.cklChecks| && db.cklChecks[i'] == c;
      DetachKeepsEntry(db, db2, a, s, c);
    }
  }

  /** An entry outside the detached checklist keeps the mapping that links it. */
  lemma DetachKeepsEntry(db: Tables, db2: Tables, a: int, s: int, c: CklCheck)
    requires CklLinked(db, c) && !InChecklist(db, c, a, s)
    requires db2.assets == db.assets && db2.stigChecks == db.stigChecks
    requires forall i :: 0 <= i < |db.assetStigs| && !(db.assetStigs[i].assetId == a && db.assetStigs[i].stigId == s) ==>
               db.assetStigs[i] in db2.assetStigs
    ensures CklLinked(db2, c)
  {
    var k :| 0 <= k < |db.stigChecks| && db.stigChecks[k].id == c.stigCheckId
             && Mapped(db, c.assetId, db.stigChecks[k].stigId);
    var j :| 0 <= j < |db.assetStigs| && db.assetStigs[j].assetId == c.assetId
             && db.assetStigs[j].stigId == db.stigChecks[k].stigId;
    assert c.assetId != a || db.stigChecks[k].stigId != s;
    var j2 :| 0 <= j2 < |db2.assetStigs| && db2.assetStigs[j2] == db.assetStigs[j];
    assert Mapped(db2, c.assetId, db2.stigChecks[k].stigId);
  }
}

=== FILE: wrappers.dfy ===
/** Optional values, used for nullable columns and for lookups that may find nothing. */
module Wrappers {

  datatype Option<+T> = None | Some(value: T) {

    /** Returns the value held in Some, or `default` for None. */
    function GetOr(default: T): T {
      match this
      case Some(v) => v
      case None => default
    }
  }
}

=== FILE: xml.dfy ===
/**
 * The reader loops of the import workers see an XML document as the stream
 * of its start elements. Each start element carries its name, its
 * attributes and the text readElementText() would return for it; a STIG
 * rule description, which is itself parsed as a small document, also
 * carries the start elements of that inner document with their texts.
 */
module XmlEvents {

  /** A start element of an embedded document and the text it encloses. */
  datatype Field = Field(name: string, text: string)

  /** A start element as the reader loop sees it. */
  datatype Elem = Start(name: string, attrs: map<string, string>, text: string, inner: seq<Field>)

  /** attributes().hasAttribute(key). */
  predicate HasAttr(e: Elem, key: string) {
    key in e.attrs
  }

  /** The value of attribute `key`, or the null string when the element has none. */
  function Attr(e: Elem, key: string): string {
    if key in e.attrs then e.attrs[key] else ""
  }

  /** A start element without attributes or inner document. */
  function Plain(name: string, text: string): Elem {
    Start(name, map[], text, [])
  }
}
